=== FILE: README.md ===
# FFFactory core, modelled in Dafny

FFFactory prepares 3D models for printing. It loads meshes (STL, OBJ),
orients and repairs them, and scales them to a set of heights. It then
drives PrusaSlicer from the command line, parses the slicer's text reports
and prices the prints. This project models the repository's own sequential
logic around the slicer and the mesh libraries. It has five parts:

- **Mesh file codec** (`binary_stl.dfy`, `mesh_files.dfy`). This covers:
  - the binary STL layout: an 80-byte header, a little-endian `uint32` facet count, then 50-byte records;
  - telling ASCII STL from binary STL;
  - the ASCII STL, OBJ and binary STL loaders;
  - the loader table of `load_mesh`;
  - naming of the loaded parts;
  - the binary writer and its output file names.

  Every 32-bit float is an opaque 4-byte word, so layout, counts, order and names are exact.
- **Slicer options and their serialiser** (`option_types.dfy`, `slicer_options.dfy`, `prusa_options.dfy`, `prusa_transform.dfy`). This covers:
  - the validated option value types;
  - the attribute dictionary of an option holder;
  - the `--kebab-name` serialiser;
  - the holders that clear themselves after being read;
  - the file list;
  - the transform setters.
- **Slicer report parsers** (`prusa_cmd_tools.dfy`). This covers:
  - the export line, with the greedy `.*` and `\b` of its regular expression;
  - the `manifold = yes/no` rewrite;
  - the table-name rewrite;
  - the chunking of the info report;
  - the mapping of each table to one record.
- **Small rules**:
  - `print_time_to_minutes` and the `_fix_mesh` operation order, plus the scale heights (`calculate_print.dfy`);
  - the slicer command line and G-code name (`slicer.dfy`);
  - `clean_name` (`string_tools.dfy`);
  - the Blender render-config importer (`config_importer.dfy`).
- **Mesh-processor pipeline** (`mesh_types.dfy`). Decorators run in order, each output becomes the next input, and output names are prefixed. An existing output short-circuits the work, and the processed mesh is computed once.

The file system is a value holding two sets: the paths that are files and the paths that are directories. `paths.dfy` gives POSIX `basename`, `dirname` and `join` over it. `text.dfy` gives the Python string operations the code relies on: `str.replace` (leftmost, non-overlapping), `split`, `join`, `strip`, `int()` of a string (ASCII digits, an optional sign, single `_` between digits, surrounding whitespace) and `str()` of integers. `wrappers.dfy` holds `Option` and `Result`: an exception is an `Err` value.

Operations that change state are methods on classes, proved against functions on values:
- `MeshTypes.MeshProcessor` (its input file and its cache);
- `PrusaOptions.OptionsHolder` and `PrusaOptions.FileOptions`;
- `PrusaTransform.Transform`, which writes into a shared holder;
- `CalculatePrint.ScalerGroupBase` (its model);
- `ConfigImporter.YamlDocument`, which the importer pops a key from.

Loops are `while`/`for` loops with invariants.

## Model

| member | source | states |
|---|---|---|
| BinaryStl.DecodeU32 | auto_slicer/utils/tweaker/FileHandler.py:310 | an unpacked little-endian `uint32` is below 2^32 |
| BinaryStl.EncodeU32 | auto_slicer/utils/tweaker/FileHandler.py:110 | a packed count is 4 bytes and unpacks to the same count |
| BinaryStl.ReadBinary | auto_slicer/utils/tweaker/FileHandler.py:309-317 | the record loop reads exactly what the layout function `DecodeBinary` describes: the count, then three corners per record |
| BinaryStl.RecordsAt | auto_slicer/utils/tweaker/FileHandler.py:312-316 | decoding yields 3·count vertices; vertex k is the 12 bytes at offset 12 + 12·(k mod 3) inside record k div 3, i.e. floats 4 to 12, and the normal and attribute bytes are never read |
| BinaryStl.CornerAt | auto_slicer/utils/tweaker/FileHandler.py:314-316 | corner r of record q is the vertex at byte 12 + 12·r of that record |
| BinaryStl.EncodeVertex | auto_slicer/utils/tweaker/FileHandler.py:195-198 | a vertex packs to 12 bytes that read back as the same vertex |
| BinaryStl.EncodeFacet | auto_slicer/utils/tweaker/FileHandler.py:194-201 | a facet packs to 50 bytes: the normal first, then v0, v1, v2, then a zero `uint16` |
| BinaryStl.EncodeFacets | auto_slicer/utils/tweaker/FileHandler.py:112 | the joined records take 50 bytes per facet |
| BinaryStl.PadRight | auto_slicer/utils/tweaker/FileHandler.py:99-100 | `ljust` keeps the text, pads with spaces up to the width and never truncates |
| BinaryStl.HeaderSize | auto_slicer/utils/tweaker/FileHandler.py:99-100 | a header built from a time stamp of at most 79 bytes is exactly 80 bytes and ends with `\n` |
| BinaryStl.BinaryFile | auto_slicer/utils/tweaker/FileHandler.py:103-112 | a file is the header, the 4-byte count and 50 bytes per facet; packing fails exactly when the count does not fit in `uint32` |
| BinaryStl.RecordsOfEncoded | auto_slicer/utils/tweaker/FileHandler.py:112 | the records of encoded facets, wherever they sit in a byte string, decode to the facets' corners in mesh order |
| BinaryStl.CountOfWritten | auto_slicer/utils/tweaker/FileHandler.py:110-112 | the count written after any header reads back from right after that header |
| BinaryStl.DecodeWritten | auto_slicer/utils/tweaker/FileHandler.py:110-112 | decoding a header, a count and the records of the facets gives back the facets' corners |
| BinaryStl.RoundTrip | auto_slicer/utils/tweaker/FileHandler.py:99-112 | a file written by the binary writer loads, with the count read after the 80-byte header, to the corners of every facet in order |
| BinaryStl.HeaderPadding | auto_slicer/utils/tweaker/FileHandler.py:99-100 | with a stamp of at most 75 bytes, header bytes 75 to 78 are spaces |
| BinaryStl.AsWrittenMisreadsCount | auto_slicer/utils/tweaker/FileHandler.py:309-310 | the loader as written reads the count at byte 75 of a freshly opened file, so it fails on every file the writer produces from a stamp of at most 75 bytes (and fewer than 0x20202020 facets) |
| BinaryStl.SpacesAsCount | auto_slicer/utils/tweaker/FileHandler.py:309-313 | four spaces read as the count ask for 0x20202020 records, more than the file holds, so the read is short |
| BinaryStl.DecodeBinary | auto_slicer/utils/tweaker/FileHandler.py:309-317 | reading the count at any offset: only a short read fails (`struct.error`); otherwise the file holds the count and that many 50-byte records, and three corners come back per record |
| BinaryStl.LoadBinary | auto_slicer/utils/tweaker/FileHandler.py:303-317 | corrected, the count is bytes 80 to 83, right after the header: the load succeeds exactly when the file is long enough for it |
| BinaryStl.LoadBinaryAsWritten | auto_slicer/utils/tweaker/FileHandler.py:309-310 | as written, the count is bytes 75 to 78 (`read(80 - 5)`): the load succeeds exactly when the file is long enough for that count |
| MeshFiles.FloatAt | auto_slicer/utils/tweaker/FileHandler.py:272 | `float(data[k])`: an `IndexError` past the end, otherwise the parse result |
| MeshFiles.ParseVertex | auto_slicer/utils/tweaker/FileHandler.py:293-294 | a vertex line gives the first three numbers after its keyword, in order, and fails when one is missing or not a number |
| MeshFiles.LoadAscii | auto_slicer/utils/tweaker/FileHandler.py:287-300 | the line loop computes the scan function `AsciiMeshes`: vertices go to the current part, `endsolid` opens the next part, and the short parts are dropped |
| MeshFiles.AsciiScanErr | auto_slicer/utils/tweaker/FileHandler.py:291-294 | the first line that raises decides the error; later lines change nothing |
| MeshFiles.AsciiScanCounts | auto_slicer/utils/tweaker/FileHandler.py:291-298 | there is one closed part per line containing "endsolid", and the parts together hold one vertex per line containing "vertex" |
| MeshFiles.Keep | auto_slicer/utils/tweaker/FileHandler.py:300 | the kept parts are parts of the input, each with more than three vertices |
| MeshFiles.KeepLong | auto_slicer/utils/tweaker/FileHandler.py:300 | parts of more than three vertices all survive, in order |
| MeshFiles.KeepDropsShort | auto_slicer/utils/tweaker/FileHandler.py:300 | a part of at most three vertices, such as a single-triangle solid, is dropped wherever it stands |
| MeshFiles.PyIndex | auto_slicer/utils/tweaker/FileHandler.py:276-278 | Python indexing: in range from the front or, for negative indices, from the back; `IndexError` otherwise |
| MeshFiles.FaceOf | auto_slicer/utils/tweaker/FileHandler.py:275-278 | a face line contributes exactly three vertices |
| MeshFiles.FaceLines | auto_slicer/utils/tweaker/FileHandler.py:274 | one face line per line containing "f" |
| MeshFiles.ReadObjVertices | auto_slicer/utils/tweaker/FileHandler.py:270-272 | the first pass collects one vertex per line containing "v", in line order |
| MeshFiles.ObjVerticesErr | auto_slicer/utils/tweaker/FileHandler.py:270-272 | the first vertex line that raises decides the error of the whole pass |
| MeshFiles.ReadObjFaces | auto_slicer/utils/tweaker/FileHandler.py:273-278 | the second pass, from the start of the file again, appends three corners per line containing "f" |
| MeshFiles.ObjFacesErr | auto_slicer/utils/tweaker/FileHandler.py:273-278 | the first face line that raises decides the error of the whole pass |
| MeshFiles.LoadObj | auto_slicer/utils/tweaker/FileHandler.py:267-279 | corrected (the file read as text): the two passes one after the other, as the value `ObjMesh` |
| MeshFiles.ObjMeshesAsWritten | auto_slicer/utils/tweaker/FileHandler.py:263-279 | as written, the file is opened `'rb'`, so `"v" in line` raises `TypeError` on the first line: only an empty file loads, to one empty mesh |
| MeshFiles.ObjFacesCount | auto_slicer/utils/tweaker/FileHandler.py:274-278 | the mesh holds exactly three vertices per face line |
| MeshFiles.ObjFaceAt | auto_slicer/utils/tweaker/FileHandler.py:274-278 | the k-th face line's three corners are mesh vertices 3k, 3k+1 and 3k+2, in order |
| MeshFiles.FaceCornerOneBased | auto_slicer/utils/tweaker/FileHandler.py:276 | face index n, between 1 and the vertex count, names vertex n - 1: OBJ indices start at 1 |
| MeshFiles.FaceCornerZero | auto_slicer/utils/tweaker/FileHandler.py:276 | index 0, invalid in OBJ, silently names the last vertex |
| MeshFiles.LowerByte | auto_slicer/utils/tweaker/FileHandler.py:327 | `bytes.lower()` maps only A to Z |
| MeshFiles.AsciiSniff | auto_slicer/utils/tweaker/FileHandler.py:327 | `"solid" in str(read(5).lower())`: fewer than 5 bytes is never ASCII, `solid` in any case is, and an ASCII file starts with `s` or `S` |
| MeshFiles.UnpackAll | auto_slicer/utils/tweaker/FileHandler.py:313-316 | every word of every vertex is unpacked, in order |
| MeshFiles.BinaryMeshes | auto_slicer/utils/tweaker/FileHandler.py:303-317 | with the count read at `countAt` (80 corrected, 75 as written), the binary loader returns a single part holding every record's corners, and fails exactly when the layout does, with its error |
| MeshFiles.StlMeshes | auto_slicer/utils/tweaker/FileHandler.py:320-334 | "solid" in the first 5 bytes, lower-cased, selects the ASCII loader; a decode error, or no "solid", selects the binary loader reading the count at `countAt` (80 corrected, 75 as written) |
| MeshFiles.StampedNotAscii | auto_slicer/utils/tweaker/FileHandler.py:99-100 | a header starting with `T` ("Tweaked on …") is never taken for ASCII |
| MeshFiles.WrittenStlLoads | auto_slicer/utils/tweaker/FileHandler.py:99-112 | corrected (count after the 80-byte header): a file from the binary writer is taken for binary and loads to exactly its facets' corners, in order |
| MeshFiles.WrittenStlFailsAsWritten | auto_slicer/utils/tweaker/FileHandler.py:309-310 | as written (count at byte 75), the same files, with a stamp of at most 75 bytes and fewer than 0x20202020 facets, fail with `struct.error` |
| MeshFiles.SelectLoader | auto_slicer/utils/tweaker/FileHandler.py:337-348 | the loader chosen is the first of `.3mf`, `.obj`, `.stl` that ends the path; there is none exactly when no suffix matches |
| MeshFiles.MeshName | auto_slicer/utils/tweaker/FileHandler.py:222-226 | the name is the loader type, a space, then the file label; an unset type raises |
| MeshFiles.NameParts | auto_slicer/utils/tweaker/FileHandler.py:232-239 | one named part per loaded mesh, in load order, named `mesh_name + ' ' + index` |
| MeshFiles.PartNamesDistinct | auto_slicer/utils/tweaker/FileHandler.py:237 | different loaded parts get different names |
| MeshFiles.LoadMesh | auto_slicer/utils/tweaker/FileHandler.py:344-348 | corrected loaders (OBJ read as text, STL count at byte 80): an unsupported suffix raises, naming the path; loaded parts are named by their position |
| MeshFiles.NameLoaded | auto_slicer/utils/tweaker/FileHandler.py:232-239 | `load` keeps a loader's error; otherwise one named part per mesh, in order, named `type label index` |
| MeshFiles.Loaded | auto_slicer/utils/tweaker/FileHandler.py:254-334 | corrected, per loader: OBJ fails exactly when the text does not decode or `ObjMesh` fails, and gives one part; STL is `StlMeshes` with the count at byte 80 |
| MeshFiles.LoadedAsWritten | auto_slicer/utils/tweaker/FileHandler.py:254-334 | as written, per loader: OBJ is `ObjMeshesAsWritten`; STL is `StlMeshes` with the count at byte 75 |
| MeshFiles.LoadMeshAsWritten | auto_slicer/utils/tweaker/FileHandler.py:344-348 | as written: an unsupported suffix raises, naming the path; loaded parts are named by their position |
| MeshFiles.LoadMeshOnePart | auto_slicer/utils/tweaker/FileHandler.py:232-239 | a loader yielding one mesh gives a single part named `type label 0` |
| MeshFiles.AsWrittenObjRaises | auto_slicer/utils/tweaker/FileHandler.py:263-270 | as written, every non-empty `.obj` file raises `TypeError` |
| MeshFiles.LoadMeshObj | auto_slicer/utils/tweaker/FileHandler.py:262-279 | corrected, a decodable `.obj` file loads to the one mesh of `ObjMesh`, named `obj label 0` |
| MeshFiles.LoadMeshWrittenStl | auto_slicer/utils/tweaker/FileHandler.py:99-112 | corrected, `load_mesh` of a `.stl` file from the binary writer gives one part, `stl label 0`, holding every facet's corners |
| MeshFiles.LoadMeshWrittenStlAsWritten | auto_slicer/utils/tweaker/FileHandler.py:309-310 | as written, `load_mesh` of the same file fails with `struct.error` |
| MeshFiles.PartFileName | auto_slicer/utils/tweaker/FileHandler.py:106-109 | a single part is written to the output file itself; with several parts the name ends in `_<part>.stl` |
| MeshFiles.PartFileNamesDistinct | auto_slicer/utils/tweaker/FileHandler.py:106-109 | the parts of a multi-part mesh are written to different files |
| MeshFiles.RotateBin | auto_slicer/utils/tweaker/FileHandler.py:159-191 | `rotate_bin_stl` raises `IndexError` on an empty part and `ValueError` when the vertex count is not a multiple of three; otherwise it gives one facet per triangle |
| MeshFiles.RotatedAt | auto_slicer/utils/tweaker/FileHandler.py:168-191 | facet k is triangle k (vertices 3k, 3k+1, 3k+2) rotated by the part's matrix |
| MeshFiles.RotatedKeepsCorners | auto_slicer/utils/tweaker/FileHandler.py:168-191 | a rotation that keeps every corner writes the part's own vertices back, in order |
| MeshFiles.PartFile | auto_slicer/utils/tweaker/FileHandler.py:101-112 | a part fails with `KeyError` without an `info` entry, then with the errors of `rotate_bin_stl`, then with `struct.error` when `len(mesh) / 3` does not fit in `uint32`; otherwise its file is the header, the count and the facets |
| MeshFiles.BinaryWrites | auto_slicer/utils/tweaker/FileHandler.py:101-112 | one file per part until a part raises; the loop finishes exactly when every part can be written, and then every part is written |
| MeshFiles.BinaryWritesError | auto_slicer/utils/tweaker/FileHandler.py:101-112 | a failed write raises the exception of the first part that fails, after writing every part before it |
| MeshFiles.BinaryWritesStops | auto_slicer/utils/tweaker/FileHandler.py:101-112 | once a part raises, no later part is written |
| MeshFiles.WriteBinaryMesh | auto_slicer/utils/tweaker/FileHandler.py:97-112 | the write loop (lookup, rotation, packing) produces exactly the files and the exception of `BinaryWrites`, with the header built from the time stamp |
| MeshFiles.BinaryWritesReadBack | auto_slicer/utils/tweaker/FileHandler.py:101-112 | the k-th file written carries the k-th part's name and loads back to the corners of that part's rotated facets |
| MeshFiles.BinaryWritesGrow | auto_slicer/utils/tweaker/FileHandler.py:101-112 | writing one more part keeps the files written before and adds at most that part's own file, named for its part |
| OptionTypes.Value | FFFactory/utils/auto_slicer/slicer_types/slicer_types.py:6-12 | a flag's value is always `True`, and only a flag's value is a bool |
| OptionTypes.ValueRoundTrip | FFFactory/own_types.py:9-25 | `value` returns the constructor arguments unchanged and in argument order, so class and value rebuild the option |
| OptionTypes.ReprNamesClass | FFFactory/own_types.py:20-21 | `repr` starts with the class name, then `(` |
| OptionTypes.IntegerStrRoundTrip | FFFactory/own_types.py:17-18 | `str` of an integer option reads back as the integer |
| OptionTypes.Construct | FFFactory/own_types.py:9-15 | construction succeeds exactly when the value check accepts, keeps the value, and otherwise raises `ValueError` naming the value |
| OptionTypes.ConstructAsWritten | FFFactory/own_types.py:11-12 | as written, construction still succeeds exactly when `_check_value_valid` accepts |
| OptionTypes.AsWrittenTupleRaisesTypeError | FFFactory/own_types.py:12 | as written, a rejected pair or triple raises `TypeError` from the `%` formatting, not the intended `ValueError` |
| OptionTypes.AsWrittenAgreesOffTuples | FFFactory/own_types.py:11-12 | away from tuple values, the code as written and the corrected constructor agree |
| OptionTypes.UnsignedRejectsNegative | FFFactory/utils/auto_slicer/slicer_types/slicer_types.py:34-88 | the unsigned pair, triple, integer and decimal can be built exactly when no component is negative |
| OptionTypes.SignedAcceptAll | FFFactory/utils/auto_slicer/slicer_types/slicer_types.py:6-97 | the flag, `XY`, `XYZ`, `N` and `X` accept every value and keep it |
| OptionTypes.PathChecks | FFFactory/utils/systems_util.py:10-32 | a path option needs the path to exist; a file or directory option implies that; a dir-name option needs only the parent to exist |
| OptionTypes.CheckValidPaths | FFFactory/utils/systems_util.py:10-32 | an existing-file check holds exactly for files, an existing-dir check exactly for directories, an existing-path check for either |
| OptionTypes.CheckValidIgnoresFs | FFFactory/utils/auto_slicer/slicer_types/slicer_types.py:6-97 | the checks of the non-path types do not look at the file system |
| SlicerOptions.SetAttrOnly | FFFactory/auto_slicer/utils/slicer/prusa_slicer/prusa_transform.py:26-72 | after `setattr` the attribute holds the new value and every other attribute reads as before |
| SlicerOptions.SetAttrTwice | FFFactory/auto_slicer/utils/slicer/prusa_slicer/prusa_transform.py:65-69 | setting an attribute twice leaves only the latest value |
| SlicerOptions.SetAttrKeys | FFFactory/auto_slicer/utils/slicer/prusa_slicer/prusa_transform.py:26-72 | `setattr` adds a name only when it was missing, and then at the end |
| SlicerOptions.SetAttrDistinct | FFFactory/auto_slicer/utils/slicer/prusa_slicer/prusa_transform.py:26-72 | `setattr` keeps the names of a `__dict__` distinct |
| SlicerOptions.Public | FFFactory/auto_slicer/utils/slicer/slicer_types/slicer_options.py:14-20 | no option name starts with `_` |
| SlicerOptions.PublicLookup | FFFactory/auto_slicer/utils/slicer/slicer_types/slicer_options.py:14-20 | the options are exactly the attributes whose names do not start with `_`, with their values unchanged |
| SlicerOptions.GetDctOptions | FFFactory/auto_slicer/utils/slicer/slicer_types/slicer_options.py:14-20 | the copying loop yields exactly the public attributes, in order |
| SlicerOptions.PriorityOf | FFFactory/auto_slicer/utils/slicer/slicer_types/slicer_options.py:8-12 | `priority` raises exactly when it is unset and otherwise returns it |
| SlicerOptions.Cleared | FFFactory/auto_slicer/utils/slicer/slicer_types/slicer_options.py:38-40 | clearing keeps the number of attributes |
| SlicerOptions.ClearedKeepsKeys | FFFactory/auto_slicer/utils/slicer/slicer_types/slicer_options.py:38-40 | clearing keeps every name, in place |
| SlicerOptions.ClearedLookup | FFFactory/auto_slicer/utils/slicer/slicer_types/slicer_options.py:38-40 | clearing leaves private attributes as they were and sets each public one to `None` |
| SlicerOptions.ClearedOptionsUnset | FFFactory/auto_slicer/utils/slicer/slicer_types/slicer_options.py:38-46 | after clearing, every option is `None` and there are as many options as before |
| SlicerOptions.ClearedIdempotent | FFFactory/auto_slicer/utils/slicer/slicer_types/slicer_options.py:38-40 | a second clear changes nothing |
| PrusaOptions.PriorityOrder | FFFactory/auto_slicer/utils/slicer/prusa_slicer/prusa_options.py:21-32 | ACTIONS < TRANSFORM < OTHER_OPTIONS < OPTIONS < OTHER, the values are distinct, and `str` gives the lower-case name |
| PrusaOptions.HolderPriorities | FFFactory/auto_slicer/utils/slicer/prusa_slicer/prusa_options.py:74-113 | only the two base holders have no priority; the self-clearing ones rank first and the others after them |
| PrusaOptions.OptionName | FFFactory/auto_slicer/utils/slicer/prusa_slicer/prusa_options.py:54-55 | `--` then the key with every `_` turned into `-`: length + 2, no `_`, every other character kept |
| PrusaOptions.SerializeOption | FFFactory/auto_slicer/utils/slicer/prusa_slicer/prusa_options.py:38-61 | a registered type gives the option name then at most one argument, and only a flag gives no argument; anything else raises `TypeError` naming its type |
| PrusaOptions.CoordinatesRoundTrip | FFFactory/auto_slicer/utils/slicer/prusa_slicer/prusa_options.py:40-43 | pairs and triples pass their components comma-joined in order, and splitting gives them back |
| PrusaOptions.IntegerArgument | FFFactory/auto_slicer/utils/slicer/prusa_slicer/prusa_options.py:44-45 | an integer option's argument reads back as the integer |
| PrusaOptions.QuotedArgument | FFFactory/auto_slicer/utils/slicer/prusa_slicer/prusa_options.py:48-51 | path options and strings are passed in double quotes, and unquoting gives the text back |
| PrusaOptions.SerializedOkIff | FFFactory/auto_slicer/utils/slicer/prusa_slicer/prusa_options.py:63-71 | serialising succeeds exactly when no entry has an unregistered type (or is `None`, as written) |
| PrusaOptions.SerializedConcat | FFFactory/auto_slicer/utils/slicer/prusa_slicer/prusa_options.py:63-71 | the result is every option's tokens, concatenated in dictionary order |
| PrusaOptions.SerializedFirstError | FFFactory/auto_slicer/utils/slicer/prusa_slicer/prusa_options.py:63-71 | the first bad entry decides the exception: `ValueError` for a foreign type, `TypeError` for `None` |
| PrusaOptions.AsWrittenRereadFails | FFFactory/auto_slicer/utils/slicer/prusa_slicer/prusa_options.py:63-70 | as written, a self-clearing holder with any option cannot be read twice: the first `None` raises `TypeError` |
| PrusaOptions.ClearedSerializesEmpty | FFFactory/auto_slicer/utils/slicer/prusa_slicer/prusa_options.py:63-71 | with `None` options skipped, a cleared holder serialises to nothing |
| PrusaOptions.GetSerializedOptions | FFFactory/auto_slicer/utils/slicer/prusa_slicer/prusa_options.py:63-71 | the extending loop computes the serialiser `Serialized`, stopping at the first bad entry; `skipNone` false is the code as written (`None` raises), true the corrected one |
| PrusaOptions.OptionsHolder.Priority | FFFactory/auto_slicer/utils/slicer/prusa_slicer/prusa_options.py:80-83 | a holder's priority exists exactly when its class sets one |
| PrusaOptions.OptionsHolder.SetOption | FFFactory/auto_slicer/utils/slicer/prusa_slicer/prusa_transform.py:27 | assigning an option attribute is `setattr` on the holder's dictionary |
| PrusaOptions.OptionsHolder.ClearAttr | FFFactory/auto_slicer/utils/slicer/slicer_types/slicer_options.py:38-40 | the loop sets every public attribute to `None` in place, giving `Cleared` of the old attributes |
| PrusaOptions.OptionsHolder.AllOptions | FFFactory/auto_slicer/utils/slicer/slicer_types/slicer_options.py:42-46 | returns the public options serialised (as written or corrected, by `skipNone`) before clearing; a self-clearing holder is then cleared, and a raised exception leaves it as it was |
| PrusaOptions.FileOptions.constructor | FFFactory/auto_slicer/utils/slicer/prusa_slicer/prusa_options.py:115-117 | a new file list is empty |
| PrusaOptions.FileOptions.Priority | FFFactory/auto_slicer/utils/slicer/prusa_slicer/prusa_options.py:112-113 | the file list ranks last (OTHER, 4) |
| PrusaOptions.FileOptions.AddFiles | FFFactory/auto_slicer/utils/slicer/prusa_slicer/prusa_options.py:122-123 | files are appended in argument order |
| PrusaOptions.FileOptions.AllOptions | FFFactory/auto_slicer/utils/slicer/prusa_slicer/prusa_options.py:125-127 | returns the file list and changes nothing: the list does not clear itself |
| PrusaOptions.FileOptions.ClearAttr | FFFactory/auto_slicer/utils/slicer/prusa_slicer/prusa_options.py:119-120 | clearing empties the file list |
| PrusaTransform.Transform.Store | FFFactory/own_types.py:9-12 | a value is stored exactly when its check accepts; a rejected value raises before anything is stored |
| PrusaTransform.Transform.constructor | FFFactory/auto_slicer/utils/slicer/prusa_slicer/prusa_transform.py:19-20 | the transform writes into the holder it is given |
| PrusaTransform.Transform.SetAlignXY | FFFactory/auto_slicer/utils/slicer/prusa_slicer/prusa_transform.py:26-27 | stores an `XY` under `align_xy`, whatever the signs, and nothing else |
| PrusaTransform.Transform.SetCenter | FFFactory/auto_slicer/utils/slicer/prusa_slicer/prusa_transform.py:29-30 | stores an `XY` under `center`, whatever the signs, and nothing else |
| PrusaTransform.Transform.SetCut | FFFactory/auto_slicer/utils/slicer/prusa_slicer/prusa_transform.py:32-33 | stores an `X` under `cut`, whatever the sign, and nothing else |
| PrusaTransform.Transform.SetDeleteAfterLoad | FFFactory/auto_slicer/utils/slicer/prusa_slicer/prusa_transform.py:35-36 | stores the path under `delete_after_load` exactly when it is a directory; otherwise nothing changes |
| PrusaTransform.Transform.SetDontArrange | FFFactory/auto_slicer/utils/slicer/prusa_slicer/prusa_transform.py:38-39 | stores a flag under `dont_arrange` and nothing else |
| PrusaTransform.Transform.SetDuplicate | FFFactory/auto_slicer/utils/slicer/prusa_slicer/prusa_transform.py:41-42 | stores `duplicate` exactly when n ≥ 0; otherwise nothing changes |
| PrusaTransform.Transform.SetDuplicateGrid | FFFactory/auto_slicer/utils/slicer/prusa_slicer/prusa_transform.py:44-45 | stores `duplicate_grid` exactly when both components are ≥ 0; otherwise nothing changes |
| PrusaTransform.Transform.SetEnsureOnBed | FFFactory/auto_slicer/utils/slicer/prusa_slicer/prusa_transform.py:47-48 | stores a flag under `ensure_on_bed` and nothing else |
| PrusaTransform.Transform.SetMerge | FFFactory/auto_slicer/utils/slicer/prusa_slicer/prusa_transform.py:50-51 | stores a flag under `merge` and nothing else |
| PrusaTransform.Transform.SetRepair | FFFactory/auto_slicer/utils/slicer/prusa_slicer/prusa_transform.py:53-54 | stores a flag under `repair` and nothing else |
| PrusaTransform.Transform.SetRotate | FFFactory/auto_slicer/utils/slicer/prusa_slicer/prusa_transform.py:56-57 | stores an `X` under `rotate`, whatever the sign |
| PrusaTransform.Transform.SetRotateX | FFFactory/auto_slicer/utils/slicer/prusa_slicer/prusa_transform.py:59-60 | stores an `X` under `rotate_x`, whatever the sign |
| PrusaTransform.Transform.SetRotateY | FFFactory/auto_slicer/utils/slicer/prusa_slicer/prusa_transform.py:62-63 | stores an `X` under `rotate_y`, whatever the sign |
| PrusaTransform.Transform.SetScale | FFFactory/auto_slicer/utils/slicer/prusa_slicer/prusa_transform.py:65-66 | stores `scale` exactly when it is ≥ 0; otherwise nothing changes |
| PrusaTransform.Transform.SetScaleToFit | FFFactory/auto_slicer/utils/slicer/prusa_slicer/prusa_transform.py:68-69 | stores `scale_to_fit` exactly when all three components are ≥ 0; otherwise nothing changes |
| PrusaTransform.Transform.SetSplit | FFFactory/auto_slicer/utils/slicer/prusa_slicer/prusa_transform.py:71-72 | stores a flag under `split` and nothing else |
| PrusaCmdTools.RunLength | FFFactory/utils/auto_slicer/prusa_slicer/prusa_cmd_tools.py:27 | `.*` runs up to the first newline or the end of the text |
| PrusaCmdTools.LastBoundary | FFFactory/utils/auto_slicer/prusa_slicer/prusa_cmd_tools.py:27 | greedy backing off stops at the last `\b` within reach, and there is no `\b` after it |
| PrusaCmdTools.ExportCapture | FFFactory/utils/auto_slicer/prusa_slicer/prusa_cmd_tools.py:27-29 | without the prefix at the very start there is no match; a capture has no newline and ends on the last word boundary of its line |
| PrusaCmdTools.ParseExport | FFFactory/utils/auto_slicer/prusa_slicer/prusa_cmd_tools.py:25-37 | raises unless the text starts with the export line and the captured path is a file; the path is the full capture; `print_warning` holds exactly when "print warning:" occurs |
| PrusaCmdTools.ExportCapturesPath | FFFactory/utils/auto_slicer/prusa_slicer/prusa_cmd_tools.py:27 | a path on the export line, ending in a word character, is captured whole |
| PrusaCmdTools.StripOutputDir | FFFactory/utils/auto_slicer/prusa_slicer/prusa_cmd_tools.py:30 | removing the directory plus separator from a joined path leaves the file name |
| PrusaCmdTools.ExportRoundTrip | FFFactory/auto_slicer/utils/slicer/prusa_slicer/prusa_cmd_tools.py:31-40 | the export line for a file in the output directory parses to that file's name, the full path, and the warning flag of the text |
| PrusaCmdTools.ManifoldUntouched | FFFactory/utils/auto_slicer/prusa_slicer/prusa_cmd_tools.py:71-75 | a report without "manifold = " is left as it is |
| PrusaCmdTools.ReplaceManifold | FFFactory/utils/auto_slicer/prusa_slicer/prusa_cmd_tools.py:71-75 | the rewrite never shortens the report, and a report with neither `manifold = no` nor `manifold = yes` is unchanged |
| PrusaCmdTools.ManifoldNo | FFFactory/utils/auto_slicer/prusa_slicer/prusa_cmd_tools.py:73 | a leading "manifold = no" becomes "manifold = false", and the rest is rewritten on its own |
| PrusaCmdTools.ManifoldYes | FFFactory/utils/auto_slicer/prusa_slicer/prusa_cmd_tools.py:74 | a leading "manifold = yes" becomes "manifold = true", and the rest is rewritten on its own |
| PrusaCmdTools.ManifoldOther | FFFactory/utils/auto_slicer/prusa_slicer/prusa_cmd_tools.py:71-75 | a first character that starts neither pattern is kept and the rest is rewritten on its own; with `ManifoldNo`, `ManifoldYes` and the empty text this fixes the rewrite of every report |
| PrusaCmdTools.NoFalseInside | FFFactory/utils/auto_slicer/prusa_slicer/prusa_cmd_tools.py:73-74 | a prefix free of `m` of the text after the first rewrite was already a prefix before it, since "manifold = false" holds its only `m` at the front; so the second rewrite finds "manifold = yes" only where the report had it |
| PrusaCmdTools.TableNameOf | FFFactory/utils/auto_slicer/prusa_slicer/prusa_cmd_tools.py:80 | a line without `[` holds no table name |
| PrusaCmdTools.TableNames | FFFactory/utils/auto_slicer/prusa_slicer/prusa_cmd_tools.py:80 | at most one table name per line |
| PrusaCmdTools.Underscored | FFFactory/utils/auto_slicer/prusa_slicer/prusa_cmd_tools.py:82-84 | every space and dot becomes `_`, every other character is kept, and the length is kept |
| PrusaCmdTools.UnderscoredByReplace | FFFactory/utils/auto_slicer/prusa_slicer/prusa_cmd_tools.py:83-84 | the two single-character replaces give exactly `Underscored` |
| PrusaCmdTools.ReplaceTableNames | FFFactory/utils/auto_slicer/prusa_slicer/prusa_cmd_tools.py:78-86 | the loop renames each found table name everywhere, in order, and keeps the length of the text |
| PrusaCmdTools.NoBracketUnchanged | FFFactory/utils/auto_slicer/prusa_slicer/prusa_cmd_tools.py:78-86 | a text without `[` is left as it is |
| PrusaCmdTools.RenameClean | FFFactory/utils/auto_slicer/prusa_slicer/prusa_cmd_tools.py:81-85 | names already free of spaces and dots change nothing |
| PrusaCmdTools.SingleTableRenamed | FFFactory/utils/auto_slicer/prusa_slicer/prusa_cmd_tools.py:78-86 | the header `[name]` becomes `[name with spaces and dots as _]` |
| PrusaCmdTools.InfoChunks | FFFactory/utils/auto_slicer/prusa_slicer/prusa_cmd_tools.py:89-96 | the accumulating loop yields exactly the chunks of `InfoChunksOf` |
| PrusaCmdTools.ChunksConcat | FFFactory/utils/auto_slicer/prusa_slicer/prusa_cmd_tools.py:89-96 | the chunks, concatenated, are every line followed by `\n`, in order |
| PrusaCmdTools.ChunksCoverText | FFFactory/utils/auto_slicer/prusa_slicer/prusa_cmd_tools.py:89-96 | the chunks of a report, concatenated, are the report plus a final `\n` |
| PrusaCmdTools.ChunksShape | FFFactory/utils/auto_slicer/prusa_slicer/prusa_cmd_tools.py:92-95 | every chunk after the first starts with `[`, and every chunk ends with `\n` |
| PrusaCmdTools.ChunksCount | FFFactory/utils/auto_slicer/prusa_slicer/prusa_cmd_tools.py:89-96 | there is one chunk plus one per later line starting with `[`, so at least one chunk is always yielded |
| PrusaCmdTools.FieldValues | FFFactory/utils/auto_slicer/prusa_slicer/prusa_cmd_tools.py:104-121 | the record's fields are the table's values for the keys, in order; a missing key raises |
| PrusaCmdTools.ChunkRecords | FFFactory/utils/auto_slicer/prusa_slicer/prusa_cmd_tools.py:103-122 | one record per top-level entry of a chunk, named by its key |
| PrusaCmdTools.RecordsFollowKeys | FFFactory/utils/auto_slicer/prusa_slicer/prusa_cmd_tools.py:102-123 | one record per table, in chunk order then document order, each `file_name` equal to its table key |
| PrusaCmdTools.ParseInfo | FFFactory/utils/auto_slicer/prusa_slicer/prusa_cmd_tools.py:98-123 | `parse` rewrites manifold values, then table names, then chunks the text and collects the records of every chunk |
| CalculatePrint.Body | FFFactory/processes/calculate_print.py:170-172 | `$` matches at the end or before one final newline |
| CalculatePrint.Groups | FFFactory/processes/calculate_print.py:170-172 | a match of `(\d*)s0(\d*)s1…` has one all-digit group per separator |
| CalculatePrint.GroupsSound | FFFactory/processes/calculate_print.py:170-172 | the groups of a match, interleaved with the separators, give back the text |
| CalculatePrint.GroupsComplete | FFFactory/processes/calculate_print.py:170-172 | every text of the pattern matches, with its own groups |
| CalculatePrint.GroupsEndWith | FFFactory/processes/calculate_print.py:170-172 | a match ends with the last separator |
| CalculatePrint.IntOf | FFFactory/processes/calculate_print.py:176 | `int` of a `\d*` group fails exactly on the empty group |
| CalculatePrint.Weighted | FFFactory/processes/calculate_print.py:176-184 | the weighted sum fails exactly when some group is empty |
| CalculatePrint.HoursMinutes | FFFactory/processes/calculate_print.py:170-176 | `"<H>h<M>m"` is 60·H + M minutes |
| CalculatePrint.HoursMinutesMatch | FFFactory/processes/calculate_print.py:170-176 | `"<H>h<M>m"` matches the first pattern, whose two groups are weighed |
| CalculatePrint.MinutesOnly | FFFactory/processes/calculate_print.py:170-179 | `"<M>m"` is M minutes |
| CalculatePrint.MinutesOnlyMatch | FFFactory/processes/calculate_print.py:170-179 | `"<M>m"` misses the first pattern and matches the second |
| CalculatePrint.DaysHoursMinutes | FFFactory/processes/calculate_print.py:170-184 | `"<D>d<H>h<M>m"` is 1440·D + 60·H + M minutes |
| CalculatePrint.DaysHoursMinutesMatch | FFFactory/processes/calculate_print.py:170-184 | `"<D>d<H>h<M>m"` misses the first two patterns and matches the third |
| CalculatePrint.DayBlocks | FFFactory/processes/calculate_print.py:170-171 | a time with a day part matches neither the hour-minute nor the minute pattern |
| CalculatePrint.EmptyHoursRaise | FFFactory/processes/calculate_print.py:170-176 | `\d*` accepts an empty hour group, and then `int('')` raises |
| CalculatePrint.NoMinutesIsZero | FFFactory/processes/calculate_print.py:185 | a time not ending in `m` matches no pattern and counts as 0 |
| CalculatePrint.PrintTimeToMinutes | FFFactory/processes/calculate_print.py:169-185 | the minutes are never negative; a time matching no pattern is 0; it raises only when one of the patterns matched |
| CalculatePrint.ScaledShape | FFFactory/processes/calculate_print.py:137-143 | scaling reaches the requested height and keeps the footprint's proportions |
| CalculatePrint.ScalerGroupBase.constructor | FFFactory/processes/calculate_print.py:93-96 | a scaler group keeps the model it was given and its kind |
| CalculatePrint.ScalerGroupBase.Scale | FFFactory/processes/calculate_print.py:134-155 | the grouped scaler yields one size per entry of `SCALE_CM`, in order; the other yields the size once; no info raises |
| CalculatePrint.Reversed | FFFactory/processes/calculate_print.py:113 | element i of the reversed list is element n - 1 - i |
| CalculatePrint.MeshOperations | FFFactory/processes/calculate_print.py:107-113 | a non-manifold model gets the repairer first and the tweaker after it; a manifold model gets the tweaker only |
| CalculatePrint.Operations | FFFactory/processes/calculate_print.py:107-113 | the tweaker is always last, and the repairer is present exactly for a non-manifold model |
| CalculatePrint.ScalerGroupBase.FixMeshAsWritten | FFFactory/processes/calculate_print.py:106-121 | `_fix_mesh` as written changes the file system and the model as `FixedAsWritten` says |
| CalculatePrint.ScalerGroupBase.FixMesh | FFFactory/processes/calculate_print.py:106-121 | the corrected `_fix_mesh` changes the file system and the model as `Fixed` says |
| CalculatePrint.AsWrittenSkipsTweaker | FFFactory/processes/calculate_print.py:115-117 | as written, a non-manifold model is only repaired, although the tweaker is in the list |
| CalculatePrint.AsWrittenMultiPartRaises | FFFactory/processes/calculate_print.py:117 | as written, a report with several parts passes info records as decorators, and calling them raises |
| CalculatePrint.FixedRunsEveryOperation | FFFactory/processes/calculate_print.py:107-120 | corrected, a non-manifold model is tweaked then repaired, and both prefixes show in the name |
| CalculatePrint.FixedManifoldOnlyTweaks | FFFactory/processes/calculate_print.py:107-120 | corrected, a manifold model is only tweaked |
| CalculatePrint.AsWrittenRejectsModelDirectory | FFFactory/processes/calculate_print.py:119 | as written, the output directory is the model's file name: whenever that name is not a directory, `_fix_mesh` raises naming it |
| CalculatePrint.FixedWritesBesideModel | FFFactory/processes/calculate_print.py:115-121 | corrected, whenever `_fix_mesh` succeeds the fixed model is a file joined onto the model's own directory |
| CalculatePrint.SampleRejectedAsWritten | FFFactory/processes/calculate_print.py:119 | as written, `/models/model.stl` in `/models` is refused: `model.stl` is no directory |
| CalculatePrint.SampleWrittenBeside | FFFactory/processes/calculate_print.py:115-121 | corrected, a manifold `/models/model.stl` gives `/models/tweak_model.stl` and changes nothing else |
| CalculatePrint.FixedAsWritten | FFFactory/processes/calculate_print.py:106-121 | as written, `_fix_mesh` succeeds only for a single-part report and a model whose base name is a directory; files are only added, and the model becomes a file |
| CalculatePrint.Fixed | FFFactory/processes/calculate_print.py:106-121 | corrected, `_fix_mesh` succeeds only with info and an existing model directory, when the operations pipeline does; the model becomes its output, which is a file, and files are only added |
| AutoSlicer.Stem | auto_slicer/utils/slicer/slicer.py:69 | `rsplit('.', 1)` into two gives the text before the last dot, and raises exactly when there is no dot |
| AutoSlicer.RunSlicer | auto_slicer/utils/slicer/slicer.py:65-86 | there is a command exactly when the input's base name has a dot (`rsplit` unpacking raises otherwise); it starts `[slicer, --load, config]` and ends `[-g, -o, output, input]`; it holds brim arguments exactly above 2.0 and the support flag exactly above 1.0, brim first |
| AutoSlicer.BrimImpliesSupport | auto_slicer/utils/slicer/slicer.py:13-14 | a score above the brim threshold is above the support threshold |
| AutoSlicer.OutputFileName | auto_slicer/utils/slicer/slicer.py:69-75 | the G-code base name is the cleaned stem, `_U`, the score and `_{print_time}.gcode` |
| StringTools.CleanName | FFFactory/utils/string_tools.py:4-9 | the loops apply every replacement in table order, then every deletion in list order, and the deletions never lengthen the name |
| StringTools.Deleted | FFFactory/utils/string_tools.py:7-8 | deleting never makes the name longer |
| StringTools.CleanNameUnchanged | FFFactory/utils/string_tools.py:4-9 | a name holding no replacement key and no deletion string comes back unchanged |
| StringTools.ReplacedAbsent | FFFactory/utils/string_tools.py:5-6 | replacements whose keys are absent leave the name as it is |
| StringTools.DeletedAbsent | FFFactory/utils/string_tools.py:7-8 | deletions of absent strings leave the name as it is |
| StringTools.ReplacedSameLength | FFFactory/utils/string_tools.py:5-6 | replacements that keep lengths keep the name's length |
| StringTools.DeletionSinglePass | FFFactory/utils/string_tools.py:7-8 | each deletion is one `replace` pass, not repeated: removing a pattern `p` (first two characters different) from `p[0] + p + p[1..]`, such as "ab" from "aabb", leaves `p` |
| ConfigImporter.Get | FFFactory/utils/auto_render/config_importer.py:15 | a lookup succeeds exactly when the key is present, and otherwise raises `KeyError` |
| ConfigImporter.Remove | FFFactory/utils/auto_render/config_importer.py:16 | `pop` leaves no entry under the key and never adds entries |
| ConfigImporter.RemoveGet | FFFactory/utils/auto_render/config_importer.py:16 | after the pop, the key is gone and every other key reads as before |
| ConfigImporter.UpdatedGet | FFFactory/utils/auto_render/config_importer.py:15-16 | writing the popped section back into the document makes the key read the new section |
| ConfigImporter.RangeElements | FFFactory/utils/auto_render/config_importer.py:24 | `range(start, stop, step)` is start, start + step, … while below stop |
| ConfigImporter.Incremented | FFFactory/utils/auto_render/config_importer.py:22-23 | each number is one higher, in order |
| ConfigImporter.AllImagesSpaced | FFFactory/utils/auto_render/config_importer.py:21-25 | `'all'` gives 0, step, 2·step, …, each at most max |
| ConfigImporter.IntOf | FFFactory/utils/auto_render/config_importer.py:29 | `int` of a YAML value: integers kept, booleans as 0 or 1, strings parsed, anything else a `TypeError` |
| Text.ParseGroupedDigits | FFFactory/utils/auto_render/config_importer.py:29 | a digit, one `_`, then digits reads as the digits without the underscore, so `int('1_000')` is 1000 |
| Text.ParseMisgroupedDigits | FFFactory/utils/auto_render/config_importer.py:29 | an underscore not followed by a digit, as in `1__0` or `1_`, makes `int` raise |
| ConfigImporter.IntsOf | FFFactory/utils/auto_render/config_importer.py:27 | `map(int, parts)` succeeds exactly when every part parses, and keeps order |
| ConfigImporter.RangeArgument | FFFactory/utils/auto_render/config_importer.py:24 | `range` accepts exactly integers and booleans |
| ConfigImporter.SingleNumber | FFFactory/utils/auto_render/config_importer.py:28-29 | a number, written or as text, is a single image |
| ConfigImporter.CommaListRoundTrip | FFFactory/utils/auto_render/config_importer.py:26-27 | a comma-separated list of two or more numbers reads back as those numbers, in order |
| ConfigImporter.CommaNumbers | FFFactory/utils/auto_render/config_importer.py:26-27 | a string with a comma is read as its comma-separated integers |
| ConfigImporter.Common | FFFactory/utils/auto_render/config_importer.py:32-45 | the fields every configuration shares come from the section and the config file's directory |
| ConfigImporter.MakeConfig | FFFactory/utils/auto_render/config_importer.py:20-46 | one template entry's configuration: its name, its image numbers and the shared fields |
| ConfigImporter.Keys | FFFactory/utils/auto_render/config_importer.py:18 | iterating a mapping goes through its keys, in order |
| ConfigImporter.Chars | FFFactory/utils/auto_render/config_importer.py:18 | iterating a string goes through its characters, in order |
| ConfigImporter.Iterated | FFFactory/utils/auto_render/config_importer.py:18 | a list is iterated item by item; `None`, a bool or an int cannot be iterated |
| ConfigImporter.Section | FFFactory/utils/auto_render/config_importer.py:13-15 | a `None` document raises `ValueError`; otherwise the section is the `render_image` entry |
| ConfigImporter.ImportConfig | FFFactory/utils/auto_render/config_importer.py:12-47 | the nested loops compute `Imported`, and the document is left with the templates list popped |
| ConfigImporter.Imported | FFFactory/utils/auto_render/config_importer.py:12-47 | a `None` document raises `ValueError`; success needs a `render_image` mapping holding `templates_number_img`, whose absence raises `KeyError` |
| ConfigImporter.EntryConfigsFollowKeys | FFFactory/utils/auto_render/config_importer.py:19-46 | one configuration per key of a template mapping, in key order |
| ConfigImporter.ConfigsFollowTemplates | FFFactory/utils/auto_render/config_importer.py:18-46 | one configuration per (template, key), in list then key order, all sharing the section's fields |
| ConfigImporter.NoneRefused | FFFactory/utils/auto_render/config_importer.py:13-14 | a `None` document is refused |
| ConfigImporter.PopRemovesTemplates | FFFactory/utils/auto_render/config_importer.py:16 | after the import the templates list is gone from the section and the other keys are unchanged |
| MeshTypes.SaveSingle | FFFactory/utils/mesh_tools/mesh_types.py:39-43 | an existing output is returned and nothing changes; otherwise the mesh is saved to the prefixed base name in the output directory and the saver's returned path becomes a file; a saver returning its output path returns the output file |
| MeshTypes.RunDecorators | FFFactory/utils/mesh_tools/mesh_types.py:33-37 | the decorators only add files, and with savers returning their output paths the final input is `OutputFiles` |
| MeshTypes.Reached | FFFactory/utils/mesh_tools/mesh_types.py:33-37 | the input file reached by the decorators is the last decorator's returned path whenever they all succeed |
| MeshTypes.Pipeline | FFFactory/utils/mesh_tools/mesh_types.py:32-43 | `save_processed_mesh` fails exactly when a decorator does, with its error; otherwise it is `SaveSingle` on the decorators' last path, saving the cached mesh when there is one |
| MeshTypes.DecoratorsBasename | FFFactory/utils/mesh_tools/mesh_types.py:33-40 | each decorator's output is named after its input, so the prefixes pile up in running order |
| MeshTypes.OutputFileBasename | FFFactory/utils/mesh_tools/mesh_types.py:39-40 | one save names its output with the prefix before the input's base name |
| MeshTypes.PipelineBasename | FFFactory/utils/mesh_tools/mesh_types.py:32-43 | the final name carries every prefix, the processor's own outermost, before the input's base name |
| MeshTypes.ExistingOutputShortCircuits | FFFactory/utils/mesh_tools/mesh_types.py:41-42 | an existing output path is returned and nothing is written, whatever the cache |
| MeshTypes.CachedMeshSaved | FFFactory/utils/mesh_tools/mesh_types.py:43-51 | a mesh cached before the decorators ran is what gets saved: `cached_property` is not recomputed for the new input |
| MeshTypes.MeshProcessor.constructor | FFFactory/utils/mesh_tools/mesh_types.py:13-22 | a new processor holds its input, its operation and its decorators, with nothing computed yet |
| MeshTypes.MeshProcessor.ProcessedMesh | FFFactory/utils/mesh_tools/mesh_types.py:49-51 | the processed mesh is computed on first use and served from the cache after, at most once per instance |
| MeshTypes.MeshProcessor.SaveProcessedMesh | FFFactory/utils/mesh_tools/mesh_types.py:32-43 | the loop and the save compute `Pipeline`, returning the saver's path; the input becomes the last path the decorators reached, also when a later one raises; the mesh is computed only when the output was missing and nothing was cached |
| MeshTypes.Create | FFFactory/utils/mesh_tools/mesh_types.py:13-22 | the constructor raises `TypeError` unless the input is an existing-file option, and starts with an empty cache |
| Paths.Basename | FFFactory/utils/mesh_tools/mesh_types.py:39 | a base name has no `/` and ends the path |
| Paths.BasenameOfJoin | FFFactory/utils/mesh_tools/mesh_types.py:39-40 | the base name of a directory joined with a plain name is that name |

## Left out

- Floating point: binary STL coordinates are opaque 4-byte words. Text numbers go through a caller-supplied `parse` function (`float`), and conversion to coordinates through an `unpack` function (`struct.unpack('<f')`). Rotating a triangle by `np.matmul` and computing its normal with `np.cross` are a caller-supplied `rotate` function applied per triangle with the part's `info` matrix. `%f` formatting is not modelled (FileHandler.py:119-191).
- The ASCII STL writer (`rotate_ascii_stl` and the `asciistl` branch of `write_mesh`) is not modelled beyond its output naming, which it shares with the binary branch.
- The text decoding of the STL sniff (`UnicodeDecodeError`) is a caller-supplied `decode` function. `MeshFiles.StlMeshes` applies `decode` to the whole file before the ASCII scan. Python decodes while it reads, so a `ValueError` from `float` on an early `vertex` line that comes before a later undecodable byte propagates in Python, while the model falls back to the binary loader. `Loader3mf` and the `ThreeMF` module are not part of this model; a `.3mf` path only selects that loader.
- The `open_file` decorator, `buffered_file` and the abstract base plumbing of the loaders: the loaders are modelled on the file's lines or bytes.
- The tweaker's `FILE` label and the write time stamp are parameters.
- Running PrusaSlicer: `os.popen`, `perf_counter` and the `time_slice_sec` field are left out, and the reports are inputs. `tomllib.loads` is a parameter returning the parsed tables in document order.
- `__tweakFile`, `__adjustHeight` and the unprintability score: the score is an input `Decimal` (its value for the thresholds, its `str()` text for the name).
- Mesh repair through `pymeshfix`, the tweaker and the processed mesh itself: a processor is known by its prefix, and saving a mesh adds its output path to the file system.
- `cached_property` is a cache field with a ghost counter of computations.
- `CalculatePrint.ScalerGroupBase.Scale`: the scale arithmetic uses exact reals, not floats or `Decimal`. The generators are driven to the end, as their caller does. The price formula, the folder scanners, `move`, CSV, `TemporaryDirectory` and the CLI are not part of this model.
- YAML parsing (`yaml.safe_load`) and the file read: the document is a `Yaml` value. A mapping is a list of key-value pairs and `Get` returns the first entry under a key; `safe_load` never yields duplicate keys (of repeated keys in the text the last wins), so only duplicate-free mappings correspond to real documents, and that is not enforced. The `ExistsDirType`/`ExistsFileType` checks of the importer use the file-system value.
- Blender rendering, `config.py` (dotenv), the abstract action/transform interfaces, `prusa_actions.py`, `prusa_slicer.py` and `prusa_types.py` are not part of this model.
- `__repr__` of an option holder and the `print` calls are not modelled.
- The older `PrusaGetInfoAboutModelParser.parse` has an empty body, and `__init__`/`run` only forward to a process runner, so neither is modelled.
- The regular expressions' `\w`, `\b` and `\d` are taken over ASCII; Unicode word characters and digits are not modelled.
- MeshFiles.LoadMesh, MeshFiles.Loaded, MeshFiles.StlMeshes, MeshFiles.BinaryMeshes, MeshFiles.WrittenStlLoads and MeshFiles.LoadObj state the corrected loaders (OBJ read as text, STL count after the 80-byte header); the code as written is `LoadMeshAsWritten`, `LoadedAsWritten`, `ObjMeshesAsWritten` and the count at byte 75 (see Findings).
- PrusaOptions.GetSerializedOptions and PrusaOptions.OptionsHolder.AllOptions take `skipNone`: false is the serialiser as written, true the corrected one.
- MeshTypes.SaveSingle: the saver (`_save_processed_mesh`) is a parameter mapping processor, mesh source and output path to the returned path; only that path is added to the file system, so the extra part files a multi-part write creates are not modelled. The name lemmas (`PipelineBasename`, `FixedRunsEveryOperation`, …) assume a saver that returns its output path. The `write_mesh` shown (FileHandler.py:81-112) has no `return` and so returns `None`, which `_save_processed_mesh` then indexes (mesh_tools.py:43-46). The `.tweaker` module that mesh_tools.py imports is not part of this model.
- MeshTypes.SaveSingle: `os.path.exists` is taken literally; no glob or symbolic-link behaviour is modelled.
- Text.ParseInt: digits outside ASCII, which `int` also accepts, are not modelled.
- Text.Split: files are split into lines at `\n` only; a lone `\r`, which Python's text mode also treats as a line end, is not modelled.
- ConfigImporter.IntOf: YAML floats (such as `3.0`, for which `int` truncates) are not a `Yaml` value here; integers, booleans, strings, lists, mappings and `None` are.

## Findings

| source | as written | input that shows it | evidently intended | confidence | as-written member | corrected member |
|---|---|---|---|---|---|---|
| auto_slicer/utils/tweaker/FileHandler.py:309-310 | the binary loader skips `80 - 5` bytes of a freshly opened file, so it reads the count from header bytes 75 to 78 | any file the writer produces with a short time stamp: bytes 75 to 78 are spaces, read as 0x20202020 records | skip the 80-byte header, then read the count | high, not executed | MeshFiles.LoadMeshWrittenStlAsWritten | MeshFiles.LoadMeshWrittenStl |
| FFFactory/own_types.py:11-12 | the message is formatted with `'... %s' % value`; for a tuple value `%` takes the items as separate arguments and raises `TypeError` | `UnsignedXYOptionsType(Decimal(-1), Decimal(0))` | raise `ValueError` naming the rejected value | high, not executed | OptionTypes.AsWrittenTupleRaisesTypeError | OptionTypes.UnsignedRejectsNegative |
| FFFactory/auto_slicer/utils/slicer/prusa_slicer/prusa_options.py:63-71 | `None` passes the type check and then raises `TypeError` in `_serialize_option` | reading a self-clearing holder a second time, after every option became `None` | leave `None` options off the command line | medium, not executed | PrusaOptions.AsWrittenRereadFails | PrusaOptions.ClearedSerializesEmpty |
| FFFactory/processes/calculate_print.py:115-117 | the decorators passed are `info_about_model[1:]`, the remaining info records, not `mesh_operations[1:]` | a non-manifold single-part model: only the repairer runs; with several parts the records are called and raise | run the other operations as decorators | high, not executed | CalculatePrint.AsWrittenSkipsTweaker | CalculatePrint.FixedRunsEveryOperation |
| FFFactory/processes/calculate_print.py:119 | the output directory is `os.path.basename(model)`, the model's file name | model `/models/model.stl` in directory `/models` | write beside the model, in `os.path.dirname(model)` | high, not executed | CalculatePrint.AsWrittenRejectsModelDirectory | CalculatePrint.FixedWritesBesideModel |
| auto_slicer/utils/tweaker/FileHandler.py:263-270 | the OBJ loader opens the file `'rb'`, so each line is `bytes` and `"v" in line` raises `TypeError`; an empty file loads to one empty mesh | any non-empty `.obj` file | open the file as text (`'r'`) | high, not executed | MeshFiles.AsWrittenObjRaises | MeshFiles.LoadMeshObj |

=== FILE: binary_stl.dfy ===
/**
 * The binary STL layout read and written by the mesh file handler: an
 * 80-byte header, a little-endian `uint32` facet count, then one 50-byte
 * record per facet (normal, three corners, a 2-byte attribute). Every float
 * is an opaque 4-byte word: the layout, the counts and the order are what
 * is modelled, not the numeric values.
 */
module BinaryStl {
  import opened Wrappers

  newtype byte = x: int | 0 <= x < 256

  /** A 32-bit float, kept as its four bytes in file order. */
  type Word = s: seq<byte> | |s| == 4 witness [0, 0, 0, 0]

  /** A point of a mesh; `C` is the coordinate type. */
  datatype Vertex<C> = Vertex(x: C, y: C, z: C)

  /** One facet as it is written: the normal, then the three corners. */
  datatype Facet = Facet(normal: Vertex<Word>, v0: Vertex<Word>, v1: Vertex<Word>, v2: Vertex<Word>)

  /** `struct.error`: a read returned fewer bytes than unpacked, or a count does not fit in `uint32`. */
  datatype BinaryError = Truncated | CountTooLarge

  const HEADER_SIZE: nat := 80
  const RECORD_SIZE: nat := 50
  const UINT32_LIMIT: nat := 0x1_0000_0000

  /** `struct.unpack('<I', b)[0]` */
  function DecodeU32(b: seq<byte>): (n: nat)
    requires |b| == 4
    ensures n < UINT32_LIMIT
  {
    b[0] as nat + 0x100 * b[1] as nat + 0x1_0000 * b[2] as nat + 0x100_0000 * b[3] as nat
  }

  /** `struct.pack('<I', n)` */
  function EncodeU32(n: nat): (b: seq<byte>)
    requires n < UINT32_LIMIT
    ensures |b| == 4 && DecodeU32(b) == n
  {
    var b0, r0 := n % 0x100, n / 0x100;
    var b1, r1 := r0 % 0x100, r0 / 0x100;
    var b2, b3 := r1 % 0x100, r1 / 0x100;
    [b0 as byte, b1 as byte, b2 as byte, b3 as byte]
  }

  /** The word at byte offset `i`. */
  function WordAt(c: seq<byte>, i: nat): Word
    requires i + 4 <= |c|
  {
    c[i..i + 4]
  }

  /** The three consecutive words at byte offset `i`. */
  function VertexAt(c: seq<byte>, i: nat): Vertex<Word>
    requires i + 12 <= |c|
  {
    Vertex(WordAt(c, i), WordAt(c, i + 4), WordAt(c, i + 8))
  }

  /** The corners of the record at `off`: floats 4 to 12, i.e. bytes 12 to 47. */
  function RecordCorners(c: seq<byte>, off: nat): seq<Vertex<Word>>
    requires off + RECORD_SIZE <= |c|
  {
    [VertexAt(c, off + 12), VertexAt(c, off + 24), VertexAt(c, off + 36)]
  }

  /** The corners of `n` consecutive records starting at `off`. */
  function Records(c: seq<byte>, off: nat, n: nat): seq<Vertex<Word>>
    requires off + RECORD_SIZE * n <= |c|
    decreases n
  {
    if n == 0 then []
    else Records(c, off, n - 1) + RecordCorners(c, off + RECORD_SIZE * (n - 1))
  }

  /**
   * What the binary loader returns when the facet count is read at byte
   * `countAt`: the count, then that many records right after it; a file too
   * short for either is `struct.error`. Bytes after the last record are
   * ignored.
   */
  function DecodeBinary(c: seq<byte>, countAt: nat): (r: Result<seq<Vertex<Word>>, BinaryError>)
    ensures r.Err? ==> r.error == Truncated
    ensures r.Ok? <==> |c| >= countAt + 4 && |c| >= countAt + 4 + RECORD_SIZE * DecodeU32(c[countAt..countAt + 4])
    ensures r.Ok? ==> |r.value| == 3 * DecodeU32(c[countAt..countAt + 4])
  {
    if |c| < countAt + 4 then Err(Truncated)
    else
      var n := DecodeU32(c[countAt..countAt + 4]);
      if |c| < countAt + 4 + RECORD_SIZE * n then Err(Truncated)
      else
        RecordsLength(c, countAt + 4, n);
        Ok(Records(c, countAt + 4, n))
  }

  /** The count is read right after the 80-byte header, as the layout says. */
  function LoadBinary(c: seq<byte>): (r: Result<seq<Vertex<Word>>, BinaryError>)
    ensures r.Ok? <==> |c| >= 84 && |c| >= 84 + RECORD_SIZE * DecodeU32(c[80..84])
    ensures r.Ok? ==> |r.value| == 3 * DecodeU32(c[80..84])
  {
    DecodeBinary(c, HEADER_SIZE)
  }

  /**
   * The loader as written: it opens the file afresh and skips only
   * `80 - 5` bytes, so the count is read at byte 75.
   */
  function LoadBinaryAsWritten(c: seq<byte>): (r: Result<seq<Vertex<Word>>, BinaryError>)
    ensures r.Ok? <==> |c| >= 79 && |c| >= 79 + RECORD_SIZE * DecodeU32(c[75..79])
    ensures r.Ok? ==> |r.value| == 3 * DecodeU32(c[75..79])
  {
    DecodeBinary(c, HEADER_SIZE - 5)
  }

  /**
   * The loader's loop: read the count, then one record per facet, keeping
   * floats 4 to 12 of each and dropping the normal and the attribute.
   */
  method ReadBinary(c: seq<byte>, countAt: nat) returns (r: Result<seq<Vertex<Word>>, BinaryError>)
    ensures r == DecodeBinary(c, countAt)
  {
    if |c| < countAt + 4 {
      return Err(Truncated);
    }
    var n := DecodeU32(c[countAt..countAt + 4]);
    var start := countAt + 4;
    var mesh: seq<Vertex<Word>> := [];
    var i := 0;
    while i < n
      invariant 0 <= i <= n
      invariant start + RECORD_SIZE * i <= |c|
      invariant mesh == Records(c, start, i)
    {
      var pos := start + RECORD_SIZE * i;
      if |c| < pos + RECORD_SIZE {
        return Err(Truncated);
      }
      mesh := mesh + RecordCorners(c, pos);
      i := i + 1;
    }
    return Ok(mesh);
  }

  /** Decoding yields three corners per record, each taken from bytes 12 to 47 of its record. */
  lemma RecordsAt(c: seq<byte>, off: nat, n: nat, k: nat)
    requires off + RECORD_SIZE * n <= |c|
    requires k < 3 * n
    ensures |Records(c, off, n)| == 3 * n
    ensures off + RECORD_SIZE * (k / 3) + 12 + 12 * (k % 3) + 12 <= |c|
    ensures Records(c, off, n)[k] == VertexAt(c, off + RECORD_SIZE * (k / 3) + 12 + 12 * (k % 3))
  {
    var q, r := k / 3, k % 3;
    assert k == 3 * q + r && q < n && r < 3;
    RecordsLength(c, off, n);
    CornerAt(c, off, n, q, r);
  }

  lemma {:induction false} RecordsLength(c: seq<byte>, off: nat, n: nat)
    requires off + RECORD_SIZE * n <= |c|
    ensures |Records(c, off, n)| == 3 * n
    decreases n
  {
    if n > 0 {
      RecordsLength(c, off, n - 1);
    }
  }

  /** Corner `r` of record `q`. */
  lemma {:induction false} CornerAt(c: seq<byte>, off: nat, n: nat, q: nat, r: nat)
    requires off + RECORD_SIZE * n <= |c|
    requires q < n && r < 3
    ensures 3 * q + r < |Records(c, off, n)|
    ensures Records(c, off, n)[3 * q + r] == VertexAt(c, off + RECORD_SIZE * q + 12 + 12 * r)
    decreases n
  {
    var front := Records(c, off, n - 1);
    var last := RecordCorners(c, off + RECORD_SIZE * (n - 1));
    RecordsLength(c, off, n - 1);
    if q < n - 1 {
      CornerAt(c, off, n - 1, q, r);
      IndexFront(front, last, 3 * q + r);
    } else {
      IndexBack(front, last, r);
    }
  }

  lemma IndexFront<T>(a: seq<T>, b: seq<T>, i: nat)
    requires i < |a|
    ensures (a + b)[i] == a[i]
  {
  }

  lemma IndexBack<T>(a: seq<T>, b: seq<T>, i: nat)
    requires i < |b|
    ensures (a + b)[|a| + i] == b[i]
  {
  }

  /** A slice of a window of `c` is the same slice of `c`, shifted. */
  lemma SliceOfWindow(c: seq<byte>, e: seq<byte>, off: nat, i: nat, j: nat)
    requires off + |e| <= |c| && c[off..off + |e|] == e
    requires i <= j <= |e|
    ensures c[off + i..off + j] == e[i..j]
  {
    forall k | 0 <= k < j - i
      ensures c[off + i..off + j][k] == e[i..j][k]
    {
      assert e[i + k] == c[off + i + k];
    }
  }

  /** A vertex read inside a window of `c` is the vertex read in `c`, shifted. */
  lemma VertexOfWindow(c: seq<byte>, e: seq<byte>, off: nat, k: nat)
    requires off + |e| <= |c| && c[off..off + |e|] == e
    requires k + 12 <= |e|
    ensures off + k + 12 <= |c|
    ensures VertexAt(c, off + k) == VertexAt(e, k)
  {
    SliceOfWindow(c, e, off, k, k + 4);
    SliceOfWindow(c, e, off, k + 4, k + 8);
    SliceOfWindow(c, e, off, k + 8, k + 12);
  }

  /** The 12 bytes of a vertex, x then y then z. */
  function EncodeVertex(v: Vertex<Word>): (b: seq<byte>)
    ensures |b| == 12 && VertexAt(b, 0) == v
  {
    var b := v.x + v.y + v.z;
    assert b[0..4] == v.x && b[4..8] == v.y && b[8..12] == v.z;
    b
  }

  /**
   * `write_bin_facett`: exactly 50 bytes holding the normal and the three
   * corners as float triples, then a zero `uint16` attribute.
   */
  function EncodeFacet(f: Facet): (b: seq<byte>)
    ensures |b| == RECORD_SIZE
    ensures VertexAt(b, 0) == f.normal
    ensures RecordCorners(b, 0) == [f.v0, f.v1, f.v2]
    ensures b[48..] == [0, 0]
  {
    var b := EncodeVertex(f.normal) + EncodeVertex(f.v0) + EncodeVertex(f.v1) + EncodeVertex(f.v2) + [0, 0];
    assert b[0..12] == EncodeVertex(f.normal);
    assert b[12..24] == EncodeVertex(f.v0);
    assert b[24..36] == EncodeVertex(f.v1);
    assert b[36..48] == EncodeVertex(f.v2);
    VertexOfWindow(b, EncodeVertex(f.normal), 0, 0);
    VertexOfWindow(b, EncodeVertex(f.v0), 12, 0);
    VertexOfWindow(b, EncodeVertex(f.v1), 24, 0);
    VertexOfWindow(b, EncodeVertex(f.v2), 36, 0);
    b
  }

  /** The records of the facets, in mesh order. */
  function EncodeFacets(fs: seq<Facet>): (b: seq<byte>)
    ensures |b| == RECORD_SIZE * |fs|
    decreases |fs|
  {
    if fs == [] then [] else EncodeFacets(fs[..|fs| - 1]) + EncodeFacet(fs[|fs| - 1])
  }

  /** The corners of the facets, three per facet, in mesh order. */
  function Corners(fs: seq<Facet>): seq<Vertex<Word>>
    decreases |fs|
  {
    if fs == [] then [] else
      var f := fs[|fs| - 1];
      Corners(fs[..|fs| - 1]) + [f.v0, f.v1, f.v2]
  }

  /** `bytes.ljust(width, b" ")`: pads with spaces up to `width`, never truncates. */
  function PadRight(s: seq<byte>, width: nat): (r: seq<byte>)
    ensures |r| == if |s| < width then width else |s|
    ensures r[..|s|] == s
    ensures forall i :: |s| <= i < |r| ==> r[i] == 32
  {
    if |s| < width then s + seq(width - |s|, _ => 32 as byte) else s
  }

  /** The header: the encoded "Tweaked on <time>" text padded to 79 bytes, then `\n`. */
  function Header(stamp: seq<byte>): seq<byte> {
    PadRight(stamp, HEADER_SIZE - 1) + [10]
  }

  /** A whole binary file: header, `uint32` facet count, then the records. */
  function BinaryFile(header: seq<byte>, fs: seq<Facet>): (r: Result<seq<byte>, BinaryError>)
    ensures r.Ok? <==> |fs| < UINT32_LIMIT
    ensures r.Ok? ==> |r.value| == |header| + 4 + RECORD_SIZE * |fs|
  {
    if |fs| >= UINT32_LIMIT then Err(CountTooLarge)
    else Ok(header + EncodeU32(|fs|) + EncodeFacets(fs))
  }

  /** A header made from a time stamp of at most 79 bytes is exactly 80 bytes long. */
  lemma HeaderSize(stamp: seq<byte>)
    requires |stamp| <= HEADER_SIZE - 1
    ensures |Header(stamp)| == HEADER_SIZE
    ensures Header(stamp)[HEADER_SIZE - 1] == 10
  {
  }

  lemma {:induction false} RecordsOfEncoded(prefix: seq<byte>, fs: seq<Facet>, suffix: seq<byte>)
    ensures |prefix| + RECORD_SIZE * |fs| <= |prefix + EncodeFacets(fs) + suffix|
    ensures Records(prefix + EncodeFacets(fs) + suffix, |prefix|, |fs|) == Corners(fs)
    decreases |fs|
  {
    if fs != [] {
      var init, f := fs[..|fs| - 1], fs[|fs| - 1];
      var c := prefix + EncodeFacets(fs) + suffix;
      var front := prefix + EncodeFacets(init);
      EncodedSnoc(prefix, fs, suffix);
      RecordsOfEncoded(prefix, init, EncodeFacet(f) + suffix);
      LastRecordOf(front, f, suffix);
      RecordsExtend(c, |prefix|, |init|, Corners(init), [f.v0, f.v1, f.v2]);
    }
  }

  /** The bytes of `fs` split into those of all facets but the last, then the last one's record. */
  lemma EncodedSnoc(prefix: seq<byte>, fs: seq<Facet>, suffix: seq<byte>)
    requires fs != []
    ensures prefix + EncodeFacets(fs) + suffix
      == prefix + EncodeFacets(fs[..|fs| - 1]) + (EncodeFacet(fs[|fs| - 1]) + suffix)
  {
    Regroup(prefix, EncodeFacets(fs[..|fs| - 1]), EncodeFacet(fs[|fs| - 1]), suffix);
  }

  /** A facet's record placed right after `front` holds its corners. */
  lemma LastRecordOf(front: seq<byte>, f: Facet, suffix: seq<byte>)
    ensures |front| + RECORD_SIZE <= |front + (EncodeFacet(f) + suffix)|
    ensures RecordCorners(front + (EncodeFacet(f) + suffix), |front|) == [f.v0, f.v1, f.v2]
  {
    var e := EncodeFacet(f);
    var c := front + (e + suffix);
    assert c == front + e + suffix;
    Window(front, e, suffix);
    RecordCornersOfWindow(c, e, |front|);
  }

  /** One more record appends its corners. */
  lemma RecordsExtend(c: seq<byte>, off: nat, n: nat, before: seq<Vertex<Word>>, last: seq<Vertex<Word>>)
    requires off + RECORD_SIZE * (n + 1) <= |c|
    requires Records(c, off, n) == before && RecordCorners(c, off + RECORD_SIZE * n) == last
    ensures Records(c, off, n + 1) == before + last
  {
  }

  lemma Regroup(a: seq<byte>, b: seq<byte>, e: seq<byte>, s: seq<byte>)
    ensures a + (b + e) + s == a + b + (e + s)
  {
  }

  lemma Window(a: seq<byte>, e: seq<byte>, s: seq<byte>)
    ensures (a + e + s)[|a|..|a| + |e|] == e
  {
  }

  /** The corners of a record read inside `c` are the corners read in the record's own bytes. */
  lemma RecordCornersOfWindow(c: seq<byte>, e: seq<byte>, off: nat)
    requires |e| == RECORD_SIZE && off + |e| <= |c| && c[off..off + |e|] == e
    ensures off + RECORD_SIZE <= |c| && RecordCorners(c, off) == RecordCorners(e, 0)
  {
    VertexOfWindow(c, e, off, 12);
    VertexOfWindow(c, e, off, 24);
    VertexOfWindow(c, e, off, 36);
  }

  /** The count of a written file is read back from right after the header. */
  lemma CountOfWritten(header: seq<byte>, fs: seq<Facet>)
    requires |fs| < UINT32_LIMIT
    ensures |header| + 4 <= |header + EncodeU32(|fs|) + EncodeFacets(fs)|
    ensures DecodeU32((header + EncodeU32(|fs|) + EncodeFacets(fs))[|header|..|header| + 4]) == |fs|
  {
    var count := EncodeU32(|fs|);
    var h := header + count;
    var c := h + EncodeFacets(fs);
    SliceOfWindow(c, h, 0, |header|, |h|);
    assert h[|header|..|h|] == count;
  }

  /** Decoding a file made of a header, a count and the records of `fs` gives the corners of `fs`. */
  lemma DecodeWritten(header: seq<byte>, fs: seq<Facet>)
    requires |fs| < UINT32_LIMIT
    ensures DecodeBinary(header + EncodeU32(|fs|) + EncodeFacets(fs), |header|) == Ok(Corners(fs))
  {
    CountOfWritten(header, fs);
    RecordsOfWritten(header, fs);
    DecodeOf(header + EncodeU32(|fs|) + EncodeFacets(fs), |header|, |fs|);
  }

  /** The records of a written file, right after its count, are the corners of `fs`. */
  lemma RecordsOfWritten(header: seq<byte>, fs: seq<Facet>)
    requires |fs| < UINT32_LIMIT
    ensures |header| + 4 + RECORD_SIZE * |fs| <= |header + EncodeU32(|fs|) + EncodeFacets(fs)|
    ensures Records(header + EncodeU32(|fs|) + EncodeFacets(fs), |header| + 4, |fs|) == Corners(fs)
  {
    var h := header + EncodeU32(|fs|);
    var c := h + EncodeFacets(fs);
    RecordsOfEncoded(h, fs, []);
    assert c + [] == c;
  }

  /** A count `n` at `countAt` with room for `n` records decodes to those records. */
  lemma DecodeOf(c: seq<byte>, countAt: nat, n: nat)
    requires countAt + 4 + RECORD_SIZE * n <= |c| && DecodeU32(c[countAt..countAt + 4]) == n
    ensures DecodeBinary(c, countAt) == Ok(Records(c, countAt + 4, n))
  {
  }

  /**
   * Round trip: reading back a written file (count at byte 80) gives the
   * corners of the written facets, in order.
   */
  lemma RoundTrip(stamp: seq<byte>, fs: seq<Facet>)
    requires |stamp| <= HEADER_SIZE - 1
    requires |fs| < UINT32_LIMIT
    ensures BinaryFile(Header(stamp), fs).Ok?
    ensures LoadBinary(BinaryFile(Header(stamp), fs).value) == Ok(Corners(fs))
  {
    HeaderSize(stamp);
    DecodeWritten(Header(stamp), fs);
  }

  /** With a time stamp of at most 75 bytes, header bytes 75 to 78 are padding spaces. */
  lemma HeaderPadding(stamp: seq<byte>)
    requires |stamp| <= HEADER_SIZE - 5
    ensures |Header(stamp)| == HEADER_SIZE
    ensures Header(stamp)[75..79] == [32, 32, 32, 32]
  {
    var p := PadRight(stamp, HEADER_SIZE - 1);
    assert p[75] == 32 && p[76] == 32 && p[77] == 32 && p[78] == 32;
  }

  /**
   * The loader as written misreads every file this module writes with a
   * short time stamp: bytes 75 to 78 are header padding, so it expects
   * 0x20202020 facets and runs out of data (`RoundTrip` shows the corrected
   * loader reads the same file back).
   */
  lemma AsWrittenMisreadsCount(stamp: seq<byte>, fs: seq<Facet>)
    requires |stamp| <= HEADER_SIZE - 5
    requires |fs| < 0x2020_2020
    ensures BinaryFile(Header(stamp), fs).Ok?
    ensures LoadBinaryAsWritten(BinaryFile(Header(stamp), fs).value) == Err(Truncated)
  {
    HeaderSize(stamp);
    var hd := Header(stamp);
    var c := BinaryFile(hd, fs).value;
    assert 79 <= |c| < 79 + RECORD_SIZE * 0x2020_2020 by {
      HeaderSize(stamp);
    }
    assert c[75..79] == [32, 32, 32, 32] by {
      HeaderPadding(stamp);
      assert c[0..|hd|] == hd;
      SliceOfWindow(c, hd, 0, 75, 79);
    }
    SpacesAsCount(c);
  }

  /** Four spaces where the loader as written expects the count make it ask for 0x20202020 records. */
  lemma SpacesAsCount(c: seq<byte>)
    requires 79 <= |c| < 79 + RECORD_SIZE * 0x2020_2020
    requires c[75..79] == [32, 32, 32, 32]
    ensures LoadBinaryAsWritten(c) == Err(Truncated)
  {
    assert DecodeU32(c[75..79]) == 0x2020_2020;
  }
}

=== FILE: calculate_print.dfy ===
/**
 * The print-calculation process: reading PrusaSlicer's print-time strings,
 * choosing and running the mesh fixes before scaling, and the sizes each
 * scaler group asks the slicer for.
 */
module CalculatePrint {
  import opened Wrappers
  import opened Text
  import Paths
  import opened MeshTypes

  // ---------------------------------------------------------------------
  // print_time_to_minutes

  /** `$` also matches just before a final newline, so one trailing `\n` is ignored. */
  function Body(t: string): (b: string)
    ensures b == t || b + "\n" == t
  {
    if |t| > 0 && t[|t| - 1] == '\n' then t[..|t| - 1] else t
  }

  predicate NoDigits(seps: string) {
    forall i :: 0 <= i < |seps| ==> !IsDigit(seps[i])
  }

  /** The text the anchored pattern `(\d*)s0(\d*)s1…` matches for the groups `gs`. */
  function Interleave(gs: seq<string>, seps: string): string
    requires |gs| == |seps|
    decreases |gs|
  {
    if gs == [] then [] else gs[0] + [seps[0]] + Interleave(gs[1..], seps[1..])
  }

  /**
   * Matching `b` against `^(\d*)s0(\d*)s1…$` with one separator letter per
   * group: the groups when the whole of `b` matches.
   */
  function Groups(b: string, seps: string): (r: Option<seq<string>>)
    ensures r.Some? ==> |r.value| == |seps| && forall i :: 0 <= i < |r.value| ==> AllDigits(r.value[i])
    decreases |seps|
  {
    if seps == [] then (if b == [] then Some([]) else None)
    else match IndexOf(b, seps[0])
      case None => None
      case Some(i) =>
        if !AllDigits(b[..i]) then None
        else match Groups(b[i + 1..], seps[1..])
          case None => None
          case Some(gs) => Some([b[..i]] + gs)
  }

  /** A match holds the first separator. */
  lemma GroupsFound(b: string, seps: string)
    requires seps != [] && Groups(b, seps).Some?
    ensures IndexOf(b, seps[0]).Some?
  {
  }

  /** A match splits at the first occurrence of the first separator. */
  lemma GroupsStep(b: string, seps: string, i: nat)
    requires seps != [] && IndexOf(b, seps[0]) == Some(i) && Groups(b, seps).Some?
    ensures i < |b| && Groups(b[i + 1..], seps[1..]).Some?
    ensures Groups(b, seps).value == [b[..i]] + Groups(b[i + 1..], seps[1..]).value
  {
  }

  lemma Around(s: string, i: nat)
    requires i < |s|
    ensures s[..i] + [s[i]] + s[i + 1..] == s
  {
  }

  /** Every match is the pattern's text for its groups. */
  lemma {:induction false} GroupsSound(b: string, seps: string)
    requires Groups(b, seps).Some?
    ensures Interleave(Groups(b, seps).value, seps) == b
    decreases |seps|
  {
    if seps != [] {
      GroupsFound(b, seps);
      var i := IndexOf(b, seps[0]).value;
      GroupsStep(b, seps, i);
      var rest := b[i + 1..];
      var gs := Groups(b, seps).value;
      var restGroups := Groups(rest, seps[1..]).value;
      assert Interleave(restGroups, seps[1..]) == rest by {
        GroupsSound(rest, seps[1..]);
      }
      assert Interleave(gs, seps) == b[..i] + [seps[0]] + rest by {
        assert gs[0] == b[..i] && gs[1..] == restGroups;
      }
      assert b[i] == seps[0];
      Around(b, i);
    }
  }

  /** Every text of the pattern matches, with its own groups. */
  lemma {:induction false} GroupsComplete(gs: seq<string>, seps: string)
    requires |gs| == |seps| && NoDigits(seps)
    requires forall i :: 0 <= i < |gs| ==> AllDigits(gs[i])
    ensures Groups(Interleave(gs, seps), seps) == Some(gs)
    decreases |gs|
  {
    if gs != [] {
      GroupsComplete(gs[1..], seps[1..]);
      GroupsCons(gs[0], seps, Interleave(gs[1..], seps[1..]));
      assert [gs[0]] + gs[1..] == gs;
    }
  }

  /** A digit group, then the first separator, then a match of the other separators. */
  lemma GroupsCons(g: string, seps: string, rest: string)
    requires seps != [] && AllDigits(g) && !IsDigit(seps[0]) && Groups(rest, seps[1..]).Some?
    ensures Groups(g + [seps[0]] + rest, seps) == Some([g] + Groups(rest, seps[1..]).value)
  {
    var b := g + [seps[0]] + rest;
    FirstSeparator(g, seps[0], rest);
    assert b[..|g|] == g && b[|g| + 1..] == rest;
  }

  /** After a digit group, the first occurrence of a non-digit is the one right behind it. */
  lemma FirstSeparator(g: string, c: char, rest: string)
    requires AllDigits(g) && !IsDigit(c)
    ensures IndexOf(g + [c] + rest, c) == Some(|g|)
  {
    var b := g + [c] + rest;
    PrefixDigits(g, c, rest);
    assert c in b;
  }

  /** A match ends with the last separator. */
  lemma {:induction false} GroupsEndWith(b: string, seps: string)
    requires seps != [] && Groups(b, seps).Some?
    ensures b != [] && b[|b| - 1] == seps[|seps| - 1]
    decreases |seps|
  {
    GroupsFound(b, seps);
    var i := IndexOf(b, seps[0]).value;
    GroupsStep(b, seps, i);
    var rest := b[i + 1..];
    if |seps| > 1 {
      assert rest != [] && rest[|rest| - 1] == seps[|seps| - 1] by {
        GroupsEndWith(rest, seps[1..]);
      }
      assert b[|b| - 1] == rest[|rest| - 1];
    } else {
      assert rest == [];
      assert b[i] == seps[0];
    }
  }

  /** `int(...)` of a `\d*` group: the empty group is not a number. */
  function IntOf(d: string): (r: Result<nat, string>)
    requires AllDigits(d)
    ensures r.Ok? <==> d != []
  {
    if d == [] then Err("invalid literal for int() with base 10: ''") else Ok(DigitsValue(d))
  }

  /**
   * `int(g0) * w0 + int(g1) * w1 + …`, evaluated left to right: the first
   * empty group raises.
   */
  function Weighted(gs: seq<string>, weights: seq<int>): (r: Result<int, string>)
    requires |gs| == |weights| && forall i :: 0 <= i < |gs| ==> AllDigits(gs[i])
    ensures r.Err? <==> exists i :: 0 <= i < |gs| && gs[i] == []
    ensures r.Ok? && (forall i :: 0 <= i < |weights| ==> weights[i] >= 0) ==> r.value >= 0
    decreases |gs|
  {
    if gs == [] then Ok(0)
    else
      var v :- IntOf(gs[0]);
      var rest :- Weighted(gs[1..], weights[1..]);
      assert forall i :: 1 <= i < |gs| ==> gs[i] == gs[1..][i - 1];
      Ok(weights[0] * v + rest)
  }

  /**
   * `print_time_to_minutes`: the three anchored patterns in turn, 0 when
   * none matches; a day counts 24·60 = 1440 minutes.
   */
  function PrintTimeToMinutes(t: string): (r: Result<int, string>)
    ensures r.Ok? ==> r.value >= 0
    ensures Groups(Body(t), "hm").None? && Groups(Body(t), "m").None? && Groups(Body(t), "dhm").None? ==> r == Ok(0)
    ensures r.Err? ==> Groups(Body(t), "hm").Some? || Groups(Body(t), "m").Some? || Groups(Body(t), "dhm").Some?
  {
    var b := Body(t);
    if Groups(b, "hm").Some? then Minutes(Groups(b, "hm").value, [60, 1])
    else if Groups(b, "m").Some? then Minutes(Groups(b, "m").value, [1])
    else if Groups(b, "dhm").Some? then Minutes(Groups(b, "dhm").value, [1440, 60, 1])
    else Ok(0)
  }

  /** The weighted sum of a match's groups, for weights that are minutes per unit. */
  function Minutes(gs: seq<string>, weights: seq<nat>): (r: Result<int, string>)
    requires |gs| == |weights| && forall i :: 0 <= i < |gs| ==> AllDigits(gs[i])
    ensures r.Ok? ==> r.value >= 0
  {
    Weighted(gs, weights)
  }

  predicate Digits(d: string) {
    d != [] && AllDigits(d)
  }

  predicate Newline(suffix: string) {
    suffix == "" || suffix == "\n"
  }

  lemma Interleave1(m: string, s0: char)
    ensures Interleave([m], [s0]) == m + [s0]
  {
    assert [m][1..] == [];
  }

  lemma Interleave2(h: string, m: string, s0: char, s1: char)
    ensures Interleave([h, m], [s0, s1]) == h + [s0] + m + [s1]
  {
    assert [h, m][1..] == [m];
    assert [s0, s1][1..] == [s1];
    Interleave1(m, s1);
  }

  lemma Interleave3(d: string, h: string, m: string, s0: char, s1: char, s2: char)
    ensures Interleave([d, h, m], [s0, s1, s2]) == d + [s0] + h + [s1] + m + [s2]
  {
    assert [d, h, m][1..] == [h, m];
    assert [s0, s1, s2][1..] == [s1, s2];
    Interleave2(h, m, s1, s2);
  }

  lemma BodyOf(b: string, suffix: string)
    requires Newline(suffix) && b != [] && b[|b| - 1] != '\n'
    ensures Body(b + suffix) == b
  {
    if suffix == "\n" {
      assert (b + suffix)[..|b|] == b;
    }
  }

  /** `"<H>h<M>m"` is 60·H + M minutes. */
  lemma HoursMinutes(h: string, m: string, suffix: string)
    requires Digits(h) && Digits(m) && Newline(suffix)
    ensures var t := h + "h" + m + "m" + suffix;
      PrintTimeToMinutes(t).Ok? && PrintTimeToMinutes(t).value == 60 * DigitsValue(h) + DigitsValue(m)
  {
    HoursMinutesMatch(h, m, suffix);
    Weighted2(h, m, 60, 1);
  }

  /** The first pattern matches a `"<H>h<M>m"` time. */
  lemma HoursMinutesMatch(h: string, m: string, suffix: string)
    requires Digits(h) && Digits(m) && Newline(suffix)
    ensures PrintTimeToMinutes(h + "h" + m + "m" + suffix) == Weighted([h, m], [60, 1])
  {
    var b := h + "h" + m + "m";
    assert Groups(b, "hm") == Some([h, m]) by {
      Interleave2(h, m, 'h', 'm');
      GroupsComplete([h, m], "hm");
    }
    BodyOf(b, suffix);
  }

  /** `"<M>m"` is M minutes. */
  lemma MinutesOnly(m: string, suffix: string)
    requires Digits(m) && Newline(suffix)
    ensures PrintTimeToMinutes(m + "m" + suffix).Ok? && PrintTimeToMinutes(m + "m" + suffix).value == DigitsValue(m)
  {
    MinutesOnlyMatch(m, suffix);
    Weighted1(m, 1);
  }

  /** Only the second pattern matches a `"<M>m"` time. */
  lemma MinutesOnlyMatch(m: string, suffix: string)
    requires Digits(m) && Newline(suffix)
    ensures PrintTimeToMinutes(m + "m" + suffix) == Weighted([m], [1])
  {
    var b := m + "m";
    MinutesGroups(m);
    MinutesWithoutHours(m);
    BodyOf(b, suffix);
    SecondPattern(b, m + "m" + suffix);
  }

  lemma MinutesGroups(m: string)
    requires Digits(m)
    ensures Groups(m + "m", "m") == Some([m])
  {
    Interleave1(m, 'm');
    GroupsComplete([m], "m");
  }

  lemma MinutesWithoutHours(m: string)
    requires Digits(m)
    ensures Groups(m + "m", "hm").None?
  {
    var b := m + "m";
    assert forall i :: 0 <= i < |b| ==> b[i] != 'h' by {
      assert forall i :: 0 <= i < |m| ==> b[i] == m[i];
    }
    assert IndexOf(b, 'h').None?;
  }

  /** When only the second pattern matches, its groups are weighed. */
  lemma SecondPattern(b: string, t: string)
    requires Body(t) == b && Groups(b, "hm").None? && Groups(b, "m").Some?
    ensures PrintTimeToMinutes(t) == Weighted(Groups(b, "m").value, [1])
  {
  }

  /** `"<D>d<H>h<M>m"` is 1440·D + 60·H + M minutes. */
  lemma DaysHoursMinutes(d: string, h: string, m: string, suffix: string)
    requires Digits(d) && Digits(h) && Digits(m) && Newline(suffix)
    ensures var t := d + "d" + h + "h" + m + "m" + suffix;
      PrintTimeToMinutes(t).Ok? && PrintTimeToMinutes(t).value == 1440 * DigitsValue(d) + 60 * DigitsValue(h) + DigitsValue(m)
  {
    DaysHoursMinutesMatch(d, h, m, suffix);
    Weighted3(d, h, m, 1440, 60, 1);
  }

  /** Only the third pattern matches a `"<D>d<H>h<M>m"` time. */
  lemma DaysHoursMinutesMatch(d: string, h: string, m: string, suffix: string)
    requires Digits(d) && Digits(h) && Digits(m) && Newline(suffix)
    ensures PrintTimeToMinutes(d + "d" + h + "h" + m + "m" + suffix) == Weighted([d, h, m], [1440, 60, 1])
  {
    var b := d + "d" + h + "h" + m + "m";
    DaysHoursMinutesGroups(d, h, m);
    BodyOf(b, suffix);
  }

  lemma DaysHoursMinutesGroups(d: string, h: string, m: string)
    requires Digits(d) && Digits(h) && Digits(m)
    ensures var b := d + "d" + h + "h" + m + "m";
      Groups(b, "dhm") == Some([d, h, m]) && Groups(b, "hm").None? && Groups(b, "m").None?
  {
    var rest := h + "h" + m + "m";
    var b := d + ['d'] + rest;
    assert b == d + "d" + h + "h" + m + "m";
    Interleave3(d, h, m, 'd', 'h', 'm');
    GroupsComplete([d, h, m], "dhm");
    DayBlocks(d, rest, "hm");
    DayBlocks(d, rest, "m");
  }

  /** The day letter, not a digit, comes before any hour or minute letter. */
  lemma DayBlocks(d: string, rest: string, seps: string)
    requires Digits(d) && seps != [] && seps[0] != 'd' && !IsDigit(seps[0])
    ensures Groups(d + ['d'] + rest, seps).None?
  {
    var b := d + ['d'] + rest;
    PrefixDigits(d, 'd', rest);
    FirstGroupNotDigits(b, |d|, seps);
  }

  lemma Weighted1(m: string, wm: int)
    requires Digits(m)
    ensures Weighted([m], [wm]) == Ok(wm * DigitsValue(m))
  {
    assert [m][1..] == [];
  }

  lemma Weighted2(h: string, m: string, wh: int, wm: int)
    requires Digits(h) && Digits(m)
    ensures Weighted([h, m], [wh, wm]) == Ok(wh * DigitsValue(h) + wm * DigitsValue(m))
  {
    assert [h, m][1..] == [m];
    assert [wh, wm][1..] == [wm];
    Weighted1(m, wm);
  }

  lemma Weighted3(d: string, h: string, m: string, wd: int, wh: int, wm: int)
    requires Digits(d) && Digits(h) && Digits(m)
    ensures Weighted([d, h, m], [wd, wh, wm]) == Ok(wd * DigitsValue(d) + wh * DigitsValue(h) + wm * DigitsValue(m))
  {
    assert [d, h, m][1..] == [h, m];
    assert [wd, wh, wm][1..] == [wh, wm];
    Weighted2(h, m, wh, wm);
  }

  lemma PrefixDigits(d: string, c: char, rest: string)
    requires AllDigits(d)
    ensures var b := d + [c] + rest;
      |d| < |b| && b[|d|] == c && forall j :: 0 <= j < |d| ==> IsDigit(b[j])
  {
  }

  /** A letter other than the first separator, before that separator, stops the match. */
  lemma FirstGroupNotDigits(b: string, k: nat, seps: string)
    requires seps != [] && k < |b| && !IsDigit(b[k])
    requires forall j :: 0 <= j <= k ==> b[j] != seps[0]
    ensures Groups(b, seps).None?
  {
    if Groups(b, seps).Some? {
      FirstGroupDigits(b, seps);
    }
  }

  /** A match begins with digits up to the first separator. */
  lemma FirstGroupDigits(b: string, seps: string)
    requires seps != [] && Groups(b, seps).Some?
    ensures IndexOf(b, seps[0]).Some?
    ensures forall j :: 0 <= j < IndexOf(b, seps[0]).value ==> IsDigit(b[j])
  {
    GroupsFound(b, seps);
    var i := IndexOf(b, seps[0]).value;
    GroupsStep(b, seps, i);
    assert AllDigits(b[..i]) by {
      assert Groups(b, seps).value[0] == b[..i];
    }
    assert forall j :: 0 <= j < i ==> b[j] == b[..i][j];
  }

  /** `\d*` accepts an empty hour group, and then `int('')` raises. */
  lemma EmptyHoursRaise(m: string)
    requires Digits(m)
    ensures PrintTimeToMinutes("h" + m + "m").Err?
  {
    var b := "h" + m + "m";
    Interleave2("", m, 'h', 'm');
    assert Interleave(["", m], "hm") == b;
    GroupsComplete(["", m], "hm");
    assert Body(b) == b;
    assert Groups(b, "hm") == Some(["", m]);
  }

  /** A time that does not end in `m` (before an optional final newline) matches nothing and counts as 0. */
  lemma NoMinutesIsZero(t: string)
    requires Body(t) == [] || Body(t)[|Body(t)| - 1] != 'm'
    ensures PrintTimeToMinutes(t) == Ok(0)
  {
    var b := Body(t);
    if Groups(b, "hm").Some? { GroupsEndWith(b, "hm"); }
    if Groups(b, "m").Some? { GroupsEndWith(b, "m"); }
    if Groups(b, "dhm").Some? { GroupsEndWith(b, "dhm"); }
  }

  // ---------------------------------------------------------------------
  // Scaler groups

  /** `SCALE_CM`: the heights, in centimetres, a model is scaled to. */
  const SCALE_CM: seq<int> := [10, 15, 20, 25, 30, 35, 40, 45, 50, 75, 100, 120]

  /** A model's bounding-box size in millimetres, as `get_info` reports it. */
  datatype Sizes = Sizes(x: real, y: real, z: real)

  /** One record of `get_info`: the parts of it `_fix_mesh` and `_scale` read. */
  datatype ModelInfo = ModelInfo(manifold: bool, sizes: Sizes)

  /** The size a model of size `s` has when scaled to `heightCm` centimetres high. */
  function Scaled(s: Sizes, heightCm: int): Sizes
    requires s.z != 0.0
  {
    var factor := (heightCm * 10) as real / s.z;
    Sizes(s.x * factor, s.y * factor, s.z * factor)
  }

  /** Scaling reaches the requested height and keeps the proportions of the footprint. */
  lemma ScaledShape(s: Sizes, heightCm: int)
    requires s.z != 0.0
    ensures Scaled(s, heightCm).z == (heightCm * 10) as real
    ensures Scaled(s, heightCm).x * s.z == s.x * (heightCm * 10) as real
    ensures Scaled(s, heightCm).y * s.z == s.y * (heightCm * 10) as real
  {
    var factor := (heightCm * 10) as real / s.z;
    assert factor * s.z == (heightCm * 10) as real;
  }

  datatype ScaleError = NoInfo | ZeroHeight

  /** `ScalerGroup` scales to every height of `SCALE_CM`; `NotScalerGroup` keeps the model as it is. */
  datatype ScalerKind = Grouped | NotGrouped

  datatype FixError =
    | IndexError
    | NotADirectory(path: string)
    | NotCallable
    | FixPipeline(error: PipelineError)
    | NotAFixedFile(path: string)

  /** `MeshTweaker._PREFIX_OPERATION` */
  const TWEAKER := Processor("tweak_")
  /** `MeshRepairer._PREFIX_OPERATION` */
  const REPAIRER := Processor("repair_")

  function Reversed<T>(s: seq<T>): (r: seq<T>)
    ensures |r| == |s| && forall i :: 0 <= i < |s| ==> r[i] == s[|s| - 1 - i]
    decreases |s|
  {
    if s == [] then [] else Reversed(s[1..]) + [s[0]]
  }

  /** The mesh operations list of `_fix_mesh`: the tweaker, the repairer appended for a non-manifold model, then reversed. */
  method MeshOperations(manifold: bool) returns (ops: seq<Processor>)
    ensures ops == if manifold then [TWEAKER] else [REPAIRER, TWEAKER]
  {
    ops := [TWEAKER];
    if !manifold {
      ops := ops + [REPAIRER];
    }
    ops := Reversed(ops);
  }

  /** The pipeline `_fix_mesh` means to run: a fresh first operation, decorated by the others. */
  function FixPipelineOf(ops: seq<Processor>, model: string, dir: string, fs: Paths.FileSystem, save: Saver)
    : Result<(string, Paths.FileSystem), PipelineError>
    requires ops != []
  {
    Pipeline(ops[0], ops[1..], model, None, dir, fs, save)
  }

  class ScalerGroupBase {
    var model: string
    const kind: ScalerKind

    constructor(model: string, kind: ScalerKind)
      ensures this.model == model && this.kind == kind
    {
      this.model := model;
      this.kind := kind;
    }

    /**
     * `_fix_mesh` as written: the remaining info records are passed as
     * decorators and the output directory is the model's base name.
     */
    method FixMeshAsWritten(info: seq<ModelInfo>, fs: Paths.FileSystem, save: Saver) returns (r: Result<Paths.FileSystem, FixError>)
      modifies this
      ensures r == FixedAsWritten(old(model), info, fs, save)
      ensures model == if r.Ok? then FixedModelAsWritten(old(model), info[0].manifold, fs, save) else old(model)
    {
      if info == [] {
        return Err(IndexError);
      }
      var ops := MeshOperations(info[0].manifold);
      var dir := Paths.Basename(model);
      if !fs.IsDir(dir) {
        return Err(NotADirectory(dir));
      }
      if |info| > 1 {
        return Err(NotCallable);
      }
      var processor := new MeshProcessor(model, ops[0], []);
      var saved := processor.SaveProcessedMesh(dir, fs, save);
      var (path, fs1) := saved.value;
      if !fs1.IsFile(path) {
        return Err(NotAFixedFile(path));
      }
      model := path;
      r := Ok(fs1);
    }

    /** `_fix_mesh` with the other operations as decorators and the output written beside the model. */
    method FixMesh(info: seq<ModelInfo>, fs: Paths.FileSystem, save: Saver) returns (r: Result<Paths.FileSystem, FixError>)
      modifies this
      ensures r == Fixed(old(model), info, fs, save)
      ensures model == if r.Ok? then FixPipelineOf(Operations(info[0].manifold), old(model), Paths.Dirname(old(model)), fs, save).value.0 else old(model)
    {
      if info == [] {
        return Err(IndexError);
      }
      var ops := MeshOperations(info[0].manifold);
      var dir := Paths.Dirname(model);
      if !fs.IsDir(dir) {
        return Err(NotADirectory(dir));
      }
      var processor := new MeshProcessor(model, ops[0], ops[1..]);
      var saved := processor.SaveProcessedMesh(dir, fs, save);
      if saved.Err? {
        return Err(FixPipeline(saved.error));
      }
      var (path, fs1) := saved.value;
      if !fs1.IsFile(path) {
        return Err(NotAFixedFile(path));
      }
      model := path;
      r := Ok(fs1);
    }

    /**
     * `_scale`, driven to the end: the first info record's size, scaled to
     * each height of `SCALE_CM` in order, or the size itself once.
     */
    method Scale(info: seq<ModelInfo>) returns (r: Result<seq<Sizes>, ScaleError>)
      ensures info == [] ==> r == Err(NoInfo)
      ensures kind.NotGrouped? && info != [] ==> r == Ok([info[0].sizes])
      ensures kind.Grouped? && info != [] ==> (r.Ok? <==> info[0].sizes.z != 0.0)
      ensures kind.Grouped? && r.Ok? ==> (|r.value| == |SCALE_CM|
        && forall i :: 0 <= i < |SCALE_CM| ==> r.value[i] == Scaled(info[0].sizes, SCALE_CM[i]))
    {
      if info == [] {
        return Err(NoInfo);
      }
      var sizes := info[0].sizes;
      if kind.NotGrouped? {
        var triples := [];
        for k := 0 to 1
          invariant |triples| == k
          invariant forall j :: 0 <= j < |triples| ==> triples[j] == sizes
        {
          triples := triples + [sizes];
        }
        assert triples == [sizes];
        return Ok(triples);
      }
      if sizes.z == 0.0 {
        return Err(ZeroHeight);
      }
      var triples := [];
      for i := 0 to |SCALE_CM|
        invariant |triples| == i
        invariant forall j :: 0 <= j < i ==> triples[j] == Scaled(sizes, SCALE_CM[j])
      {
        var factor := (SCALE_CM[i] * 10) as real / sizes.z;
        triples := triples + [Sizes(sizes.x * factor, sizes.y * factor, sizes.z * factor)];
      }
      r := Ok(triples);
    }
  }

  /** The operations `_fix_mesh` picks for a model, as a value. */
  function Operations(manifold: bool): (ops: seq<Processor>)
    ensures ops != [] && ops[|ops| - 1] == TWEAKER
    ensures REPAIRER in ops <==> !manifold
  {
    if manifold then [TWEAKER] else [REPAIRER, TWEAKER]
  }

  /** What `_fix_mesh` as written does to the file system. */
  function FixedAsWritten(model: string, info: seq<ModelInfo>, fs: Paths.FileSystem, save: Saver): (r: Result<Paths.FileSystem, FixError>)
    ensures r.Ok? ==> |info| == 1 && fs.IsDir(Paths.Basename(model))
    ensures r.Ok? ==> fs.files <= r.value.files && fs.dirs == r.value.dirs
    ensures r.Ok? ==> r.value.IsFile(FixedModelAsWritten(model, info[0].manifold, fs, save))
  {
    if info == [] then Err(IndexError)
    else if !fs.IsDir(Paths.Basename(model)) then Err(NotADirectory(Paths.Basename(model)))
    else if |info| > 1 then Err(NotCallable)
    else
      var (path, fs1) := SaveSingle(Operations(info[0].manifold)[0], model, model, Paths.Basename(model), fs, save);
      if fs1.IsFile(path) then Ok(fs1) else Err(NotAFixedFile(path))
  }

  /** What the corrected `_fix_mesh` does to the file system. */
  function Fixed(model: string, info: seq<ModelInfo>, fs: Paths.FileSystem, save: Saver): (r: Result<Paths.FileSystem, FixError>)
    ensures r.Ok? ==> info != [] && fs.IsDir(Paths.Dirname(model))
    ensures r.Ok? ==> FixPipelineOf(Operations(info[0].manifold), model, Paths.Dirname(model), fs, save).Ok?
    ensures r.Ok? ==> var out := FixPipelineOf(Operations(info[0].manifold), model, Paths.Dirname(model), fs, save).value;
              r.value == out.1 && out.1.IsFile(out.0) && fs.files <= r.value.files && fs.dirs == r.value.dirs
  {
    if info == [] then Err(IndexError)
    else if !fs.IsDir(Paths.Dirname(model)) then Err(NotADirectory(Paths.Dirname(model)))
    else match FixPipelineOf(Operations(info[0].manifold), model, Paths.Dirname(model), fs, save)
      case Err(e) => Err(FixPipeline(e))
      case Ok((path, fs1)) => if fs1.IsFile(path) then Ok(fs1) else Err(NotAFixedFile(path))
  }

  /** The model `_fix_mesh` as written leaves behind: the first operation's output, no decorator having run. */
  function FixedModelAsWritten(model: string, manifold: bool, fs: Paths.FileSystem, save: Saver): string {
    SaveSingle(Operations(manifold)[0], model, model, Paths.Basename(model), fs, save).0
  }

  /**
   * As written, a non-manifold model is only repaired: the tweaker, second
   * in the list, is never run.
   */
  lemma AsWrittenSkipsTweaker(model: string, fs: Paths.FileSystem, save: Saver)
    requires ReturnsOutput(save)
    ensures Paths.Basename(FixedModelAsWritten(model, false, fs, save)) == REPAIRER.prefix + Paths.Basename(model)
    ensures TWEAKER in Operations(false)
  {
    PrefixesPlain();
    OutputFileBasename(REPAIRER, model, Paths.Basename(model));
  }

  /** As written, a model reported in several parts passes info records as decorators, which cannot be called. */
  lemma AsWrittenMultiPartRaises(model: string, info: seq<ModelInfo>, fs: Paths.FileSystem, save: Saver)
    requires |info| > 1 && fs.IsDir(Paths.Basename(model))
    ensures FixedAsWritten(model, info, fs, save) == Err(NotCallable)
  {
  }

  /** Corrected, a non-manifold model is tweaked and then repaired. */
  lemma FixedRunsEveryOperation(model: string, fs: Paths.FileSystem, save: Saver)
    requires ReturnsOutput(save)
    requires FixPipelineOf(Operations(false), model, Paths.Dirname(model), fs, save).Ok?
    ensures Paths.Basename(FixPipelineOf(Operations(false), model, Paths.Dirname(model), fs, save).value.0)
      == REPAIRER.prefix + TWEAKER.prefix + Paths.Basename(model)
  {
    var dir := Paths.Dirname(model);
    var ops := Operations(false);
    assert ops[0] == REPAIRER && ops[1..] == [TWEAKER];
    assert FixPipelineOf(ops, model, dir, fs, save) == Pipeline(REPAIRER, [TWEAKER], model, None, dir, fs, save);
    OnePrefix(TWEAKER);
    PrefixesPlain();
    PipelineBasename(REPAIRER, [TWEAKER], model, None, dir, fs, save);
  }

  lemma PrefixesPlain()
    ensures '/' !in TWEAKER.prefix && '/' !in REPAIRER.prefix
    ensures forall i :: 0 <= i < |[TWEAKER]| ==> '/' !in [TWEAKER][i].prefix
  {
    assert TWEAKER.prefix == "tweak_";
    assert REPAIRER.prefix == "repair_";
  }

  lemma OnePrefix(p: Processor)
    ensures Prefixes([p]) == p.prefix
  {
    assert [p][1..] == [];
  }

  /** Corrected, a manifold model is only tweaked. */
  lemma FixedManifoldOnlyTweaks(model: string, fs: Paths.FileSystem, save: Saver)
    requires ReturnsOutput(save)
    requires FixPipelineOf(Operations(true), model, Paths.Dirname(model), fs, save).Ok?
    ensures Paths.Basename(FixPipelineOf(Operations(true), model, Paths.Dirname(model), fs, save).value.0)
      == TWEAKER.prefix + Paths.Basename(model)
  {
    var dir := Paths.Dirname(model);
    assert FixPipelineOf(Operations(true), model, dir, fs, save) == Pipeline(TWEAKER, [], model, None, dir, fs, save) by {
      assert Operations(true)[1..] == [];
    }
    PrefixesPlain();
    PipelineBasename(TWEAKER, [], model, None, dir, fs, save);
    assert TWEAKER.prefix + Prefixes([]) == TWEAKER.prefix;
  }

  /** A model file in an existing directory, as the examples below use it. */
  const SAMPLE_MODEL := "/models/model.stl"
  const SAMPLE_FS := Paths.FileSystem({SAMPLE_MODEL}, {"/models"})
  const SAMPLE_INFO := [ModelInfo(true, Sizes(10.0, 10.0, 10.0))]

  lemma SampleBasename()
    ensures Paths.Basename(SAMPLE_MODEL) == "model.stl"
  {
    SampleSplit();
  }

  lemma SampleDirname()
    ensures Paths.Dirname(SAMPLE_MODEL) == "/models"
  {
    SampleSplit();
    assert Paths.StripTrailingSlashes("/models/") == "/models" by {
      SampleStrip();
    }
    assert !Paths.AllSlashes("/models/") by {
      assert "/models/"[1] != '/';
    }
  }

  lemma SampleJoin()
    ensures Paths.Join("/models", "tweak_model.stl") == "/models/tweak_model.stl"
  {
    assert !StartsWith("tweak_model.stl", "/") by {
      assert "tweak_model.stl"[..1] == "t";
    }
  }

  lemma SampleSplit()
    ensures Paths.AfterLastSlash(SAMPLE_MODEL) == 8
    ensures SAMPLE_MODEL[..8] == "/models/" && SAMPLE_MODEL[8..] == "model.stl"
  {
    assert SAMPLE_MODEL == "/models/" + "model.stl";
    Paths.AfterLastSlashOfAppend("/models/", "model.stl");
  }

  lemma SampleStrip()
    ensures Paths.StripTrailingSlashes("/models/") == "/models"
  {
    assert "/models/"[..7] == "/models";
    assert "/models"[6] != '/';
  }

  /** As written, the output directory is the model's file name, so a model file whose name is no directory is refused. */
  lemma AsWrittenRejectsModelDirectory(model: string, info: seq<ModelInfo>, fs: Paths.FileSystem, save: Saver)
    requires info != [] && !fs.IsDir(Paths.Basename(model))
    ensures FixedAsWritten(model, info, fs, save) == Err(NotADirectory(Paths.Basename(model)))
  {
  }

  /** Corrected, the fixed model is a file in the model's own directory. */
  lemma FixedWritesBesideModel(model: string, info: seq<ModelInfo>, fs: Paths.FileSystem, save: Saver)
    requires ReturnsOutput(save)
    requires Fixed(model, info, fs, save).Ok?
    ensures var out := FixPipelineOf(Operations(info[0].manifold), model, Paths.Dirname(model), fs, save).value.0;
      out == Paths.Join(Paths.Dirname(model), Paths.Basename(out)) && Fixed(model, info, fs, save).value.IsFile(out)
  {
    var dir := Paths.Dirname(model);
    var ops := Operations(info[0].manifold);
    var ran := RunDecorators(ops[1..], model, dir, fs, save).value;
    var out := FixPipelineOf(ops, model, dir, fs, save).value.0;
    assert out == OutputFile(ops[0], ran.0, dir);
    PrefixesPlain();
    assert '/' !in ops[0].prefix;
    OutputFileBasename(ops[0], ran.0, dir);
  }

  /** The sample model as written: its file name `model.stl` is no directory. */
  lemma SampleRejectedAsWritten(save: Saver)
    ensures FixedAsWritten(SAMPLE_MODEL, SAMPLE_INFO, SAMPLE_FS, save) == Err(NotADirectory("model.stl"))
  {
    SampleBasename();
  }

  /** The sample model corrected: `tweak_model.stl` is written into `/models`. */
  lemma SampleWrittenBeside(save: Saver)
    requires ReturnsOutput(save)
    ensures Fixed(SAMPLE_MODEL, SAMPLE_INFO, SAMPLE_FS, save)
      == Ok(Paths.FileSystem({SAMPLE_MODEL, "/models/tweak_model.stl"}, {"/models"}))
  {
    SampleBasename();
    SampleDirname();
    SampleJoin();
    var out := "/models/tweak_model.stl";
    assert TWEAKER.prefix + "model.stl" == "tweak_model.stl";
    assert OutputFile(TWEAKER, SAMPLE_MODEL, "/models") == out;
    var fs1 := Paths.FileSystem({SAMPLE_MODEL, out}, {"/models"});
    assert SAMPLE_FS.files + {out} == fs1.files;
    assert SaveSingle(TWEAKER, SAMPLE_MODEL, SAMPLE_MODEL, "/models", SAMPLE_FS, save) == (out, fs1);
  }
}

=== FILE: config_importer.dfy ===
/**
 * `BlenderConfigImporter._import_config`: the `render_image` section of a
 * loaded YAML document becomes one render configuration per template entry,
 * each with its list of image numbers.
 */
module ConfigImporter {
  import opened Wrappers
  import opened Text
  import Paths
  import OptionTypes

  /** A value `yaml.safe_load` produces; a mapping keeps its keys in document order. */
  datatype Yaml =
    | Null
    | Bool(b: bool)
    | Int(i: int)
    | Str(s: string)
    | List(items: seq<Yaml>)
    | Mapping(entries: seq<(string, Yaml)>)

  type Entries = seq<(string, Yaml)>

  const RENDER_IMAGE := "render_image"
  const TEMPLATES := "templates_number_img"

  datatype ImportError =
    | NoneDocument
    | KeyError(key: string)
    | TypeError(message: string)
    | AttributeError(message: string)
    | ValueError(message: string)
    | Invalid(error: OptionTypes.ConstructError)

  /** `d[key]` on a mapping: the first entry with that key. */
  function Get(es: Entries, key: string): (r: Result<Yaml, ImportError>)
    ensures r.Err? ==> r.error == KeyError(key)
    ensures r.Ok? <==> exists i :: 0 <= i < |es| && es[i].0 == key
    decreases |es|
  {
    if es == [] then Err(KeyError(key))
    else if es[0].0 == key then Ok(es[0].1)
    else
      var r := Get(es[1..], key);
      assert forall i :: 1 <= i < |es| ==> es[i] == es[1..][i - 1];
      assert r.Ok? ==> es[1..][0].0 == key || exists i :: 1 <= i < |es[1..]| && es[1..][i].0 == key;
      r
  }

  /** The entries without `key`, as `d.pop(key)` leaves them. */
  function Remove(es: Entries, key: string): (r: Entries)
    ensures |r| <= |es|
    ensures forall i :: 0 <= i < |r| ==> r[i].0 != key
    decreases |es|
  {
    if es == [] then []
    else if es[0].0 == key then Remove(es[1..], key)
    else [es[0]] + Remove(es[1..], key)
  }

  /** After the pop, the key is gone and every other key reads as before. */
  lemma {:induction false} RemoveGet(es: Entries, key: string, other: string)
    ensures Get(Remove(es, key), key) == Err(KeyError(key))
    ensures other != key ==> Get(Remove(es, key), other) == Get(es, other)
    decreases |es|
  {
    if es != [] {
      RemoveGet(es[1..], key, other);
    }
  }

  /** `d[key] = v` on a mapping that already holds `key`. */
  function Updated(es: Entries, key: string, v: Yaml): (r: Entries)
    ensures |r| == |es|
    decreases |es|
  {
    if es == [] then []
    else if es[0].0 == key then [(key, v)] + es[1..]
    else [es[0]] + Updated(es[1..], key, v)
  }

  // ---------------------------------------------------------------------
  // number_imgs

  /** Python `range(start, stop, step)`; `step` is never 0 here. */
  function Range(start: int, stop: int, step: int): (r: seq<int>)
    requires step != 0
    decreases if step > 0 then stop - start else start - stop
  {
    if (step > 0 && start < stop) || (step < 0 && start > stop) then [start] + Range(start + step, stop, step)
    else []
  }

  /**
   * The range starts at `start`, goes up by `step` and stops at the last
   * value below `stop`: one more step would reach `stop`.
   */
  lemma {:induction false} RangeElements(start: int, stop: int, step: int)
    requires step > 0
    ensures var r := Range(start, stop, step);
      && (r == [] <==> start >= stop)
      && (r != [] ==> r[0] == start && r[|r| - 1] + step >= stop)
      && (forall i :: 0 <= i < |r| ==> r[i] < stop)
      && (forall i :: 0 <= i < |r| - 1 ==> r[i + 1] == r[i] + step)
    decreases stop - start
  {
    if start < stop {
      var r := Range(start, stop, step);
      var rest := Range(start + step, stop, step);
      RangeElements(start + step, stop, step);
      assert r == [start] + rest;
      assert forall i :: 1 <= i < |r| ==> r[i] == rest[i - 1];
    }
  }

  /** Each number one higher: `map(lambda x: x + 1, …)`. */
  function Incremented(xs: seq<int>): (r: seq<int>)
    ensures |r| == |xs|
    ensures forall i :: 0 <= i < |xs| ==> r[i] == xs[i] + 1
    decreases |xs|
  {
    if xs == [] then [] else [xs[0] + 1] + Incremented(xs[1..])
  }

  /** `list(map(lambda x: x + 1, range(-1, max, step)))` */
  function AllImages(max: int, step: int): seq<int>
    requires step != 0
  {
    Incremented(Range(-1, max, step))
  }

  /** `'all'` numbers the images 0, step, 2·step, … as long as they stay at most `max`. */
  lemma AllImagesSpaced(max: int, step: int)
    requires step > 0
    ensures var r := AllImages(max, step);
      && (r == [] <==> max < 0)
      && (r != [] ==> r[0] == 0 && r[|r| - 1] + step > max)
      && (forall i :: 0 <= i < |r| ==> r[i] <= max)
      && (forall i :: 0 <= i < |r| - 1 ==> r[i + 1] == r[i] + step)
  {
    var xs := Range(-1, max, step);
    var r := AllImages(max, step);
    RangeElements(-1, max, step);
    assert |r| == |xs| && forall i :: 0 <= i < |xs| ==> r[i] == xs[i] + 1;
    forall i | 0 <= i < |r| - 1
      ensures r[i + 1] == r[i] + step
    {
      assert xs[i + 1] == xs[i] + step;
    }
  }

  /** `int(v)` for a YAML scalar: a `bool` is 0 or 1, a string is parsed, anything else is a `TypeError`. */
  function IntOf(v: Yaml): (r: Result<int, ImportError>)
    ensures v.Int? ==> r == Ok(v.i)
    ensures v.Bool? ==> r == Ok(if v.b then 1 else 0)
    ensures v.Str? ==> (r.Ok? <==> ParseInt(v.s).Some?)
    ensures (v.Null? || v.List? || v.Mapping?) ==> r.Err? && r.error.TypeError?
  {
    match v
    case Int(i) => Ok(i)
    case Bool(b) => Ok(if b then 1 else 0)
    case Str(s) =>
      (match ParseInt(s)
       case Some(i) => Ok(i)
       case None => Err(ValueError("invalid literal for int() with base 10")))
    case _ => Err(TypeError("int() argument must be a string or a number"))
  }

  /** `list(map(int, parts))` */
  function IntsOf(parts: seq<string>): (r: Result<seq<int>, ImportError>)
    ensures r.Ok? ==> |r.value| == |parts| && forall i :: 0 <= i < |parts| ==> ParseInt(parts[i]) == Some(r.value[i])
    ensures r.Ok? <==> forall i :: 0 <= i < |parts| ==> ParseInt(parts[i]).Some?
    decreases |parts|
  {
    if parts == [] then Ok([])
    else
      var head := ParseInt(parts[0]);
      var rest := IntsOf(parts[1..]);
      AllSomeCons(ParseInt, parts);
      if head.None? then Err(ValueError("invalid literal for int() with base 10"))
      else if rest.Err? then Err(rest.error)
      else
        SomeCons(ParseInt, parts, head.value, rest.value);
        Ok([head.value] + rest.value)
  }

  /** `f` gives a value on every element exactly when it does on the first and on the rest. */
  lemma AllSomeCons<A, B>(f: A -> Option<B>, xs: seq<A>)
    requires xs != []
    ensures (forall i :: 0 <= i < |xs| ==> f(xs[i]).Some?)
            <==> f(xs[0]).Some? && forall i :: 0 <= i < |xs[1..]| ==> f(xs[1..][i]).Some?
  {
    if f(xs[0]).Some? && forall i :: 0 <= i < |xs[1..]| ==> f(xs[1..][i]).Some? {
      forall i | 0 <= i < |xs|
        ensures f(xs[i]).Some?
      {
        if i > 0 {
          assert xs[i] == xs[1..][i - 1];
        }
      }
    }
  }

  /** Values found for the first element and for the rest line up with the whole sequence. */
  lemma SomeCons<A, B>(f: A -> Option<B>, xs: seq<A>, y: B, ys: seq<B>)
    requires xs != [] && f(xs[0]) == Some(y)
    requires |ys| == |xs[1..]| && forall i :: 0 <= i < |xs[1..]| ==> f(xs[1..][i]) == Some(ys[i])
    ensures |[y] + ys| == |xs| && forall i :: 0 <= i < |xs| ==> f(xs[i]) == Some(([y] + ys)[i])
  {
    forall i | 0 <= i < |xs|
      ensures f(xs[i]) == Some(([y] + ys)[i])
    {
      if i > 0 {
        assert xs[i] == xs[1..][i - 1];
      }
    }
  }

  /** The image numbers of one template entry. */
  function NumberImages(v: Yaml, rest: Entries): Result<seq<int>, ImportError> {
    if v == Str("all") then
      var maxValue :- Get(rest, "max_rotation_z");
      var stepValue :- Get(rest, "angle_rotation_z");
      var max :- RangeArgument(maxValue);
      var step :- RangeArgument(stepValue);
      if step == 0 then Err(ValueError("range() arg 3 must not be zero"))
      else Ok(AllImages(max, step))
    else if v.Str? && ',' in v.s then IntsOf(Split(v.s, ','))
    else
      var n :- IntOf(v);
      Ok([n])
  }

  /** An argument of `range`: an integer (`bool` included); anything else is a `TypeError`. */
  function RangeArgument(v: Yaml): (r: Result<int, ImportError>)
    ensures r.Ok? <==> v.Int? || v.Bool?
  {
    match v
    case Int(i) => Ok(i)
    case Bool(b) => Ok(if b then 1 else 0)
    case _ => Err(TypeError("'object' cannot be interpreted as an integer"))
  }

  /** A written number is a single image. */
  lemma SingleNumber(n: int, rest: Entries)
    ensures NumberImages(Int(n), rest) == Ok([n])
    ensures NumberImages(Str(IntToString(n)), rest) == Ok([n])
  {
    var s := IntToString(n);
    assert IntOf(Str(s)) == Ok(n) by {
      ParseIntRoundTrip(n);
    }
    assert ',' !in s by {
      NoComma(n);
    }
    assert s != "all" by {
      assert s[0] == '-' || IsDigit(s[0]);
    }
  }

  lemma NoComma(n: int)
    ensures ',' !in IntToString(n)
  {
    var s := IntToString(n);
    if n < 0 {
      assert forall i :: 1 <= i < |s| ==> s[i] == NatToString(-n)[i - 1];
    }
  }

  /** The numbers written with `str` and joined by commas. */
  function CommaList(ns: seq<int>): (parts: seq<string>)
    ensures |parts| == |ns|
  {
    seq(|ns|, i requires 0 <= i < |ns| => IntToString(ns[i]))
  }

  /** A comma-separated list of at least two numbers reads back as those numbers, in order. */
  lemma CommaListRoundTrip(ns: seq<int>, rest: Entries)
    requires |ns| >= 2
    ensures NumberImages(Str(Join(CommaList(ns), ",")), rest) == Ok(ns)
  {
    var parts := CommaList(ns);
    CommaListParts(ns);
    var s := Join(parts, ",");
    assert Split(s, ',') == parts by {
      SplitJoin(parts, ',');
    }
    JoinHasSeparator(parts, ',');
    IntsOfParsed(parts, ns);
    CommaNumbers(s, rest);
  }

  /** Each part of the list is the `str` of its number, without a comma. */
  lemma CommaListParts(ns: seq<int>)
    ensures forall i :: 0 <= i < |ns| ==> ',' !in CommaList(ns)[i] && ParseInt(CommaList(ns)[i]) == Some(ns[i])
  {
    forall i | 0 <= i < |ns|
      ensures ',' !in CommaList(ns)[i] && ParseInt(CommaList(ns)[i]) == Some(ns[i])
    {
      NoComma(ns[i]);
      ParseIntRoundTrip(ns[i]);
    }
  }

  lemma JoinHasSeparator(parts: seq<string>, sep: char)
    requires |parts| >= 2
    ensures sep in Join(parts, [sep])
  {
    var s := Join(parts, [sep]);
    assert s == parts[0] + [sep] + Join(parts[1..], [sep]);
    assert s[|parts[0]|] == sep;
  }

  /** Parts that each read as the matching number read as the list of numbers. */
  lemma IntsOfParsed(parts: seq<string>, ns: seq<int>)
    requires |ns| == |parts| && forall i :: 0 <= i < |parts| ==> ParseInt(parts[i]) == Some(ns[i])
    ensures IntsOf(parts) == Ok(ns)
  {
    var r := IntsOf(parts);
    assert r.Ok?;
    assert r.value == ns;
  }

  /** A string with a comma is read as a comma-separated list. */
  lemma CommaNumbers(s: string, rest: Entries)
    requires ',' in s
    ensures NumberImages(Str(s), rest) == IntsOf(Split(s, ','))
  {
    assert s != "all";
  }

  // ---------------------------------------------------------------------
  // Configurations

  /** `DctModelRenderConfig` */
  datatype RenderConfig = RenderConfig(
    templateName: string,
    outputDir: string,
    filePath: string,
    fileName: string,
    imageName: Yaml,
    angleRotationZ: Yaml,
    maxRotationZ: Yaml,
    saveAs: Yaml,
    saveProject: Yaml,
    alwaysRerender: Yaml,
    numberImgs: seq<int>)

  /**
   * The fields every configuration of one import reads from the section, in
   * the order the call evaluates them; the template name and the image
   * numbers are left empty.
   */
  function Common(rest: Entries, configFile: string, fs: Paths.FileSystem): (r: Result<RenderConfig, ImportError>)
    ensures r.Ok? ==> SharedFields(r.value, rest, configFile)
  {
    var dir := Paths.Dirname(configFile);
    var outputDir := OptionTypes.Construct(OptionTypes.ExistsDir(dir), fs);
    if outputDir.Err? then Err(Invalid(outputDir.error))
    else
      var fileName :- Get(rest, "file_name");
      if !fileName.Str? then Err(TypeError("join() argument must be str"))
      else
        var path := Paths.Join(dir, fileName.s);
        var filePath := OptionTypes.Construct(OptionTypes.ExistsFile(path), fs);
        if filePath.Err? then Err(Invalid(filePath.error))
        else
          var imageName :- Get(rest, "image_name");
          var angle :- Get(rest, "angle_rotation_z");
          var max :- Get(rest, "max_rotation_z");
          var saveAs :- Get(rest, "save_as");
          var saveProject :- Get(rest, "save_project");
          var alwaysRerender :- Get(rest, "always_rerender");
          Ok(RenderConfig("", dir, path, fileName.s, imageName, angle, max, saveAs, saveProject, alwaysRerender, []))
  }

  /** The configuration of one template entry: its image numbers first, then the common fields. */
  function MakeConfig(name: string, numberImg: Yaml, rest: Entries, configFile: string, fs: Paths.FileSystem): (r: Result<RenderConfig, ImportError>)
    ensures r.Ok? ==> ConfigOf(r.value, (name, numberImg), rest, configFile)
  {
    var numbers :- NumberImages(numberImg, rest);
    var common :- Common(rest, configFile, fs);
    Ok(common.(templateName := name, numberImgs := numbers))
  }

  /** The configurations of one template mapping, in key order. */
  function EntryConfigs(es: Entries, rest: Entries, configFile: string, fs: Paths.FileSystem): Result<seq<RenderConfig>, ImportError>
    decreases |es|
  {
    if es == [] then Ok([])
    else
      var c :- MakeConfig(es[0].0, es[0].1, rest, configFile, fs);
      Prepend([c], EntryConfigs(es[1..], rest, configFile, fs))
  }

  /** The first results, then the others, unless the first failed. */
  function Chain<T>(first: Result<seq<T>, ImportError>, others: Result<seq<T>, ImportError>): Result<seq<T>, ImportError> {
    if first.Err? then Err(first.error) else Prepend(first.value, others)
  }

  /** The configurations of every template, in list order; an item that is not a mapping has no `items`. */
  function Configs(items: seq<Yaml>, rest: Entries, configFile: string, fs: Paths.FileSystem): Result<seq<RenderConfig>, ImportError>
    decreases |items|
  {
    if items == [] then Ok([])
    else if !items[0].Mapping? then Err(AttributeError("items"))
    else Chain(EntryConfigs(items[0].entries, rest, configFile, fs), Configs(items[1..], rest, configFile, fs))
  }

  /** Iterating a mapping: its keys, in order. */
  function Keys(es: Entries): (r: seq<Yaml>)
    ensures |r| == |es| && forall i :: 0 <= i < |es| ==> r[i] == Str(es[i].0)
    decreases |es|
  {
    if es == [] then [] else [Str(es[0].0)] + Keys(es[1..])
  }

  /** Iterating a string: one-character strings, in order. */
  function Chars(s: string): (r: seq<Yaml>)
    ensures |r| == |s| && forall i :: 0 <= i < |s| ==> r[i] == Str([s[i]])
    decreases |s|
  {
    if s == [] then [] else [Str([s[0]])] + Chars(s[1..])
  }

  /** What `for template in v` goes through: a list's items, a mapping's keys, a string's characters. */
  function Iterated(v: Yaml): (r: Result<seq<Yaml>, ImportError>)
    ensures v.List? ==> r == Ok(v.items)
    ensures (v.Null? || v.Bool? || v.Int?) ==> r.Err?
  {
    match v
    case List(items) => Ok(items)
    case Mapping(es) => Ok(Keys(es))
    case Str(s) => Ok(Chars(s))
    case _ => Err(TypeError("object is not iterable"))
  }

  /** The `render_image` section, or why it cannot be read. */
  function Section(root: Yaml): (r: Result<Entries, ImportError>)
    ensures r.Ok? ==> root.Mapping? && Get(root.entries, RENDER_IMAGE) == Ok(Mapping(r.value))
    ensures root.Null? ==> r == Err(NoneDocument)
  {
    match root
    case Null => Err(NoneDocument)
    case Mapping(top) =>
      var section :- Get(top, RENDER_IMAGE);
      (match section
       case Mapping(es) => Ok(es)
       case List(_) => Err(TypeError("'str' object cannot be interpreted as an integer"))
       case _ => Err(AttributeError("pop")))
    case _ => Err(TypeError("indices must be integers"))
  }

  /** `_import_config`, as a value. */
  function Imported(root: Yaml, configFile: string, fs: Paths.FileSystem): (r: Result<seq<RenderConfig>, ImportError>)
    ensures root.Null? ==> r == Err(NoneDocument)
    ensures r.Ok? ==> root.Mapping? && Get(root.entries, RENDER_IMAGE).Ok? && Get(root.entries, RENDER_IMAGE).value.Mapping?
    ensures r.Ok? ==> exists i :: 0 <= i < |Section(root).value| && Section(root).value[i].0 == TEMPLATES
    ensures Section(root).Ok? && Get(Section(root).value, TEMPLATES).Err? ==> r == Err(KeyError(TEMPLATES))
  {
    var es :- Section(root);
    var templates :- Get(es, TEMPLATES);
    var items :- Iterated(templates);
    Configs(items, Remove(es, TEMPLATES), configFile, fs)
  }

  /** The document after the pop, which happens once the section and its templates list are found. */
  function Popped(root: Yaml): Yaml {
    var es := Section(root);
    if es.Ok? && Get(es.value, TEMPLATES).Ok? then Mapping(Updated(root.entries, RENDER_IMAGE, Mapping(Remove(es.value, TEMPLATES))))
    else root
  }

  /** The object `yaml.safe_load` returned, which `_import_config` changes in place. */
  class YamlDocument {
    var root: Yaml

    constructor(root: Yaml)
      ensures this.root == root
    {
      this.root := root;
    }
  }

  lemma ChainPrepend(c: seq<RenderConfig>, first: Result<seq<RenderConfig>, ImportError>, others: Result<seq<RenderConfig>, ImportError>)
    ensures Chain(Prepend(c, first), others) == Prepend(c, Chain(first, others))
  {
    if first.Ok? {
      PrependTwice(c, first.value, others);
    }
  }

  /** `_import_config`: checks the document, pops the templates list, then builds the configurations in two nested loops. */
  method ImportConfig(doc: YamlDocument, configFile: string, fs: Paths.FileSystem) returns (r: Result<seq<RenderConfig>, ImportError>)
    modifies doc
    ensures r == Imported(old(doc.root), configFile, fs)
    ensures doc.root == Popped(old(doc.root))
  {
    if doc.root.Null? {
      return Err(NoneDocument);
    }
    var section := Section(doc.root);
    if section.Err? {
      return Err(section.error);
    }
    var es := section.value;
    var templates := Get(es, TEMPLATES);
    if templates.Err? {
      return Err(templates.error);
    }
    var rest := Remove(es, TEMPLATES);
    doc.root := Mapping(Updated(doc.root.entries, RENDER_IMAGE, Mapping(rest)));
    var items := Iterated(templates.value);
    if items.Err? {
      return Err(items.error);
    }
    var all := items.value;
    var result: seq<RenderConfig> := [];
    PrependNothing(Configs(all, rest, configFile, fs));
    assert all[0..] == all;
    for i := 0 to |all|
      invariant Configs(all, rest, configFile, fs) == Prepend(result, Configs(all[i..], rest, configFile, fs))
      invariant doc.root == Popped(old(doc.root))
    {
      assert all[i..][1..] == all[i + 1..];
      if !all[i].Mapping? {
        return Err(AttributeError("items"));
      }
      var template := all[i].entries;
      var others := Configs(all[i + 1..], rest, configFile, fs);
      assert template[0..] == template;
      for j := 0 to |template|
        invariant Configs(all, rest, configFile, fs) == Prepend(result, Chain(EntryConfigs(template[j..], rest, configFile, fs), others))
        invariant doc.root == Popped(old(doc.root))
      {
        assert template[j..][1..] == template[j + 1..];
        var (name, numberImg) := template[j];
        var config := MakeConfig(name, numberImg, rest, configFile, fs);
        if config.Err? {
          return Err(config.error);
        }
        ChainPrepend([config.value], EntryConfigs(template[j + 1..], rest, configFile, fs), others);
        PrependTwice(result, [config.value], Chain(EntryConfigs(template[j + 1..], rest, configFile, fs), others));
        result := result + [config.value];
      }
      assert template[|template|..] == [];
      PrependNothing(others);
    }
    assert all[|all|..] == [];
    assert result + [] == result;
    r := Ok(result);
  }

  // ---------------------------------------------------------------------
  // Properties of the configurations

  /** The template entries in the order the loops visit them. */
  function TemplateEntries(items: seq<Yaml>): Entries
    requires forall i :: 0 <= i < |items| ==> items[i].Mapping?
    decreases |items|
  {
    if items == [] then [] else items[0].entries + TemplateEntries(items[1..])
  }

  /** What every configuration of one import shares: the fields read from the section itself. */
  predicate SharedFields(c: RenderConfig, rest: Entries, configFile: string) {
    && c.outputDir == Paths.Dirname(configFile)
    && Get(rest, "file_name") == Ok(Str(c.fileName))
    && c.filePath == Paths.Join(Paths.Dirname(configFile), c.fileName)
    && Get(rest, "image_name") == Ok(c.imageName)
    && Get(rest, "angle_rotation_z") == Ok(c.angleRotationZ)
    && Get(rest, "max_rotation_z") == Ok(c.maxRotationZ)
    && Get(rest, "save_as") == Ok(c.saveAs)
    && Get(rest, "save_project") == Ok(c.saveProject)
    && Get(rest, "always_rerender") == Ok(c.alwaysRerender)
  }

  /** One template entry's configuration: its name, its image numbers and the shared fields. */
  predicate ConfigOf(c: RenderConfig, e: (string, Yaml), rest: Entries, configFile: string) {
    && c.templateName == e.0
    && NumberImages(e.1, rest) == Ok(c.numberImgs)
    && SharedFields(c, rest, configFile)
  }

  /** The configurations `cs` are those of the entries `es`, one each, in the same order. */
  predicate Follow(cs: seq<RenderConfig>, es: Entries, rest: Entries, configFile: string) {
    |cs| == |es| && forall k :: 0 <= k < |es| ==> ConfigOf(cs[k], es[k], rest, configFile)
  }

  lemma FollowAppend(cs1: seq<RenderConfig>, es1: Entries, cs2: seq<RenderConfig>, es2: Entries, rest: Entries, configFile: string)
    requires Follow(cs1, es1, rest, configFile) && Follow(cs2, es2, rest, configFile)
    ensures Follow(cs1 + cs2, es1 + es2, rest, configFile)
  {
    var p := (c, e) => ConfigOf(c, e, rest, configFile);
    PairwiseAppend(cs1, es1, cs2, es2, p);
  }

  /** A relation holding pairwise on two pairs of sequences holds pairwise on their concatenations. */
  lemma PairwiseAppend<A, B>(xs1: seq<A>, ys1: seq<B>, xs2: seq<A>, ys2: seq<B>, p: (A, B) -> bool)
    requires |xs1| == |ys1| && |xs2| == |ys2|
    requires forall k :: 0 <= k < |xs1| ==> p(xs1[k], ys1[k])
    requires forall k :: 0 <= k < |xs2| ==> p(xs2[k], ys2[k])
    ensures forall k :: 0 <= k < |xs1| + |xs2| ==> p((xs1 + xs2)[k], (ys1 + ys2)[k])
  {
    forall k | 0 <= k < |xs1| + |xs2|
      ensures p((xs1 + xs2)[k], (ys1 + ys2)[k])
    {
      if k >= |xs1| {
        assert p(xs2[k - |xs1|], ys2[k - |xs1|]);
      }
    }
  }

  /** One configuration per entry of a template mapping, in key order. */
  lemma {:induction false} EntryConfigsFollowKeys(es: Entries, rest: Entries, configFile: string, fs: Paths.FileSystem)
    requires EntryConfigs(es, rest, configFile, fs).Ok?
    ensures Follow(EntryConfigs(es, rest, configFile, fs).value, es, rest, configFile)
    decreases |es|
  {
    if es != [] {
      EntryConfigsCons(es, rest, configFile, fs);
      var c := MakeConfig(es[0].0, es[0].1, rest, configFile, fs).value;
      var tail := EntryConfigs(es[1..], rest, configFile, fs).value;
      EntryConfigsFollowKeys(es[1..], rest, configFile, fs);
      FollowCons(c, tail, es, rest, configFile);
    }
  }

  lemma EntryConfigsCons(es: Entries, rest: Entries, configFile: string, fs: Paths.FileSystem)
    requires es != [] && EntryConfigs(es, rest, configFile, fs).Ok?
    ensures MakeConfig(es[0].0, es[0].1, rest, configFile, fs).Ok?
    ensures EntryConfigs(es[1..], rest, configFile, fs).Ok?
    ensures EntryConfigs(es, rest, configFile, fs).value
      == [MakeConfig(es[0].0, es[0].1, rest, configFile, fs).value] + EntryConfigs(es[1..], rest, configFile, fs).value
  {
  }

  lemma FollowCons(c: RenderConfig, tail: seq<RenderConfig>, es: Entries, rest: Entries, configFile: string)
    requires es != [] && ConfigOf(c, es[0], rest, configFile) && Follow(tail, es[1..], rest, configFile)
    ensures Follow([c] + tail, es, rest, configFile)
  {
    var p := (c, e) => ConfigOf(c, e, rest, configFile);
    PairwiseCons(c, tail, es, p);
  }

  /** A relation holding on two heads and pairwise on two tails holds pairwise on the whole. */
  lemma PairwiseCons<A, B>(x: A, xs: seq<A>, ys: seq<B>, p: (A, B) -> bool)
    requires |ys| == |xs| + 1 && p(x, ys[0])
    requires forall k :: 0 <= k < |xs| ==> p(xs[k], ys[1..][k])
    ensures forall k :: 0 <= k < |ys| ==> p(([x] + xs)[k], ys[k])
  {
    forall k | 0 <= k < |ys|
      ensures p(([x] + xs)[k], ys[k])
    {
      if k > 0 {
        assert p(xs[k - 1], ys[1..][k - 1]);
      }
    }
  }

  /** One configuration per (template, key), in list and key order, all sharing the section's fields. */
  lemma {:induction false} ConfigsFollowTemplates(items: seq<Yaml>, rest: Entries, configFile: string, fs: Paths.FileSystem)
    requires Configs(items, rest, configFile, fs).Ok?
    ensures forall i :: 0 <= i < |items| ==> items[i].Mapping?
    ensures Follow(Configs(items, rest, configFile, fs).value, TemplateEntries(items), rest, configFile)
    decreases |items|
  {
    if items != [] {
      var first := EntryConfigs(items[0].entries, rest, configFile, fs);
      var tail := Configs(items[1..], rest, configFile, fs);
      assert Configs(items, rest, configFile, fs) == Prepend(first.value, tail);
      EntryConfigsFollowKeys(items[0].entries, rest, configFile, fs);
      ConfigsFollowTemplates(items[1..], rest, configFile, fs);
      assert forall i :: 1 <= i < |items| ==> items[i] == items[1..][i - 1];
      FollowAppend(first.value, items[0].entries, tail.value, TemplateEntries(items[1..]), rest, configFile);
    }
  }

  /** A document without a YAML body is refused. */
  lemma NoneRefused(configFile: string, fs: Paths.FileSystem)
    ensures Imported(Null, configFile, fs) == Err(NoneDocument)
  {
  }

  /** After a successful import the templates list is no longer in the section; the other keys are as they were. */
  lemma PopRemovesTemplates(root: Yaml, other: string)
    requires Section(root).Ok? && Get(Section(root).value, TEMPLATES).Ok?
    ensures Popped(root).Mapping?
    ensures Get(Popped(root).entries, RENDER_IMAGE).Ok?
    ensures var section := Get(Popped(root).entries, RENDER_IMAGE).value;
      && section.Mapping?
      && Get(section.entries, TEMPLATES) == Err(KeyError(TEMPLATES))
      && (other != TEMPLATES ==> Get(section.entries, other) == Get(Section(root).value, other))
  {
    var es := Section(root).value;
    UpdatedGet(root.entries, RENDER_IMAGE, Mapping(Remove(es, TEMPLATES)));
    RemoveGet(es, TEMPLATES, other);
  }

  /** Setting a key that is present makes it read back the new value. */
  lemma {:induction false} UpdatedGet(es: Entries, key: string, v: Yaml)
    requires Get(es, key).Ok?
    ensures Get(Updated(es, key, v), key) == Ok(v)
    decreases |es|
  {
    if es[0].0 != key {
      UpdatedGet(es[1..], key, v);
    }
  }
}

=== FILE: mesh_files.dfy ===
/**
 * The mesh file handler: choosing a loader by file suffix, telling ASCII
 * from binary STL, the ASCII STL, OBJ and binary STL loaders, naming the
 * loaded parts, and naming and assembling the binary STL files written for
 * the parts of a mesh.
 *
 * Coordinates are opaque: text loaders convert a token with the caller's
 * `parse` (Python's `float`), the binary loader converts a 4-byte word with
 * `unpack` (`struct.unpack('<f')`). A text file's lines are its text split
 * at `\n`, without the terminator; every test made on a line (`in`,
 * `split()`) is blind to that terminator.
 */
module MeshFiles {
  import opened Wrappers
  import opened Text
  import opened BinaryStl

  /** The exceptions a load can raise. */
  datatype LoadError =
    | UnsupportedType(path: string)    // `load_mesh` on an unknown suffix
    | NoFileType                       // `mesh_name` when `FILE_TYPE` is unset
    | MissingField                     // `IndexError` on a line with too few tokens
    | BadNumber                        // `ValueError` from `float`/`int` on a token
    | BadIndex                         // `IndexError` on an OBJ face index
    | NotDecodable                     // `UnicodeDecodeError` reading text
    | StrInBytes                       // `TypeError` from a `str` searched for in a `bytes` line
    | Binary(e: BinaryError)           // `struct.error` in the binary loader

  /** A loaded part: its vertex list, three per triangle, and its name. */
  datatype NamedMesh<C> = NamedMesh(mesh: seq<Vertex<C>>, name: string)

  /*
   * ---------------------------------------------------------------------
   * Tokens
   * ---------------------------------------------------------------------
   */

  /** `line.split()[1:]`: the tokens after the keyword. */
  function Data(line: string): seq<string> {
    var ws := Words(line);
    if ws == [] then [] else ws[1..]
  }

  /** `float(data[k])` */
  function FloatAt<C>(data: seq<string>, k: nat, parse: string -> Option<C>): (r: Result<C, LoadError>)
    ensures k >= |data| ==> r == Err(MissingField)
    ensures k < |data| ==> (r.Ok? <==> parse(data[k]).Some?)
    ensures r.Ok? ==> k < |data| && r.value == parse(data[k]).value
  {
    if k >= |data| then Err(MissingField)
    else match parse(data[k])
      case None => Err(BadNumber)
      case Some(x) => Ok(x)
  }

  /** `[float(data[0]), float(data[1]), float(data[2])]`, evaluated left to right. */
  function ParseVertex<C>(line: string, parse: string -> Option<C>): (r: Result<Vertex<C>, LoadError>)
    ensures r.Ok? <==> |Data(line)| >= 3 && parse(Data(line)[0]).Some? && parse(Data(line)[1]).Some? && parse(Data(line)[2]).Some?
    ensures r.Ok? ==> r.value == Vertex(parse(Data(line)[0]).value, parse(Data(line)[1]).value, parse(Data(line)[2]).value)
  {
    var data := Data(line);
    var x :- FloatAt(data, 0, parse);
    var y :- FloatAt(data, 1, parse);
    var z :- FloatAt(data, 2, parse);
    Ok(Vertex(x, y, z))
  }

  /*
   * ---------------------------------------------------------------------
   * ASCII STL
   * ---------------------------------------------------------------------
   */

  /** The ASCII loader's state: the closed parts and the part being filled. */
  datatype AsciiState<C> = AsciiState(done: seq<seq<Vertex<C>>>, cur: seq<Vertex<C>>)

  /**
   * One line of the ASCII loader: a line containing "vertex" appends its
   * first three numbers to the current part; then, a line containing
   * "endsolid" closes the current part and opens a new one.
   */
  function AsciiStep<C>(s: AsciiState<C>, line: string, parse: string -> Option<C>): Result<AsciiState<C>, LoadError> {
    var s1 :- if Contains(line, "vertex") then
                (var v :- ParseVertex(line, parse); Ok(AsciiState(s.done, s.cur + [v])))
              else Ok(s);
    if Contains(line, "endsolid") then Ok(AsciiState(s1.done + [s1.cur], [])) else Ok(s1)
  }

  /** The state after the loader has read `lines`. */
  function AsciiScan<C>(lines: seq<string>, parse: string -> Option<C>): Result<AsciiState<C>, LoadError>
    decreases |lines|
  {
    if lines == [] then Ok(AsciiState([], []))
    else
      var s :- AsciiScan(lines[..|lines| - 1], parse);
      AsciiStep(s, lines[|lines| - 1], parse)
  }

  /** The parts with more than three vertices, in order. */
  function Keep<C>(parts: seq<seq<Vertex<C>>>): (r: seq<seq<Vertex<C>>>)
    ensures |r| <= |parts|
    ensures forall i :: 0 <= i < |r| ==> |r[i]| > 3
    ensures forall p :: p in r ==> p in parts
    decreases |parts|
  {
    if parts == [] then []
    else
      var p := parts[|parts| - 1];
      Keep(parts[..|parts| - 1]) + (if |p| > 3 then [p] else [])
  }

  /** What `LoaderAsciiStl._load` returns for a text of `lines`. */
  function AsciiMeshes<C>(lines: seq<string>, parse: string -> Option<C>): Result<seq<seq<Vertex<C>>>, LoadError> {
    var s :- AsciiScan(lines, parse);
    Ok(Keep(s.done + [s.cur]))
  }

  /** Once a prefix of the lines fails, the whole scan fails with the same error. */
  lemma {:induction false} AsciiScanErr<C>(lines: seq<string>, i: nat, parse: string -> Option<C>)
    requires i <= |lines|
    requires AsciiScan(lines[..i], parse).Err?
    ensures AsciiScan(lines, parse) == AsciiScan(lines[..i], parse)
    decreases |lines|
  {
    if i < |lines| {
      assert lines[..|lines| - 1][..i] == lines[..i];
      AsciiScanErr(lines[..|lines| - 1], i, parse);
    } else {
      assert lines[..i] == lines;
    }
  }

  /**
   * `LoaderAsciiStl._load`: reads the lines into a list of parts indexed by
   * the `part` counter, then keeps the parts with more than three vertices.
   */
  method LoadAscii<C>(lines: seq<string>, parse: string -> Option<C>) returns (r: Result<seq<seq<Vertex<C>>>, LoadError>)
    ensures r == AsciiMeshes(lines, parse)
  {
    var lstMesh: seq<seq<Vertex<C>>> := [[]];
    var part := 0;
    for i := 0 to |lines|
      invariant |lstMesh| == part + 1
      invariant AsciiScan(lines[..i], parse) == Ok(AsciiState(lstMesh[..part], lstMesh[part]))
    {
      var line := lines[i];
      ghost var st := AsciiState(lstMesh[..part], lstMesh[part]);
      AsciiScanNext(lines, i, parse);
      ghost var st1 := st;
      if Contains(line, "vertex") {
        var v := ParseVertex(line, parse);
        if v.Err? {
          AsciiScanErr(lines, i + 1, parse);
          return Err(v.error);
        }
        AppendToLast(lstMesh, part, v.value);
        lstMesh := lstMesh[part := lstMesh[part] + [v.value]];
        st1 := AsciiState(st.done, st.cur + [v.value]);
      }
      assert AsciiStep(st, line, parse) == if Contains(line, "endsolid") then Ok(AsciiState(st1.done + [st1.cur], [])) else Ok(st1);
      if Contains(line, "endsolid") {
        OpenNext(lstMesh, part);
        part := part + 1;
        lstMesh := lstMesh + [[]];
      }
    }
    assert lines[..|lines|] == lines;
    assert lstMesh == lstMesh[..part] + [lstMesh[part]];
    var kept: seq<seq<Vertex<C>>> := [];
    for j := 0 to |lstMesh|
      invariant kept == Keep(lstMesh[..j])
    {
      assert lstMesh[..j + 1][..j] == lstMesh[..j];
      if |lstMesh[j]| > 3 {
        kept := kept + [lstMesh[j]];
      }
    }
    assert lstMesh[..|lstMesh|] == lstMesh;
    return Ok(kept);
  }

  /** One more line for the ASCII scan. */
  lemma AsciiScanNext<C>(lines: seq<string>, i: nat, parse: string -> Option<C>)
    requires i < |lines|
    ensures AsciiScan(lines[..i + 1], parse) == (var s :- AsciiScan(lines[..i], parse); AsciiStep(s, lines[i], parse))
  {
    assert lines[..i + 1][..i] == lines[..i];
  }

  lemma AppendToLast<T>(m: seq<seq<T>>, part: nat, v: T)
    requires |m| == part + 1
    ensures var m' := m[part := m[part] + [v]];
      |m'| == part + 1 && m'[..part] == m[..part] && m'[part] == m[part] + [v]
  {
  }

  lemma OpenNext<T>(m: seq<seq<T>>, part: nat)
    requires |m| == part + 1
    ensures var m' := m + [[]];
      |m'| == part + 2 && m'[..part + 1] == m[..part] + [m[part]] && m'[part + 1] == []
  {
  }

  /**
   * Every "endsolid" line closes exactly one part, and every "vertex" line
   * adds exactly one vertex to the parts read so far.
   */
  lemma {:induction false} AsciiScanCounts<C>(lines: seq<string>, parse: string -> Option<C>)
    requires AsciiScan(lines, parse).Ok?
    ensures |AsciiScan(lines, parse).value.done| == CountContaining(lines, "endsolid")
    ensures |Concat(AsciiScan(lines, parse).value.done)| + |AsciiScan(lines, parse).value.cur|
            == CountContaining(lines, "vertex")
    decreases |lines|
  {
    if lines != [] {
      var init, line := lines[..|lines| - 1], lines[|lines| - 1];
      AsciiScanCounts(init, parse);
      var s := AsciiScan(init, parse).value;
      if Contains(line, "endsolid") {
        var s1 := if Contains(line, "vertex") then AsciiState(s.done, s.cur + [ParseVertex(line, parse).value]) else s;
        assert AsciiScan(lines, parse).value.done == s1.done + [s1.cur];
        assert Concat(s1.done + [s1.cur]) == Concat(s1.done) + s1.cur;
      }
    }
  }

  /** Parts of more than three vertices all survive, in order. */
  lemma {:induction false} KeepLong<C>(parts: seq<seq<Vertex<C>>>)
    requires forall i :: 0 <= i < |parts| ==> |parts[i]| > 3
    ensures Keep(parts) == parts
    decreases |parts|
  {
    if parts != [] {
      KeepLong(parts[..|parts| - 1]);
      assert parts[..|parts| - 1] + [parts[|parts| - 1]] == parts;
    }
  }

  /** A part of at most three vertices (a single triangle) is dropped wherever it stands. */
  lemma {:induction false} KeepDropsShort<C>(a: seq<seq<Vertex<C>>>, p: seq<Vertex<C>>, b: seq<seq<Vertex<C>>>)
    requires |p| <= 3
    ensures Keep(a + [p] + b) == Keep(a + b)
    decreases |b|
  {
    if b == [] {
      assert (a + [p] + b)[..|a + [p] + b| - 1] == a;
      assert a + b == a;
    } else {
      var b', q := b[..|b| - 1], b[|b| - 1];
      KeepDropsShort(a, p, b');
      assert (a + [p] + b)[..|a + [p] + b| - 1] == a + [p] + b';
      assert (a + b)[..|a + b| - 1] == a + b';
    }
  }

  /*
   * ---------------------------------------------------------------------
   * OBJ
   * ---------------------------------------------------------------------
   */

  /** The vertex list: one vertex per line containing "v", in line order. */
  function ObjVertices<C>(lines: seq<string>, parse: string -> Option<C>): Result<seq<Vertex<C>>, LoadError>
    decreases |lines|
  {
    if lines == [] then Ok([])
    else
      var vs :- ObjVertices(lines[..|lines| - 1], parse);
      var line := lines[|lines| - 1];
      if Contains(line, "v") then
        var v :- ParseVertex(line, parse);
        Ok(vs + [v])
      else Ok(vs)
  }

  /** Python's `xs[i]`: negative indices count from the end. */
  function PyIndex<T>(xs: seq<T>, i: int): (r: Result<T, LoadError>)
    ensures r.Ok? <==> -|xs| <= i < |xs|
    ensures 0 <= i < |xs| ==> r == Ok(xs[i])
    ensures -|xs| <= i < 0 ==> r == Ok(xs[|xs| + i])
  {
    if 0 <= i < |xs| then Ok(xs[i])
    else if -|xs| <= i < 0 then Ok(xs[|xs| + i])
    else Err(BadIndex)
  }

  /** `vertices[int(data[k]) - 1]` */
  function FaceCorner<C>(data: seq<string>, k: nat, vs: seq<Vertex<C>>): Result<Vertex<C>, LoadError> {
    if k >= |data| then Err(MissingField)
    else match ParseInt(data[k])
      case None => Err(BadNumber)
      case Some(n) => PyIndex(vs, n - 1)
  }

  /** The triangle of a face line: its first three corners, in order. */
  function FaceOf<C>(line: string, vs: seq<Vertex<C>>): (r: Result<seq<Vertex<C>>, LoadError>)
    ensures r.Ok? ==> |r.value| == 3
  {
    var data := Data(line);
    var a :- FaceCorner(data, 0, vs);
    var b :- FaceCorner(data, 1, vs);
    var c :- FaceCorner(data, 2, vs);
    Ok([a, b, c])
  }

  /** The mesh: three corners per line containing "f", in line order. */
  function ObjFaces<C>(lines: seq<string>, vs: seq<Vertex<C>>): Result<seq<Vertex<C>>, LoadError>
    decreases |lines|
  {
    if lines == [] then Ok([])
    else
      var m :- ObjFaces(lines[..|lines| - 1], vs);
      var line := lines[|lines| - 1];
      if Contains(line, "f") then
        var t :- FaceOf(line, vs);
        Ok(m + t)
      else Ok(m)
  }

  /** What `LoaderObj._load` computes: all vertices first, then the faces over them. */
  function ObjMesh<C>(lines: seq<string>, parse: string -> Option<C>): Result<seq<Vertex<C>>, LoadError> {
    var vs :- ObjVertices(lines, parse);
    ObjFaces(lines, vs)
  }

  /** The lines containing "f", in order. */
  function FaceLines(lines: seq<string>): (r: seq<string>)
    ensures |r| == CountContaining(lines, "f")
    decreases |lines|
  {
    if lines == [] then []
    else FaceLines(lines[..|lines| - 1]) + (if Contains(lines[|lines| - 1], "f") then [lines[|lines| - 1]] else [])
  }

  /** A prefix of the lines that fails to give vertices makes the whole list fail the same way. */
  lemma {:induction false} ObjVerticesErr<C>(lines: seq<string>, i: nat, parse: string -> Option<C>)
    requires i <= |lines|
    requires ObjVertices(lines[..i], parse).Err?
    ensures ObjVertices(lines, parse) == ObjVertices(lines[..i], parse)
    decreases |lines|
  {
    if i < |lines| {
      assert lines[..|lines| - 1][..i] == lines[..i];
      ObjVerticesErr(lines[..|lines| - 1], i, parse);
    } else {
      assert lines[..i] == lines;
    }
  }

  lemma {:induction false} ObjFacesErr<C>(lines: seq<string>, i: nat, vs: seq<Vertex<C>>)
    requires i <= |lines|
    requires ObjFaces(lines[..i], vs).Err?
    ensures ObjFaces(lines, vs) == ObjFaces(lines[..i], vs)
    decreases |lines|
  {
    if i < |lines| {
      assert lines[..|lines| - 1][..i] == lines[..i];
      ObjFacesErr(lines[..|lines| - 1], i, vs);
    } else {
      assert lines[..i] == lines;
    }
  }

  /** The first pass of `LoaderObj._load`: one vertex per line containing "v". */
  method ReadObjVertices<C>(lines: seq<string>, parse: string -> Option<C>) returns (r: Result<seq<Vertex<C>>, LoadError>)
    ensures r == ObjVertices(lines, parse)
  {
    var vertices: seq<Vertex<C>> := [];
    var i := 0;
    while i < |lines|
      invariant 0 <= i <= |lines|
      invariant ObjVertices(lines[..i], parse) == Ok(vertices)
    {
      assert lines[..i + 1][..i] == lines[..i];
      if Contains(lines[i], "v") {
        var v := ParseVertex(lines[i], parse);
        if v.Err? {
          ObjVerticesErr(lines, i + 1, parse);
          return Err(v.error);
        }
        vertices := vertices + [v.value];
      }
      i := i + 1;
    }
    assert lines[..i] == lines;
    return Ok(vertices);
  }

  /** The second pass of `LoaderObj._load`, from the start again: three corners per line containing "f". */
  method ReadObjFaces<C>(lines: seq<string>, vertices: seq<Vertex<C>>) returns (r: Result<seq<Vertex<C>>, LoadError>)
    ensures r == ObjFaces(lines, vertices)
  {
    var mesh: seq<Vertex<C>> := [];
    for i := 0 to |lines|
      invariant ObjFaces(lines[..i], vertices) == Ok(mesh)
    {
      ObjFacesNext(lines, i, vertices);
      if Contains(lines[i], "f") {
        var t := FaceOf(lines[i], vertices);
        if t.Err? {
          ObjFacesErr(lines, i + 1, vertices);
          return Err(t.error);
        }
        mesh := mesh + t.value;
      }
    }
    assert lines[..|lines|] == lines;
    return Ok(mesh);
  }

  /** One more line for the face pass. */
  lemma ObjFacesNext<C>(lines: seq<string>, i: nat, vs: seq<Vertex<C>>)
    requires i < |lines|
    ensures ObjFaces(lines[..i + 1], vs)
      == (var m :- ObjFaces(lines[..i], vs);
          if Contains(lines[i], "f") then (var t :- FaceOf(lines[i], vs); Ok(m + t)) else Ok(m))
  {
    assert lines[..i + 1][..i] == lines[..i];
  }

  /** `LoaderObj._load`: collects the vertices, then the faces over them. */
  method LoadObj<C>(lines: seq<string>, parse: string -> Option<C>) returns (r: Result<seq<Vertex<C>>, LoadError>)
    ensures r == ObjMesh(lines, parse)
  {
    var vertices := ReadObjVertices(lines, parse);
    if vertices.Err? {
      return Err(vertices.error);
    }
    r := ReadObjFaces(lines, vertices.value);
  }

  /** Every face line contributes exactly three corners. */
  lemma {:induction false} ObjFacesCount<C>(lines: seq<string>, vs: seq<Vertex<C>>)
    requires ObjFaces(lines, vs).Ok?
    ensures |ObjFaces(lines, vs).value| == 3 * |FaceLines(lines)|
    decreases |lines|
  {
    if lines != [] {
      ObjFacesCount(lines[..|lines| - 1], vs);
    }
  }

  /** The `k`-th face line is well formed and its triangle is corners `3k`, `3k + 1` and `3k + 2` of the mesh. */
  ghost predicate FaceAt<C>(lines: seq<string>, vs: seq<Vertex<C>>, k: nat)
    requires ObjFaces(lines, vs).Ok? && k < |FaceLines(lines)|
  {
    && 3 * k + 3 <= |ObjFaces(lines, vs).value|
    && FaceOf(FaceLines(lines)[k], vs).Ok?
    && ObjFaces(lines, vs).value[3 * k..3 * k + 3] == FaceOf(FaceLines(lines)[k], vs).value
  }

  /**
   * The `k`-th face line gives corners `3k`, `3k + 1` and `3k + 2`: its
   * first three indices looked up in order.
   */
  lemma {:induction false} ObjFaceAt<C>(lines: seq<string>, vs: seq<Vertex<C>>, k: nat)
    requires ObjFaces(lines, vs).Ok?
    requires k < |FaceLines(lines)|
    ensures FaceAt(lines, vs, k)
    decreases |lines|, 1
  {
    FaceLinesNonEmpty(lines);
    if Contains(lines[|lines| - 1], "f") && k == |FaceLines(lines[..|lines| - 1])| {
      ObjFaceAtLast(lines, vs, k);
    } else {
      FaceLinesBefore(lines, k);
      ObjFaceAtKept(lines, vs, k);
    }
  }

  lemma FaceLinesNonEmpty(lines: seq<string>)
    requires FaceLines(lines) != []
    ensures lines != []
  {
  }

  /** The face pass over all lines but the last succeeds when the whole pass does. */
  lemma ObjFacesInit<C>(lines: seq<string>, vs: seq<Vertex<C>>)
    requires lines != [] && ObjFaces(lines, vs).Ok?
    ensures ObjFaces(lines[..|lines| - 1], vs).Ok?
  {
  }

  /** A face line other than a new last one was already a face line before the last line. */
  lemma FaceLinesBefore(lines: seq<string>, k: nat)
    requires lines != [] && k < |FaceLines(lines)|
    requires !(Contains(lines[|lines| - 1], "f") && k == |FaceLines(lines[..|lines| - 1])|)
    ensures k < |FaceLines(lines[..|lines| - 1])|
  {
  }

  /** The face of the last line, when it is a face line, is the last three corners. */
  lemma ObjFaceAtLast<C>(lines: seq<string>, vs: seq<Vertex<C>>, k: nat)
    requires lines != [] && ObjFaces(lines, vs).Ok? && Contains(lines[|lines| - 1], "f")
    requires k == |FaceLines(lines[..|lines| - 1])|
    ensures k < |FaceLines(lines)| && FaceAt(lines, vs, k)
  {
    var init, line := lines[..|lines| - 1], lines[|lines| - 1];
    assert FaceLines(lines) == FaceLines(init) + [line];
    assert FaceOf(line, vs).Ok? && ObjFaces(lines, vs).value == ObjFaces(init, vs).value + FaceOf(line, vs).value by {
      ObjFacesLast(lines, vs);
    }
    assert |ObjFaces(init, vs).value| == 3 * k by {
      ObjFacesCount(init, vs);
    }
    LastThree(ObjFaces(lines, vs).value, ObjFaces(init, vs).value, FaceOf(line, vs).value, k);
  }

  lemma LastThree<T>(whole: seq<T>, m: seq<T>, t: seq<T>, k: nat)
    requires whole == m + t && |m| == 3 * k && |t| == 3
    ensures 3 * k + 3 <= |whole| && whole[3 * k..3 * k + 3] == t
  {
  }

  /** A face found among all lines but the last keeps its corners once the last line is added. */
  lemma {:induction false} ObjFaceAtKept<C>(lines: seq<string>, vs: seq<Vertex<C>>, k: nat)
    requires lines != [] && ObjFaces(lines, vs).Ok?
    requires k < |FaceLines(lines[..|lines| - 1])|
    ensures k < |FaceLines(lines)| && FaceAt(lines, vs, k)
    decreases |lines|, 0
  {
    var init, line := lines[..|lines| - 1], lines[|lines| - 1];
    ObjFacesInit(lines, vs);
    ObjFaceAt(init, vs, k);
    ObjFacesLast(lines, vs);
    var m := ObjFaces(init, vs).value;
    assert FaceLines(lines)[k] == FaceLines(init)[k];
    if Contains(line, "f") {
      SliceOfAppend(m, FaceOf(line, vs).value, 3 * k, 3 * k + 3);
    }
  }

  /** The face pass over a non-empty text: the pass over all lines but the last, then the last line. */
  lemma ObjFacesLast<C>(lines: seq<string>, vs: seq<Vertex<C>>)
    requires lines != [] && ObjFaces(lines, vs).Ok?
    ensures var init, line := lines[..|lines| - 1], lines[|lines| - 1];
      && ObjFaces(init, vs).Ok?
      && (Contains(line, "f") ==>
            FaceOf(line, vs).Ok? && ObjFaces(lines, vs).value == ObjFaces(init, vs).value + FaceOf(line, vs).value)
      && (!Contains(line, "f") ==> ObjFaces(lines, vs).value == ObjFaces(init, vs).value)
  {
  }

  lemma SliceOfAppend<T>(a: seq<T>, b: seq<T>, i: nat, j: nat)
    requires i <= j <= |a|
    ensures (a + b)[i..j] == a[i..j]
  {
  }

  /** An index `n` between 1 and the vertex count names vertex `n - 1`, so indices start at 1. */
  lemma FaceCornerOneBased<C>(data: seq<string>, k: nat, vs: seq<Vertex<C>>, n: int)
    requires k < |data| && ParseInt(data[k]) == Some(n)
    requires 1 <= n <= |vs|
    ensures FaceCorner(data, k, vs) == Ok(vs[n - 1])
  {
    assert FaceCorner(data, k, vs) == PyIndex(vs, n - 1);
  }

  /** Index 0, invalid in OBJ, silently names the last vertex through Python's negative indexing. */
  lemma FaceCornerZero<C>(data: seq<string>, k: nat, vs: seq<Vertex<C>>)
    requires k < |data| && ParseInt(data[k]) == Some(0)
    requires vs != []
    ensures FaceCorner(data, k, vs) == Ok(vs[|vs| - 1])
  {
  }

  /*
   * ---------------------------------------------------------------------
   * STL
   * ---------------------------------------------------------------------
   */

  /** ASCII lower-casing of one byte, as `bytes.lower()` does. */
  function LowerByte(b: byte): (r: byte)
    ensures 65 <= b <= 90 ==> r == b + 32
    ensures !(65 <= b <= 90) ==> r == b
  {
    if 65 <= b <= 90 then b + 32 else b
  }

  /** The bytes of "solid". */
  const SOLID: seq<byte> := [115, 111, 108, 105, 100]

  /**
   * The sniff of `LoaderStl`: "solid" occurs in the text form of the first
   * five bytes, lower-cased. That text form escapes every byte that is not
   * printable, so "solid" occurs in it exactly when those bytes spell it.
   */
  predicate LooksAscii(c: seq<byte>) {
    |c| >= 5 && (forall i :: 0 <= i < 5 ==> LowerByte(c[i]) == SOLID[i])
  }

  /**
   * The sniff ignores case and needs five bytes: "solid" and "SOLID" both
   * select the ASCII loader, a shorter file never does.
   */
  lemma AsciiSniff(c: seq<byte>)
    ensures |c| < 5 ==> !LooksAscii(c)
    ensures |c| >= 5 && c[..5] == SOLID ==> LooksAscii(c)
    ensures |c| >= 5 && c[..5] == [83, 79, 76, 73, 68] ==> LooksAscii(c)
    ensures LooksAscii(c) ==> c[0] in {83, 115}
  {
    if |c| >= 5 && c[..5] == [83, 79, 76, 73, 68] {
      assert forall i :: 0 <= i < 5 ==> c[i] == c[..5][i];
    }
    if |c| >= 5 && c[..5] == SOLID {
      assert forall i :: 0 <= i < 5 ==> c[i] == c[..5][i];
    }
  }

  /** The vertices of the binary loader, with each word converted to a coordinate. */
  function UnpackAll<C>(vs: seq<Vertex<Word>>, unpack: Word -> C): (r: seq<Vertex<C>>)
    ensures |r| == |vs|
    ensures forall i :: 0 <= i < |vs| ==> r[i] == Vertex(unpack(vs[i].x), unpack(vs[i].y), unpack(vs[i].z))
  {
    seq(|vs|, i requires 0 <= i < |vs| => Vertex(unpack(vs[i].x), unpack(vs[i].y), unpack(vs[i].z)))
  }

  /**
   * `LoaderBinaryStl._load` reading the facet count at byte `countAt`: a
   * single part holding every record's corners. The layout puts the count
   * at `HEADER_SIZE`; the loader as written reads it at `HEADER_SIZE - 5`.
   */
  function BinaryMeshes<C>(c: seq<byte>, countAt: nat, unpack: Word -> C): (r: Result<seq<seq<Vertex<C>>>, LoadError>)
    ensures r.Ok? <==> DecodeBinary(c, countAt).Ok?
    ensures r.Ok? ==> r.value == [UnpackAll(DecodeBinary(c, countAt).value, unpack)]
    ensures r.Err? ==> r.error == Binary(DecodeBinary(c, countAt).error)
  {
    match DecodeBinary(c, countAt)
      case Err(e) => Err(Binary(e))
      case Ok(vs) => Ok([UnpackAll(vs, unpack)])
  }

  /**
   * `LoaderStl._load`: a file that looks ASCII is read as text unless it is
   * not valid text, in which case (as for every other file) it is read as
   * binary, with the count at `countAt`. A text that fails to parse is not
   * retried as binary.
   */
  function StlMeshes<C>(c: seq<byte>, countAt: nat, decode: seq<byte> -> Option<string>, parse: string -> Option<C>,
                        unpack: Word -> C)
    : (r: Result<seq<seq<Vertex<C>>>, LoadError>)
    ensures LooksAscii(c) && decode(c).Some? ==> r == AsciiMeshes(Split(decode(c).value, '\n'), parse)
    ensures !LooksAscii(c) || decode(c).None? ==> r == BinaryMeshes(c, countAt, unpack)
  {
    if LooksAscii(c) then
      match decode(c)
        case Some(text) => AsciiMeshes(Split(text, '\n'), parse)
        case None => BinaryMeshes(c, countAt, unpack)
    else BinaryMeshes(c, countAt, unpack)
  }

  /** A header that starts with "T" ("Tweaked on ...") is never taken for ASCII. */
  lemma StampedNotAscii(stamp: seq<byte>, fs: seq<Facet>)
    requires 1 <= |stamp| <= HEADER_SIZE - 1 && stamp[0] == 84
    requires BinaryFile(Header(stamp), fs).Ok?
    ensures !LooksAscii(BinaryFile(Header(stamp), fs).value)
  {
    var c := BinaryFile(Header(stamp), fs).value;
    HeaderSize(stamp);
    assert c[0] == stamp[0] by {
      assert c[0] == Header(stamp)[0];
    }
    assert LowerByte(c[0]) != SOLID[0];
  }

  /**
   * A binary file written with a header that starts with "T" ("Tweaked
   * on ...") is never mistaken for ASCII, so the STL loader, reading the
   * count after the 80-byte header, reads back the written facets' corners
   * as one part.
   */
  lemma WrittenStlLoads<C>(stamp: seq<byte>, fs: seq<Facet>, decode: seq<byte> -> Option<string>,
                           parse: string -> Option<C>, unpack: Word -> C)
    requires 1 <= |stamp| <= HEADER_SIZE - 1 && stamp[0] == 84
    requires |fs| < UINT32_LIMIT
    ensures BinaryFile(Header(stamp), fs).Ok?
    ensures StlMeshes(BinaryFile(Header(stamp), fs).value, HEADER_SIZE, decode, parse, unpack) == Ok([UnpackAll(Corners(fs), unpack)])
  {
    RoundTrip(stamp, fs);
    StampedNotAscii(stamp, fs);
  }

  /**
   * The STL loader as written, reading the count at byte 75, fails on the
   * same files: it reads four bytes of header padding as the count.
   */
  lemma WrittenStlFailsAsWritten<C>(stamp: seq<byte>, fs: seq<Facet>, decode: seq<byte> -> Option<string>,
                                    parse: string -> Option<C>, unpack: Word -> C)
    requires 1 <= |stamp| <= HEADER_SIZE - 5 && stamp[0] == 84
    requires |fs| < 0x2020_2020
    ensures BinaryFile(Header(stamp), fs).Ok?
    ensures StlMeshes(BinaryFile(Header(stamp), fs).value, HEADER_SIZE - 5, decode, parse, unpack) == Err(Binary(Truncated))
  {
    AsWrittenMisreadsCount(stamp, fs);
    StampedNotAscii(stamp, fs);
  }

  /*
   * ---------------------------------------------------------------------
   * Dispatch and naming
   * ---------------------------------------------------------------------
   */

  /** The entries of the loader table, in table order. */
  datatype FileKind = ThreeMf | Obj | Stl {
    /** `FILE_TYPE` of the loader, also its suffix without the dot. */
    function FileType(): string {
      match this
        case ThreeMf => "3mf"
        case Obj => "obj"
        case Stl => "stl"
    }
  }

  /** `load_mesh`'s choice: the first table entry whose `.<type>` ends the path. */
  function SelectLoader(path: string): (r: Option<FileKind>)
    ensures r.Some? ==> EndsWith(path, "." + r.value.FileType())
    ensures r.None? <==> !EndsWith(path, ".3mf") && !EndsWith(path, ".obj") && !EndsWith(path, ".stl")
  {
    if EndsWith(path, ".3mf") then Some(ThreeMf)
    else if EndsWith(path, ".obj") then Some(Obj)
    else if EndsWith(path, ".stl") then Some(Stl)
    else None
  }

  /** `mesh_name`: the loader's type, a space, then the tweaker's file fileLabel. */
  function MeshName(fileType: Option<string>, fileLabel: string): (r: Result<string, LoadError>)
    ensures r.Ok? <==> fileType.Some?
    ensures r.Ok? ==> StartsWith(r.value, fileType.value + " ") && EndsWith(r.value, fileLabel)
  {
    match fileType
      case None => Err(NoFileType)
      case Some(t) => Ok(t + " " + fileLabel)
  }

  /**
   * `LoaderMeshBase.load`: the parts in load order, part `i` named
   * `mesh_name + ' ' + str(i)`. The name is only asked for when there is a
   * part to name.
   */
  function NameParts<C>(fileType: Option<string>, fileLabel: string, meshes: seq<seq<Vertex<C>>>)
    : (r: Result<seq<NamedMesh<C>>, LoadError>)
    ensures r.Ok? <==> fileType.Some? || meshes == []
    ensures r.Ok? ==> |r.value| == |meshes|
    ensures r.Ok? ==> forall i :: 0 <= i < |meshes| ==>
              r.value[i].mesh == meshes[i] &&
              r.value[i].name == MeshName(fileType, fileLabel).value + " " + NatToString(i)
  {
    if meshes == [] then Ok([])
    else
      var name :- MeshName(fileType, fileLabel);
      Ok(seq(|meshes|, i requires 0 <= i < |meshes| => NamedMesh(meshes[i], name + " " + NatToString(i))))
  }

  /** Loaded parts have pairwise distinct names. */
  lemma PartNamesDistinct<C>(fileType: Option<string>, fileLabel: string, meshes: seq<seq<Vertex<C>>>, i: nat, j: nat)
    requires NameParts(fileType, fileLabel, meshes).Ok?
    requires i < j < |meshes|
    ensures NameParts(fileType, fileLabel, meshes).value[i].name != NameParts(fileType, fileLabel, meshes).value[j].name
  {
    var prefix := MeshName(fileType, fileLabel).value + " ";
    var a, b := NatToString(i), NatToString(j);
    if prefix + a == prefix + b {
      assert a == (prefix + a)[|prefix|..];
      NatToStringInjective(i, j);
    }
  }

  /**
   * `LoaderMeshBase.load` on what `_load` returned: a raised exception
   * passes through, parts are named by position.
   */
  function NameLoaded<C>(kind: FileKind, fileLabel: string, loaded: Result<seq<seq<Vertex<C>>>, LoadError>)
    : (r: Result<seq<NamedMesh<C>>, LoadError>)
    ensures r.Ok? <==> loaded.Ok?
    ensures r.Err? ==> r.error == loaded.error
    ensures r.Ok? ==> |r.value| == |loaded.value| && forall i :: 0 <= i < |r.value| ==>
              r.value[i].mesh == loaded.value[i] &&
              r.value[i].name == kind.FileType() + " " + fileLabel + " " + NatToString(i)
  {
    var parts :- loaded;
    NameParts(Some(kind.FileType()), fileLabel, parts)
  }

  /** A loader that returns one part gives one part, named "<type> <label> 0". */
  lemma NameOne<C>(kind: FileKind, fileLabel: string, m: seq<Vertex<C>>)
    ensures NameLoaded(kind, fileLabel, Ok([m])) == Ok([NamedMesh(m, kind.FileType() + " " + fileLabel + " 0")])
  {
    var named := NameLoaded(kind, fileLabel, Ok([m]));
    assert NatToString(0) == "0";
    assert named.Ok? && |named.value| == 1;
    assert named.value[0] == NamedMesh(m, kind.FileType() + " " + fileLabel + " 0");
    assert named.value == [named.value[0]];
  }

  /**
   * What each loader's `_load` returns for a file with bytes `c`, with the
   * OBJ loader reading text and the binary STL loader reading the count
   * after the 80-byte header. The 3MF reader lives outside this model and
   * is the parameter `read3mf`.
   */
  function Loaded<C>(kind: FileKind, path: string, c: seq<byte>, decode: seq<byte> -> Option<string>,
                     parse: string -> Option<C>, unpack: Word -> C, read3mf: string -> seq<Vertex<C>>)
    : (r: Result<seq<seq<Vertex<C>>>, LoadError>)
    ensures kind == Obj ==> (r.Ok? <==> decode(c).Some? && ObjMesh(Split(decode(c).value, '\n'), parse).Ok?)
    ensures kind == Obj && r.Ok? ==> r.value == [ObjMesh(Split(decode(c).value, '\n'), parse).value]
    ensures kind == Stl ==> r == StlMeshes(c, HEADER_SIZE, decode, parse, unpack)
  {
    match kind
      case ThreeMf => Ok([read3mf(path)])
      case Obj =>
        (match decode(c)
           case None => Err(NotDecodable)
           case Some(text) =>
             match ObjMesh(Split(text, '\n'), parse)
               case Err(e) => Err(e)
               case Ok(m) => Ok([m]))
      case Stl => StlMeshes(c, HEADER_SIZE, decode, parse, unpack)
  }

  /** `load_mesh` on a file with bytes `c`, each loader as `Loaded` reads it. */
  function LoadMesh<C>(path: string, c: seq<byte>, fileLabel: string, decode: seq<byte> -> Option<string>,
                       parse: string -> Option<C>, unpack: Word -> C, read3mf: string -> seq<Vertex<C>>)
    : (r: Result<seq<NamedMesh<C>>, LoadError>)
    ensures SelectLoader(path).None? ==> r == Err(UnsupportedType(path))
    ensures r.Ok? ==> forall i :: 0 <= i < |r.value| ==>
              r.value[i].name == SelectLoader(path).value.FileType() + " " + fileLabel + " " + NatToString(i)
  {
    match SelectLoader(path)
      case None => Err(UnsupportedType(path))
      case Some(kind) => NameLoaded(kind, fileLabel, Loaded(kind, path, c, decode, parse, unpack, read3mf))
  }

  /**
   * `LoaderObj._load` as written: the file is opened in binary mode, so its
   * lines are `bytes` and the test `"v" in line` raises `TypeError` on the
   * first one. Only an empty file, which has no lines, loads, as one part
   * with no vertices.
   */
  function ObjMeshesAsWritten<C>(c: seq<byte>): (r: Result<seq<seq<Vertex<C>>>, LoadError>)
    ensures r.Ok? <==> c == []
    ensures r.Ok? ==> r.value == [[]]
    ensures r.Err? ==> r.error == StrInBytes
  {
    if c == [] then Ok([[]]) else Err(StrInBytes)
  }

  /** `load_mesh` as written: the OBJ loader of `ObjMeshesAsWritten` and the count read at byte 75. */
  function LoadMeshAsWritten<C>(path: string, c: seq<byte>, fileLabel: string, decode: seq<byte> -> Option<string>,
                                parse: string -> Option<C>, unpack: Word -> C, read3mf: string -> seq<Vertex<C>>)
    : (r: Result<seq<NamedMesh<C>>, LoadError>)
    ensures SelectLoader(path).None? ==> r == Err(UnsupportedType(path))
    ensures r.Ok? ==> forall i :: 0 <= i < |r.value| ==>
              r.value[i].name == SelectLoader(path).value.FileType() + " " + fileLabel + " " + NatToString(i)
  {
    match SelectLoader(path)
      case None => Err(UnsupportedType(path))
      case Some(kind) => NameLoaded(kind, fileLabel, LoadedAsWritten(kind, path, c, decode, parse, unpack, read3mf))
  }

  /** What each loader's `_load` returns as written. */
  function LoadedAsWritten<C>(kind: FileKind, path: string, c: seq<byte>, decode: seq<byte> -> Option<string>,
                              parse: string -> Option<C>, unpack: Word -> C, read3mf: string -> seq<Vertex<C>>)
    : (r: Result<seq<seq<Vertex<C>>>, LoadError>)
    ensures kind == Obj ==> r == ObjMeshesAsWritten(c)
    ensures kind == Stl ==> r == StlMeshes(c, HEADER_SIZE - 5, decode, parse, unpack)
  {
    match kind
      case ThreeMf => Ok([read3mf(path)])
      case Obj => ObjMeshesAsWritten(c)
      case Stl => StlMeshes(c, HEADER_SIZE - 5, decode, parse, unpack)
  }

  /** As written, every non-empty `.obj` file raises `TypeError`. */
  lemma AsWrittenObjRaises<C>(path: string, c: seq<byte>, fileLabel: string, decode: seq<byte> -> Option<string>,
                              parse: string -> Option<C>, unpack: Word -> C, read3mf: string -> seq<Vertex<C>>)
    requires EndsWith(path, ".obj") && !EndsWith(path, ".3mf")
    requires c != []
    ensures LoadMeshAsWritten(path, c, fileLabel, decode, parse, unpack, read3mf) == Err(StrInBytes)
  {
    assert SelectLoader(path) == Some(Obj);
  }

  /** A chosen loader that returns one part makes `load_mesh` return it, named "<type> <label> 0". */
  lemma LoadMeshOnePart<C>(kind: FileKind, path: string, c: seq<byte>, fileLabel: string,
                           decode: seq<byte> -> Option<string>, parse: string -> Option<C>, unpack: Word -> C,
                           read3mf: string -> seq<Vertex<C>>, m: seq<Vertex<C>>)
    requires SelectLoader(path) == Some(kind)
    requires Loaded(kind, path, c, decode, parse, unpack, read3mf) == Ok([m])
    ensures LoadMesh(path, c, fileLabel, decode, parse, unpack, read3mf)
            == Ok([NamedMesh(m, kind.FileType() + " " + fileLabel + " 0")])
  {
    NameOne(kind, fileLabel, m);
  }

  /** Reading text, an `.obj` file loads as the single part `ObjMesh` builds, named "obj <label> 0". */
  lemma LoadMeshObj<C>(path: string, c: seq<byte>, fileLabel: string, decode: seq<byte> -> Option<string>,
                       parse: string -> Option<C>, unpack: Word -> C, read3mf: string -> seq<Vertex<C>>)
    requires EndsWith(path, ".obj") && !EndsWith(path, ".3mf")
    requires decode(c).Some? && ObjMesh(Split(decode(c).value, '\n'), parse).Ok?
    ensures LoadMesh(path, c, fileLabel, decode, parse, unpack, read3mf)
            == Ok([NamedMesh(ObjMesh(Split(decode(c).value, '\n'), parse).value, "obj " + fileLabel + " 0")])
  {
    var m := ObjMesh(Split(decode(c).value, '\n'), parse).value;
    assert SelectLoader(path) == Some(Obj);
    assert Loaded(Obj, path, c, decode, parse, unpack, read3mf) == Ok([m]);
    LoadMeshOnePart(Obj, path, c, fileLabel, decode, parse, unpack, read3mf, m);
    assert Obj.FileType() + " " + fileLabel + " 0" == "obj " + fileLabel + " 0";
  }

  /**
   * A binary STL this module writes (header stamp starting with "T") loads
   * through `load_mesh` as one part named "stl <label> 0" holding the
   * written facets' corners.
   */
  lemma LoadMeshWrittenStl<C>(path: string, stamp: seq<byte>, fs: seq<Facet>, fileLabel: string,
                              decode: seq<byte> -> Option<string>, parse: string -> Option<C>, unpack: Word -> C,
                              read3mf: string -> seq<Vertex<C>>)
    requires EndsWith(path, ".stl") && !EndsWith(path, ".3mf") && !EndsWith(path, ".obj")
    requires 1 <= |stamp| <= HEADER_SIZE - 1 && stamp[0] == 84
    requires |fs| < UINT32_LIMIT
    ensures BinaryFile(Header(stamp), fs).Ok?
    ensures LoadMesh(path, BinaryFile(Header(stamp), fs).value, fileLabel, decode, parse, unpack, read3mf)
            == Ok([NamedMesh(UnpackAll(Corners(fs), unpack), "stl " + fileLabel + " 0")])
  {
    WrittenStlLoads(stamp, fs, decode, parse, unpack);
    StlLoadsOnePart(path, BinaryFile(Header(stamp), fs).value, fileLabel, decode, parse, unpack, read3mf,
                    UnpackAll(Corners(fs), unpack));
  }

  lemma StlLoadsOnePart<C>(path: string, c: seq<byte>, fileLabel: string, decode: seq<byte> -> Option<string>,
                           parse: string -> Option<C>, unpack: Word -> C, read3mf: string -> seq<Vertex<C>>,
                           m: seq<Vertex<C>>)
    requires EndsWith(path, ".stl") && !EndsWith(path, ".3mf") && !EndsWith(path, ".obj")
    requires StlMeshes(c, HEADER_SIZE, decode, parse, unpack) == Ok([m])
    ensures LoadMesh(path, c, fileLabel, decode, parse, unpack, read3mf) == Ok([NamedMesh(m, "stl " + fileLabel + " 0")])
  {
    assert SelectLoader(path) == Some(Stl);
    LoadMeshOnePart(Stl, path, c, fileLabel, decode, parse, unpack, read3mf, m);
    assert Stl.FileType() + " " + fileLabel + " 0" == "stl " + fileLabel + " 0";
  }

  /** The same file makes `load_mesh` as written raise `struct.error`. */
  lemma LoadMeshWrittenStlAsWritten<C>(path: string, stamp: seq<byte>, fs: seq<Facet>, fileLabel: string,
                                       decode: seq<byte> -> Option<string>, parse: string -> Option<C>,
                                       unpack: Word -> C, read3mf: string -> seq<Vertex<C>>)
    requires EndsWith(path, ".stl") && !EndsWith(path, ".3mf") && !EndsWith(path, ".obj")
    requires 1 <= |stamp| <= HEADER_SIZE - 5 && stamp[0] == 84
    requires |fs| < 0x2020_2020
    ensures BinaryFile(Header(stamp), fs).Ok?
    ensures LoadMeshAsWritten(path, BinaryFile(Header(stamp), fs).value, fileLabel, decode, parse, unpack, read3mf)
            == Err(Binary(Truncated))
  {
    WrittenStlFailsAsWritten(stamp, fs, decode, parse, unpack);
    assert SelectLoader(path) == Some(Stl);
  }

  /*
   * ---------------------------------------------------------------------
   * Writing
   * ---------------------------------------------------------------------
   */

  /**
   * The file a part is written to: the output file itself when the mesh has
   * one part; otherwise the output file without its last `.`-suffix,
   * then `_<part>.stl`.
   */
  function PartFileName(outputFile: string, partCount: nat, part: nat): (r: string)
    ensures partCount == 1 ==> r == outputFile
    ensures partCount != 1 ==> EndsWith(r, "_" + NatToString(part) + ".stl")
  {
    if partCount == 1 then outputFile
    else
      var pieces := Split(outputFile, '.');
      Join(pieces[..|pieces| - 1], ".") + "_" + NatToString(part) + ".stl"
  }

  /** Different parts of a multi-part mesh are written to different files. */
  lemma PartFileNamesDistinct(outputFile: string, partCount: nat, p: nat, q: nat)
    requires partCount != 1 && p != q
    ensures PartFileName(outputFile, partCount, p) != PartFileName(outputFile, partCount, q)
  {
    var pieces := Split(outputFile, '.');
    var stem := Join(pieces[..|pieces| - 1], ".") + "_";
    var a, b := NatToString(p), NatToString(q);
    if stem + a + ".stl" == stem + b + ".stl" {
      assert |a| == |b|;
      assert a == (stem + a + ".stl")[|stem|..|stem| + |a|];
      assert b == (stem + b + ".stl")[|stem|..|stem| + |b|];
      NatToStringInjective(p, q);
    }
  }

  /** A part to write: its key in `objects` and its vertex list, three per triangle, as loaded. */
  datatype Part = Part(key: nat, mesh: seq<Vertex<Word>>)

  /** A file written: its name and its bytes. */
  datatype Written = Written(name: string, content: seq<byte>)

  /** The exceptions the binary branch of `write_mesh` can raise for a part. */
  datatype WriteError =
    | MissingInfo(part: nat)      // `KeyError` from `info[part]`
    | EmptyMesh                   // `IndexError` from `mesh[0]` on an empty part
    | NotTriangles(count: nat)    // `ValueError` from `reshape` when the vertices are not whole triangles
    | Packing(e: BinaryError)     // `struct.error` packing the facet count

  /**
   * The rotation of one triangle by a part's matrix, giving the facet that
   * is written (normal and rotated corners). The arithmetic (`np.matmul`,
   * `np.cross`) is the caller's.
   */
  type Rotation<!M> = (M, Vertex<Word>, Vertex<Word>, Vertex<Word>) -> Facet

  /** The facets of a whole number of triangles, each rotated, in mesh order. */
  function Rotated<M>(matrix: M, mesh: seq<Vertex<Word>>, rotate: Rotation<M>): (r: seq<Facet>)
    requires |mesh| % 3 == 0
    ensures |r| == |mesh| / 3
    decreases |mesh|
  {
    if mesh == [] then []
    else
      var n := |mesh|;
      Rotated(matrix, mesh[..n - 3], rotate) + [rotate(matrix, mesh[n - 3], mesh[n - 2], mesh[n - 1])]
  }

  /** Facet `k` is triangle `k`, that is vertices `3k`, `3k+1` and `3k+2`, rotated. */
  lemma {:induction false} RotatedAt<M>(matrix: M, mesh: seq<Vertex<Word>>, rotate: Rotation<M>, k: nat)
    requires |mesh| % 3 == 0 && k < |mesh| / 3
    ensures Rotated(matrix, mesh, rotate)[k] == rotate(matrix, mesh[3 * k], mesh[3 * k + 1], mesh[3 * k + 2])
    decreases |mesh|
  {
    var n := |mesh|;
    var front := mesh[..n - 3];
    if k < |front| / 3 {
      RotatedAt(matrix, front, rotate, k);
      assert Rotated(matrix, mesh, rotate)[k] == Rotated(matrix, front, rotate)[k];
    }
  }

  /**
   * `rotate_bin_stl`: `mesh[0]` raises on an empty part, and `reshape` into
   * triangles raises unless the vertex count is a multiple of three;
   * otherwise one rotated facet per triangle.
   */
  function RotateBin<M>(matrix: M, mesh: seq<Vertex<Word>>, rotate: Rotation<M>): (r: Result<seq<Facet>, WriteError>)
    ensures r.Ok? <==> mesh != [] && |mesh| % 3 == 0
    ensures mesh == [] ==> r == Err(EmptyMesh)
    ensures mesh != [] && |mesh| % 3 != 0 ==> r == Err(NotTriangles(|mesh|))
    ensures r.Ok? ==> |r.value| == |mesh| / 3
  {
    if mesh == [] then Err(EmptyMesh)
    else if |mesh| % 3 != 0 then Err(NotTriangles(|mesh|))
    else Ok(Rotated(matrix, mesh, rotate))
  }

  /** A rotation that keeps every corner (the identity matrix) writes the mesh's own vertices back. */
  lemma {:induction false} RotatedKeepsCorners<M>(matrix: M, mesh: seq<Vertex<Word>>, rotate: Rotation<M>)
    requires |mesh| % 3 == 0
    requires forall a, b, c :: rotate(matrix, a, b, c).v0 == a && rotate(matrix, a, b, c).v1 == b && rotate(matrix, a, b, c).v2 == c
    ensures Corners(Rotated(matrix, mesh, rotate)) == mesh
    decreases |mesh|
  {
    if mesh != [] {
      var n := |mesh|;
      var front, last := mesh[..n - 3], mesh[n - 3..];
      var f := rotate(matrix, mesh[n - 3], mesh[n - 2], mesh[n - 1]);
      RotatedKeepsCorners(matrix, front, rotate);
      CornersSnoc(Rotated(matrix, front, rotate), f);
      assert [f.v0, f.v1, f.v2] == last;
      assert mesh == front + last;
    }
  }

  lemma CornersSnoc(fs: seq<Facet>, f: Facet)
    ensures Corners(fs + [f]) == Corners(fs) + [f.v0, f.v1, f.v2]
  {
    assert (fs + [f])[..|fs|] == fs;
  }

  /**
   * The bytes written for one part, or the exception raised on the way, in
   * the order the loop meets them: the `info` lookup, `rotate_bin_stl`,
   * then packing the count `int(len(mesh) / 3)`.
   */
  function PartFile<M>(p: Part, info: map<nat, M>, rotate: Rotation<M>, header: seq<byte>): (r: Result<seq<byte>, WriteError>)
    ensures r.Ok? <==> p.key in info && p.mesh != [] && |p.mesh| % 3 == 0 && |p.mesh| / 3 < UINT32_LIMIT
    ensures p.key !in info ==> r == Err(MissingInfo(p.key))
    ensures p.key in info && p.mesh == [] ==> r == Err(EmptyMesh)
    ensures p.key in info && p.mesh != [] && |p.mesh| % 3 != 0 ==> r == Err(NotTriangles(|p.mesh|))
    ensures r.Ok? ==> |r.value| == |header| + 4 + RECORD_SIZE * (|p.mesh| / 3)
  {
    if p.key !in info then Err(MissingInfo(p.key))
    else match RotateBin(info[p.key], p.mesh, rotate)
      case Err(e) => Err(e)
      case Ok(fs) =>
        match BinaryFile(header, fs)
        case Err(e) => Err(Packing(e))
        case Ok(bytes) => Ok(bytes)
  }

  /**
   * The files the binary branch of `write_mesh` writes, in part order: the
   * shared header, the part's facet count, then its rotated facets. The
   * first part that raises stops the loop with its exception; the files
   * before it stay written.
   */
  function BinaryWrites<M>(parts: seq<Part>, info: map<nat, M>, rotate: Rotation<M>, outputFile: string,
                           header: seq<byte>, partCount: nat)
    : (r: (seq<Written>, Option<WriteError>))
    ensures |r.0| <= |parts|
    ensures r.1.None? <==> forall i :: 0 <= i < |parts| ==> PartFile(parts[i], info, rotate, header).Ok?
    ensures r.1.None? ==> |r.0| == |parts|
    decreases |parts|
  {
    if parts == [] then ([], None)
    else
      var (ws, err) := BinaryWrites(parts[..|parts| - 1], info, rotate, outputFile, header, partCount);
      var p := parts[|parts| - 1];
      if err.Some? then (ws, err)
      else match PartFile(p, info, rotate, header)
        case Err(e) => (ws, Some(e))
        case Ok(bytes) => (ws + [Written(PartFileName(outputFile, partCount, p.key), bytes)], None)
  }

  /** A failed write stops at the first part that raises, with that part's exception; every part before it was written. */
  lemma {:induction false} BinaryWritesError<M>(parts: seq<Part>, info: map<nat, M>, rotate: Rotation<M>, outputFile: string,
                                                header: seq<byte>, partCount: nat)
    requires BinaryWrites(parts, info, rotate, outputFile, header, partCount).1.Some?
    ensures var r := BinaryWrites(parts, info, rotate, outputFile, header, partCount);
      && |r.0| < |parts|
      && PartFile(parts[|r.0|], info, rotate, header) == Err(r.1.value)
      && forall i :: 0 <= i < |r.0| ==> PartFile(parts[i], info, rotate, header).Ok?
    decreases |parts|
  {
    var init := parts[..|parts| - 1];
    var prev := BinaryWrites(init, info, rotate, outputFile, header, partCount);
    if prev.1.Some? {
      BinaryWritesError(init, info, rotate, outputFile, header, partCount);
      assert parts[|prev.0|] == init[|prev.0|];
      assert forall i :: 0 <= i < |prev.0| ==> parts[i] == init[i];
    } else {
      assert forall i :: 0 <= i < |init| ==> parts[i] == init[i];
    }
  }

  /** The loop of `write_mesh`, binary branch. */
  method WriteBinaryMesh<M>(parts: seq<Part>, info: map<nat, M>, rotate: Rotation<M>, outputFile: string, stamp: seq<byte>)
    returns (written: seq<Written>, err: Option<WriteError>)
    ensures (written, err) == BinaryWrites(parts, info, rotate, outputFile, Header(stamp), |parts|)
  {
    var header := Header(stamp);
    written := [];
    for i := 0 to |parts|
      invariant BinaryWrites(parts[..i], info, rotate, outputFile, header, |parts|) == (written, None)
    {
      var p := parts[i];
      BinaryWritesNext(parts, i, info, rotate, outputFile, header, |parts|);
      if p.key !in info {
        BinaryWritesStops(parts, i + 1, info, rotate, outputFile, header, |parts|);
        return written, Some(MissingInfo(p.key));
      }
      var facets := RotateBin(info[p.key], p.mesh, rotate);
      if facets.Err? {
        BinaryWritesStops(parts, i + 1, info, rotate, outputFile, header, |parts|);
        return written, Some(facets.error);
      }
      var outName := PartFileName(outputFile, |parts|, p.key);
      var file := BinaryFile(header, facets.value);
      if file.Err? {
        BinaryWritesStops(parts, i + 1, info, rotate, outputFile, header, |parts|);
        return written, Some(Packing(file.error));
      }
      written := written + [Written(outName, file.value)];
    }
    assert parts[..|parts|] == parts;
    return written, None;
  }

  /** One more part for the write loop, once the parts before it were all written. */
  lemma BinaryWritesNext<M>(parts: seq<Part>, i: nat, info: map<nat, M>, rotate: Rotation<M>, outputFile: string,
                            header: seq<byte>, partCount: nat)
    requires i < |parts| && BinaryWrites(parts[..i], info, rotate, outputFile, header, partCount).1.None?
    ensures var before := BinaryWrites(parts[..i], info, rotate, outputFile, header, partCount).0;
      var file := PartFile(parts[i], info, rotate, header);
      BinaryWrites(parts[..i + 1], info, rotate, outputFile, header, partCount)
        == if file.Err? then (before, Some(file.error))
           else (before + [Written(PartFileName(outputFile, partCount, parts[i].key), file.value)], None)
  {
    assert parts[..i + 1][..i] == parts[..i];
  }

  lemma {:induction false} BinaryWritesStops<M>(parts: seq<Part>, i: nat, info: map<nat, M>, rotate: Rotation<M>,
                                                outputFile: string, header: seq<byte>, partCount: nat)
    requires i <= |parts|
    requires BinaryWrites(parts[..i], info, rotate, outputFile, header, partCount).1.Some?
    ensures BinaryWrites(parts, info, rotate, outputFile, header, partCount)
      == BinaryWrites(parts[..i], info, rotate, outputFile, header, partCount)
    decreases |parts|
  {
    if i < |parts| {
      assert parts[..|parts| - 1][..i] == parts[..i];
      BinaryWritesStops(parts[..|parts| - 1], i, info, rotate, outputFile, header, partCount);
    } else {
      assert parts[..i] == parts;
    }
  }

  /**
   * Every file written for part `k` is named after it and holds that
   * part's rotated facets, which the binary loader reads back.
   */
  lemma {:induction false} BinaryWritesReadBack<M>(parts: seq<Part>, info: map<nat, M>, rotate: Rotation<M>,
                                                   outputFile: string, stamp: seq<byte>, partCount: nat, k: nat)
    requires |stamp| <= HEADER_SIZE - 1
    requires k < |BinaryWrites(parts, info, rotate, outputFile, Header(stamp), partCount).0|
    ensures k < |parts| && PartFile(parts[k], info, rotate, Header(stamp)).Ok?
    ensures BinaryWrites(parts, info, rotate, outputFile, Header(stamp), partCount).0[k].name
      == PartFileName(outputFile, partCount, parts[k].key)
    ensures LoadBinary(BinaryWrites(parts, info, rotate, outputFile, Header(stamp), partCount).0[k].content)
      == Ok(Corners(Rotated(info[parts[k].key], parts[k].mesh, rotate)))
    decreases |parts|
  {
    var init, p := parts[..|parts| - 1], parts[|parts| - 1];
    var h := Header(stamp);
    var ws := BinaryWrites(parts, info, rotate, outputFile, h, partCount).0;
    var prev := BinaryWrites(init, info, rotate, outputFile, h, partCount);
    BinaryWritesGrow(parts, info, rotate, outputFile, h, partCount);
    if k < |prev.0| {
      BinaryWritesReadBack(init, info, rotate, outputFile, stamp, partCount, k);
      assert ws[k] == ws[..|prev.0|][k];
    } else {
      assert k == |init|;
      RoundTrip(stamp, Rotated(info[p.key], p.mesh, rotate));
    }
  }

  /** Writing one more part keeps the files written before and adds at most the new part's file. */
  lemma BinaryWritesGrow<M>(parts: seq<Part>, info: map<nat, M>, rotate: Rotation<M>, outputFile: string,
                            header: seq<byte>, partCount: nat)
    requires parts != []
    ensures var init, p := parts[..|parts| - 1], parts[|parts| - 1];
      var prev := BinaryWrites(init, info, rotate, outputFile, header, partCount);
      var ws := BinaryWrites(parts, info, rotate, outputFile, header, partCount).0;
      var file := PartFile(p, info, rotate, header);
      && |prev.0| <= |ws| <= |prev.0| + 1
      && ws[..|prev.0|] == prev.0
      && (|ws| > |prev.0| ==>
            prev.1.None? && file.Ok? && ws[|prev.0|] == Written(PartFileName(outputFile, partCount, p.key), file.value))
  {
    var init, p := parts[..|parts| - 1], parts[|parts| - 1];
    var prev := BinaryWrites(init, info, rotate, outputFile, header, partCount);
    var file := PartFile(p, info, rotate, header);
    if prev.1.None? && file.Ok? {
      PrefixOfSnoc(prev.0, Written(PartFileName(outputFile, partCount, p.key), file.value));
    }
  }

  lemma PrefixOfSnoc<T>(a: seq<T>, x: T)
    ensures |a + [x]| == |a| + 1 && (a + [x])[..|a|] == a && (a + [x])[|a|] == x
  {
  }
}

=== FILE: mesh_types.dfy ===
/**
 * `MeshProcessorBase`: a mesh operation that first runs its decorator
 * operations in order, each on the previous one's output file, then writes
 * its own result as `<output_dir>/<prefix><base name>` unless that path
 * already exists. The processed mesh is computed at most once per instance.
 */
module MeshTypes {
  import opened Wrappers
  import Text
  import opened Paths
  import OptionTypes

  /** A `MeshProcessorBase` subclass, known by its `_PREFIX_OPERATION`. */
  datatype Processor = Processor(prefix: string)

  /** The base class's own prefix. */
  const BASE_PREFIX: string := "op_"

  /** Where `p` writes its result for `input`. */
  function OutputFile(p: Processor, input: string, dir: string): string {
    Join(dir, p.prefix + Basename(input))
  }

  /**
   * `_save_processed_mesh` of a processor, known by what it returns: given
   * the processor, the file its processed mesh was computed from and the
   * output file, the path of the file it wrote. The repairer returns the
   * output file itself; the tweaker returns the first file `write_mesh`
   * wrote, which for a mesh in several parts is a part file.
   */
  type Saver = (Processor, string, string) -> string

  /** A saver that always returns the output file it was given. */
  ghost predicate ReturnsOutput(save: Saver) {
    forall p: Processor, mesh: string, out: string :: save(p, mesh, out) == out
  }

  /**
   * The end of `save_processed_mesh`, once the decorators have run: an
   * existing output path is returned as it is; otherwise the mesh processed
   * from `mesh` is saved to it and the saver's path, now a file, returned.
   */
  function SaveSingle(p: Processor, input: string, mesh: string, dir: string, fs: FileSystem, save: Saver)
    : (r: (string, FileSystem))
    ensures fs.Exists(OutputFile(p, input, dir)) ==> r == (OutputFile(p, input, dir), fs)
    ensures !fs.Exists(OutputFile(p, input, dir)) ==>
              r.0 == save(p, mesh, OutputFile(p, input, dir)) && r.1 == fs.(files := fs.files + {r.0})
    ensures ReturnsOutput(save) ==> r.0 == OutputFile(p, input, dir)
    ensures r.1.Exists(r.0)
    ensures fs.files <= r.1.files && fs.dirs == r.1.dirs
  {
    var out := OutputFile(p, input, dir);
    if fs.Exists(out) then (out, fs)
    else
      var saved := save(p, mesh, out);
      (saved, fs.(files := fs.files + {saved}))
  }

  /** `ExistsFileType(path)` failed: the path is not a regular file. */
  datatype PipelineError = NotAFile(path: string)

  /**
   * The decorator loop: each decorator is a fresh processor built on the
   * current input file, and its output, checked to be a file, becomes the
   * next input.
   */
  function RunDecorators(ds: seq<Processor>, input: string, dir: string, fs: FileSystem, save: Saver)
    : (r: Result<(string, FileSystem), PipelineError>)
    ensures r.Ok? ==> fs.files <= r.value.1.files && fs.dirs == r.value.1.dirs
    ensures r.Ok? && ReturnsOutput(save) ==> r.value.0 == OutputFiles(ds, input, dir)
    decreases |ds|
  {
    if ds == [] then Ok((input, fs))
    else
      var saved := SaveSingle(ds[0], input, input, dir, fs, save);
      if !saved.1.IsFile(saved.0) then Err(NotAFile(saved.0))
      else RunDecorators(ds[1..], saved.0, dir, saved.1, save)
  }

  /** The output file of the last decorator when each names its output after its input. */
  function OutputFiles(ds: seq<Processor>, input: string, dir: string): string
    decreases |ds|
  {
    if ds == [] then input else OutputFiles(ds[1..], OutputFile(ds[0], input, dir), dir)
  }

  /**
   * The input file the decorator loop has reached when it stops: the output
   * of the last decorator that passed the file check.
   */
  function Reached(ds: seq<Processor>, input: string, dir: string, fs: FileSystem, save: Saver): (r: string)
    ensures RunDecorators(ds, input, dir, fs, save).Ok? ==> r == RunDecorators(ds, input, dir, fs, save).value.0
    decreases |ds|
  {
    if ds == [] then input
    else
      var saved := SaveSingle(ds[0], input, input, dir, fs, save);
      if !saved.1.IsFile(saved.0) then input
      else Reached(ds[1..], saved.0, dir, saved.1, save)
  }

  /**
   * The whole of `save_processed_mesh`: the decorators, then the processor
   * itself, saving the mesh it computed from `cached` when that was computed
   * before, and otherwise from the file the decorators reached.
   */
  function Pipeline(p: Processor, ds: seq<Processor>, input: string, cached: Option<string>, dir: string,
                    fs: FileSystem, save: Saver)
    : (r: Result<(string, FileSystem), PipelineError>)
    ensures r.Ok? <==> RunDecorators(ds, input, dir, fs, save).Ok?
    ensures r.Err? ==> r == Err(RunDecorators(ds, input, dir, fs, save).error)
    ensures r.Ok? ==> var ran := RunDecorators(ds, input, dir, fs, save).value;
              r.value == SaveSingle(p, ran.0, if cached.Some? then cached.value else ran.0, dir, ran.1, save)
  {
    match RunDecorators(ds, input, dir, fs, save)
    case Err(e) => Err(e)
    case Ok((current, fs1)) => Ok(SaveSingle(p, current, if cached.Some? then cached.value else current, dir, fs1, save))
  }

  /** The prefixes the decorators put in front of a base name, last decorator outermost. */
  function Prefixes(ds: seq<Processor>): string
    decreases |ds|
  {
    if ds == [] then [] else Prefixes(ds[1..]) + ds[0].prefix
  }

  /** Each decorator's output is named after its input, so the prefixes pile up in running order. */
  lemma {:induction false} DecoratorsBasename(ds: seq<Processor>, input: string, dir: string)
    requires forall i :: 0 <= i < |ds| ==> '/' !in ds[i].prefix
    ensures Basename(OutputFiles(ds, input, dir)) == Prefixes(ds) + Basename(input)
    decreases |ds|
  {
    if ds != [] {
      var out := OutputFile(ds[0], input, dir);
      OutputFileBasename(ds[0], input, dir);
      DecoratorsBasename(ds[1..], out, dir);
    }
  }

  /** An output file is named after the input's base name, with the prefix in front. */
  lemma OutputFileBasename(p: Processor, input: string, dir: string)
    requires '/' !in p.prefix
    ensures Basename(OutputFile(p, input, dir)) == p.prefix + Basename(input)
  {
    var name := p.prefix + Basename(input);
    assert '/' !in name by {
      assert forall i :: 0 <= i < |name| ==> name[i] in p.prefix || name[i] in Basename(input);
    }
    BasenameOfJoin(dir, name);
  }

  /**
   * When every save returns its output file, the result of the whole
   * pipeline carries every prefix, the processor's own outermost.
   */
  lemma PipelineBasename(p: Processor, ds: seq<Processor>, input: string, cached: Option<string>, dir: string,
                         fs: FileSystem, save: Saver)
    requires ReturnsOutput(save)
    requires '/' !in p.prefix
    requires forall i :: 0 <= i < |ds| ==> '/' !in ds[i].prefix
    requires Pipeline(p, ds, input, cached, dir, fs, save).Ok?
    ensures Basename(Pipeline(p, ds, input, cached, dir, fs, save).value.0) == p.prefix + Prefixes(ds) + Basename(input)
  {
    var ran := RunDecorators(ds, input, dir, fs, save).value;
    DecoratorsBasename(ds, input, dir);
    OutputFileBasename(p, ran.0, dir);
    Chain(Basename(OutputFile(p, ran.0, dir)), Basename(ran.0), p.prefix, Prefixes(ds), Basename(input));
  }

  lemma Chain(x: string, y: string, a: string, b: string, c: string)
    requires x == a + y && y == b + c
    ensures x == a + b + c
  {
  }

  /** A processor whose output already exists returns it and writes nothing, whatever its saver. */
  lemma ExistingOutputShortCircuits(p: Processor, input: string, cached: Option<string>, dir: string, fs: FileSystem,
                                    save: Saver)
    requires fs.Exists(OutputFile(p, input, dir))
    ensures Pipeline(p, [], input, cached, dir, fs, save) == Ok((OutputFile(p, input, dir), fs))
  {
  }

  /**
   * A mesh computed before the decorators ran is the one saved: the saver
   * is handed the file it was computed from, not the decorators' output.
   */
  lemma CachedMeshSaved(p: Processor, ds: seq<Processor>, input: string, m: string, dir: string, fs: FileSystem,
                        save: Saver)
    requires RunDecorators(ds, input, dir, fs, save).Ok?
    requires !RunDecorators(ds, input, dir, fs, save).value.1.Exists(OutputFile(p, RunDecorators(ds, input, dir, fs, save).value.0, dir))
    ensures Pipeline(p, ds, input, Some(m), dir, fs, save).value.0
            == save(p, m, OutputFile(p, RunDecorators(ds, input, dir, fs, save).value.0, dir))
  {
  }

  /** The constructor's check: only an `ExistsFileType` is accepted as input. */
  predicate IsFileInput(x: OptionTypes.Setting) {
    x.Typed? && (x.o.ExistsFile? || x.o.FileOption?)
  }

  class MeshProcessor {
    var inputFile: string
    const processor: Processor
    const decorators: seq<Processor>
    /** `processed_mesh` once computed, represented by the input file it was computed from. */
    var cache: Option<string>
    /** How many times `_process_mesh` ran. */
    ghost var computations: nat

    ghost predicate Valid()
      reads this
    {
      computations == if cache.Some? then 1 else 0
    }

    constructor(inputFile: string, processor: Processor, decorators: seq<Processor>)
      ensures this.inputFile == inputFile && this.processor == processor && this.decorators == decorators
      ensures cache.None? && Valid()
    {
      this.inputFile := inputFile;
      this.processor := processor;
      this.decorators := decorators;
      cache := None;
      computations := 0;
    }

    /** `processed_mesh`: computed from the current input on first use, then served from the cache. */
    method ProcessedMesh() returns (m: string)
      requires Valid()
      modifies this
      ensures Valid()
      ensures m == if old(cache).Some? then old(cache).value else inputFile
      ensures cache == Some(m) && inputFile == old(inputFile)
      ensures computations <= 1
    {
      if cache.None? {
        cache := Some(inputFile);
        computations := computations + 1;
      }
      m := cache.value;
    }

    /**
     * `save_processed_mesh`: the input file moves past each decorator that
     * succeeds, and stays on the last one reached when one fails.
     */
    method SaveProcessedMesh(dir: string, fs: FileSystem, save: Saver) returns (r: Result<(string, FileSystem), PipelineError>)
      requires Valid()
      modifies this
      ensures Valid()
      ensures r == Pipeline(processor, decorators, old(inputFile), old(cache), dir, fs, save)
      ensures inputFile == Reached(decorators, old(inputFile), dir, fs, save)
      ensures var ran := RunDecorators(decorators, old(inputFile), dir, fs, save);
        cache == if ran.Ok? && !ran.value.1.Exists(OutputFile(processor, ran.value.0, dir)) && old(cache).None?
                 then Some(inputFile) else old(cache)
      decreases |decorators|
    {
      var current := fs;
      var i := 0;
      assert decorators[0..] == decorators;
      while i < |decorators|
        invariant 0 <= i <= |decorators|
        invariant RunDecorators(decorators, old(inputFile), dir, fs, save) == RunDecorators(decorators[i..], inputFile, dir, current, save)
        invariant Reached(decorators, old(inputFile), dir, fs, save) == Reached(decorators[i..], inputFile, dir, current, save)
        invariant cache == old(cache) && Valid()
      {
        assert decorators[i..][1..] == decorators[i + 1..];
        var step := new MeshProcessor(inputFile, decorators[i], []);
        var saved := step.SaveProcessedMesh(dir, current, save);
        var (result, after) := saved.value;
        if !after.IsFile(result) {
          return Err(NotAFile(result));
        }
        inputFile := result;
        current := after;
        i := i + 1;
      }
      var outputFile := OutputFile(processor, inputFile, dir);
      if current.Exists(outputFile) {
        return Ok((outputFile, current));
      }
      var mesh := ProcessedMesh();
      var path := save(processor, mesh, outputFile);
      r := Ok((path, current.(files := current.files + {path})));
    }
  }

  /** `MeshProcessorBase.__init__`: anything but an `ExistsFileType` raises `TypeError`. */
  method Create(x: OptionTypes.Setting, processor: Processor, decorators: seq<Processor>) returns (r: Result<MeshProcessor, string>)
    ensures r.Ok? <==> IsFileInput(x)
    ensures r.Ok? ==> fresh(r.value) && r.value.Valid() && r.value.cache.None?
    ensures r.Ok? ==> r.value.inputFile == x.o.path && r.value.processor == processor && r.value.decorators == decorators
  {
    if !IsFileInput(x) {
      return Err("TypeError");
    }
    var m := new MeshProcessor(x.o.path, processor, decorators);
    r := Ok(m);
  }
}

=== FILE: option_types.dfy ===
/**
 * The slicer's option value types: `BasicType`, which validates its value
 * when it is built, the numeric and flag option types derived from it, and
 * the path types whose check asks the file system.
 */
module OptionTypes {
  import opened Wrappers
  import opened Text
  import Paths

  /** A `decimal.Decimal`: its numeric value, for sign checks, and the text `str()` gives. */
  datatype Decimal = Decimal(value: real, text: string)

  /** One value of each option class, holding its constructor arguments. */
  datatype OptionValue =
    | Flag
    | XY(x: Decimal, y: Decimal)
    | XYZ(x: Decimal, y: Decimal, z: Decimal)
    | UnsignedXY(x: Decimal, y: Decimal)
    | UnsignedXYZ(x: Decimal, y: Decimal, z: Decimal)
    | UnsignedN(n: int)
    | N(n: int)
    | UnsignedX(x: Decimal)
    | X(x: Decimal)
    | ExistsPath(path: string)
    | ExistsDir(path: string)
    | ExistsDirName(path: string)
    | ExistsFile(path: string)
    | FileOption(path: string)

  /** What an option attribute may hold: `None`, a `str`, an option object, or an object of any other type. */
  datatype Setting = Unset | Text(s: string) | Typed(o: OptionValue) | Foreign(typeName: string)

  /** The Python values `value` returns. */
  datatype PyValue = Bool(b: bool) | Int(i: int) | Dec(d: Decimal) | Tuple(items: seq<Decimal>) | Str(s: string)

  function ClassName(v: OptionValue): string {
    match v
    case Flag => "FlagOptionType"
    case XY(_, _) => "XYOptionsType"
    case XYZ(_, _, _) => "XYZOptionsType"
    case UnsignedXY(_, _) => "UnsignedXYOptionsType"
    case UnsignedXYZ(_, _, _) => "UnsignedXYZOptionsType"
    case UnsignedN(_) => "UnsignedNOptionType"
    case N(_) => "NOptionType"
    case UnsignedX(_) => "UnsignedXOptionType"
    case X(_) => "XOptionType"
    case ExistsPath(_) => "ExistsPathType"
    case ExistsDir(_) => "ExistsDirType"
    case ExistsDirName(_) => "ExistsDirNameType"
    case ExistsFile(_) => "ExistsFileType"
    case FileOption(_) => "FileOptionType"
  }

  /**
   * `_check_value_valid`: the unsigned types reject a negative component,
   * the path types ask the file system, every other type accepts anything.
   */
  predicate CheckValid(v: OptionValue, fs: Paths.FileSystem) {
    match v
    case UnsignedXY(x, y) => x.value >= 0.0 && y.value >= 0.0
    case UnsignedXYZ(x, y, z) => x.value >= 0.0 && y.value >= 0.0 && z.value >= 0.0
    case UnsignedN(n) => n >= 0
    case UnsignedX(x) => x.value >= 0.0
    case ExistsPath(p) => fs.Exists(p)
    case ExistsDir(p) => fs.IsDir(p)
    case ExistsDirName(p) => fs.Exists(Paths.Dirname(p))
    case ExistsFile(p) => fs.IsFile(p)
    case FileOption(p) => fs.IsFile(p)
    case _ => true
  }

  /** `value`: the constructor arguments, a tuple when there are several. */
  function Value(v: OptionValue): (pv: PyValue)
    ensures v.Flag? <==> pv.Bool?
    ensures pv.Bool? ==> pv.b
  {
    match v
    case Flag => Bool(true)
    case XY(x, y) => Tuple([x, y])
    case XYZ(x, y, z) => Tuple([x, y, z])
    case UnsignedXY(x, y) => Tuple([x, y])
    case UnsignedXYZ(x, y, z) => Tuple([x, y, z])
    case UnsignedN(n) => Int(n)
    case N(n) => Int(n)
    case UnsignedX(x) => Dec(x)
    case X(x) => Dec(x)
    case ExistsPath(p) => Str(p)
    case ExistsDir(p) => Str(p)
    case ExistsDirName(p) => Str(p)
    case ExistsFile(p) => Str(p)
    case FileOption(p) => Str(p)
  }

  /** Rebuilds an option from its class name and its `value`: the reference reading of `value`. */
  function FromValue(className: string, pv: PyValue): Option<OptionValue> {
    if className == "FlagOptionType" && pv == Bool(true) then Some(Flag)
    else if pv.Tuple? && |pv.items| == 2 then
      var x, y := pv.items[0], pv.items[1];
      if className == "XYOptionsType" then Some(XY(x, y))
      else if className == "UnsignedXYOptionsType" then Some(UnsignedXY(x, y))
      else None
    else if pv.Tuple? && |pv.items| == 3 then
      var x, y, z := pv.items[0], pv.items[1], pv.items[2];
      if className == "XYZOptionsType" then Some(XYZ(x, y, z))
      else if className == "UnsignedXYZOptionsType" then Some(UnsignedXYZ(x, y, z))
      else None
    else if pv.Int? then
      if className == "UnsignedNOptionType" then Some(UnsignedN(pv.i))
      else if className == "NOptionType" then Some(N(pv.i))
      else None
    else if pv.Dec? then
      if className == "UnsignedXOptionType" then Some(UnsignedX(pv.d))
      else if className == "XOptionType" then Some(X(pv.d))
      else None
    else if pv.Str? then
      if className == "ExistsPathType" then Some(ExistsPath(pv.s))
      else if className == "ExistsDirType" then Some(ExistsDir(pv.s))
      else if className == "ExistsDirNameType" then Some(ExistsDirName(pv.s))
      else if className == "ExistsFileType" then Some(ExistsFile(pv.s))
      else if className == "FileOptionType" then Some(FileOption(pv.s))
      else None
    else None
  }

  /** `value` gives back the constructor arguments unchanged and in argument order. */
  lemma ValueRoundTrip(v: OptionValue)
    ensures FromValue(ClassName(v), Value(v)) == Some(v)
  {
  }

  /** `repr(d)` of a `Decimal`. */
  function DecimalRepr(d: Decimal): string {
    "Decimal('" + d.text + "')"
  }

  function DecimalReprs(ds: seq<Decimal>): (rs: seq<string>)
    ensures |rs| == |ds|
  {
    seq(|ds|, i requires 0 <= i < |ds| => DecimalRepr(ds[i]))
  }

  /** Python `str()` of a value; a tuple shows the `repr` of its items. */
  function PyStr(pv: PyValue): string {
    match pv
    case Bool(b) => if b then "True" else "False"
    case Int(i) => IntToString(i)
    case Dec(d) => d.text
    case Tuple(items) => "(" + Join(DecimalReprs(items), ", ") + ")"
    case Str(s) => s
  }

  /** `__str__`: the `str` of the value. */
  function StrOf(v: OptionValue): string {
    PyStr(Value(v))
  }

  /** `__repr__`: the class name with the value in parentheses. */
  function Repr(v: OptionValue): string {
    ClassName(v) + "(" + StrOf(v) + ")"
  }

  /** The class name is what `repr` shows before its first parenthesis. */
  lemma ReprNamesClass(v: OptionValue)
    ensures '(' !in ClassName(v)
    ensures Split(Repr(v), '(')[0] == ClassName(v)
  {
    var c, rest := ClassName(v), StrOf(v) + ")";
    assert '(' !in c by {
      ClassNameNoParen(v);
    }
    assert Repr(v) == c + ['('] + rest by {
      Regroup(c, StrOf(v));
    }
    SplitAfter(c, rest, '(');
  }

  lemma ClassNameNoParen(v: OptionValue)
    ensures '(' !in ClassName(v)
  {
    if v.Flag? || v.XY? || v.XYZ? || v.UnsignedXY? || v.UnsignedXYZ? {
      VectorClassNoParen(v);
    } else if v.UnsignedN? || v.N? || v.UnsignedX? || v.X? {
      NumberClassNoParen(v);
    } else {
      PathClassNoParen(v);
    }
  }

  lemma VectorClassNoParen(v: OptionValue)
    requires v.Flag? || v.XY? || v.XYZ? || v.UnsignedXY? || v.UnsignedXYZ?
    ensures '(' !in ClassName(v)
  {
  }

  lemma NumberClassNoParen(v: OptionValue)
    requires v.UnsignedN? || v.N? || v.UnsignedX? || v.X?
    ensures '(' !in ClassName(v)
  {
  }

  lemma PathClassNoParen(v: OptionValue)
    requires v.ExistsPath? || v.ExistsDir? || v.ExistsDirName? || v.ExistsFile? || v.FileOption?
    ensures '(' !in ClassName(v)
  {
  }

  lemma Regroup(c: string, s: string)
    ensures c + "(" + s + ")" == c + ['('] + (s + ")")
  {
  }

  /** `str()` of an integer option reads back as that integer. */
  lemma IntegerStrRoundTrip(n: int)
    ensures ParseInt(StrOf(N(n))) == Some(n)
    ensures ParseInt(StrOf(UnsignedN(n))) == Some(n)
  {
    assert StrOf(N(n)) == PyStr(Int(n)) == IntToString(n);
    assert StrOf(UnsignedN(n)) == PyStr(Int(n));
    ParseIntRoundTrip(n);
  }

  datatype ConstructError = ValueError(message: string) | TypeError(message: string)

  /**
   * `BasicType.__init__`: keeps the value, then raises `ValueError` naming
   * it when `_check_value_valid` rejects it.
   */
  function Construct(v: OptionValue, fs: Paths.FileSystem): (r: Result<OptionValue, ConstructError>)
    ensures r.Ok? <==> CheckValid(v, fs)
    ensures r.Ok? ==> r.value == v
    ensures r.Err? ==> r.error.ValueError? && EndsWith(r.error.message, StrOf(v))
  {
    if CheckValid(v, fs) then Ok(v) else Err(ValueError("Value not valid. " + StrOf(v)))
  }

  /** Only the path types ask the file system: any other value is judged the same on every file system. */
  lemma CheckValidIgnoresFs(v: OptionValue, fs: Paths.FileSystem, fs2: Paths.FileSystem)
    requires !(v.ExistsPath? || v.ExistsDir? || v.ExistsDirName? || v.ExistsFile? || v.FileOption?)
    ensures CheckValid(v, fs) == CheckValid(v, fs2)
  {
  }

  /** A path type accepts a path exactly when the file system has it, of the kind the type asks for. */
  lemma CheckValidPaths(p: string, fs: Paths.FileSystem)
    ensures CheckValid(ExistsFile(p), fs) <==> p in fs.files
    ensures CheckValid(ExistsDir(p), fs) <==> p in fs.dirs
    ensures CheckValid(ExistsPath(p), fs) <==> p in fs.files || p in fs.dirs
  {
  }

  /**
   * `BasicType.__init__` as written: the message is built with
   * `'... %s' % value`, and when the value is a tuple `%` takes its items as
   * separate arguments, so the formatting itself raises `TypeError`.
   */
  function ConstructAsWritten(v: OptionValue, fs: Paths.FileSystem): (r: Result<OptionValue, ConstructError>)
    ensures r.Ok? <==> CheckValid(v, fs)
  {
    if CheckValid(v, fs) then Ok(v)
    else if Value(v).Tuple? && |Value(v).items| != 1 then
      Err(TypeError("not all arguments converted during string formatting"))
    else Err(ValueError("Value not valid. " + StrOf(v)))
  }

  /** A rejected unsigned pair or triple raises `TypeError` as written, not the intended `ValueError`. */
  lemma AsWrittenTupleRaisesTypeError(x: Decimal, y: Decimal, z: Decimal, fs: Paths.FileSystem)
    requires x.value < 0.0
    ensures ConstructAsWritten(UnsignedXY(x, y), fs).Err?
    ensures ConstructAsWritten(UnsignedXY(x, y), fs).error.TypeError?
    ensures ConstructAsWritten(UnsignedXYZ(x, y, z), fs).error.TypeError?
    ensures Construct(UnsignedXY(x, y), fs).error.ValueError?
  {
  }

  /** Away from the tuple values, the code as written and the corrected constructor agree. */
  lemma AsWrittenAgreesOffTuples(v: OptionValue, fs: Paths.FileSystem)
    requires !Value(v).Tuple?
    ensures ConstructAsWritten(v, fs) == Construct(v, fs)
  {
  }

  /** The unsigned types can be built exactly when no component is negative. */
  lemma UnsignedRejectsNegative(x: Decimal, y: Decimal, z: Decimal, n: int, fs: Paths.FileSystem)
    ensures Construct(UnsignedXY(x, y), fs).Ok? <==> x.value >= 0.0 && y.value >= 0.0
    ensures Construct(UnsignedXYZ(x, y, z), fs).Ok? <==> x.value >= 0.0 && y.value >= 0.0 && z.value >= 0.0
    ensures Construct(UnsignedN(n), fs).Ok? <==> n >= 0
    ensures Construct(UnsignedX(x), fs).Ok? <==> x.value >= 0.0
  {
  }

  /** The flag and the signed types accept every value and keep it. */
  lemma SignedAcceptAll(x: Decimal, y: Decimal, z: Decimal, n: int, fs: Paths.FileSystem)
    ensures Construct(Flag, fs) == Ok(Flag)
    ensures Construct(XY(x, y), fs) == Ok(XY(x, y))
    ensures Construct(XYZ(x, y, z), fs) == Ok(XYZ(x, y, z))
    ensures Construct(N(n), fs) == Ok(N(n))
    ensures Construct(X(x), fs) == Ok(X(x))
  {
  }

  /**
   * The path types: a file or a directory is an existing path, and a
   * "dir name" path needs only its parent to exist.
   */
  lemma PathChecks(p: string, fs: Paths.FileSystem)
    ensures Construct(ExistsPath(p), fs).Ok? <==> fs.Exists(p)
    ensures Construct(ExistsFile(p), fs).Ok? ==> Construct(ExistsPath(p), fs).Ok?
    ensures Construct(ExistsDir(p), fs).Ok? ==> Construct(ExistsPath(p), fs).Ok?
    ensures Construct(FileOption(p), fs).Ok? <==> Construct(ExistsFile(p), fs).Ok?
    ensures Construct(ExistsDirName(p), fs).Ok? <==> fs.Exists(Paths.Dirname(p))
  {
  }
}

=== FILE: paths.dfy ===
/**
 * POSIX `os.path` helpers (`basename`, `dirname`, `join`) and the file
 * system, seen only as the sets of paths that exist as files or directories.
 */
module Paths {
  import opened Text

  /** The file system: which paths are regular files and which are directories. */
  datatype FileSystem = FileSystem(files: set<string>, dirs: set<string>) {
    /** `os.path.exists` */
    predicate Exists(p: string) { p in files || p in dirs }
    /** `os.path.isfile` */
    predicate IsFile(p: string) { p in files }
    /** `os.path.isdir` */
    predicate IsDir(p: string) { p in dirs }
  }

  /** Index just after the last `/` of `p`, or 0 when there is none. */
  function AfterLastSlash(p: string): (i: nat)
    ensures i <= |p|
    ensures i > 0 ==> p[i - 1] == '/'
    ensures forall j :: i <= j < |p| ==> p[j] != '/'
    decreases |p|
  {
    if p == [] then 0
    else if p[|p| - 1] == '/' then |p|
    else AfterLastSlash(p[..|p| - 1])
  }

  /** `os.path.basename`: what follows the last `/`. */
  function Basename(p: string): (b: string)
    ensures '/' !in b
    ensures EndsWith(p, b)
  {
    p[AfterLastSlash(p)..]
  }

  predicate AllSlashes(s: string) {
    forall i :: 0 <= i < |s| ==> s[i] == '/'
  }

  /** `str.rstrip('/')` */
  function StripTrailingSlashes(s: string): (r: string)
    ensures |r| <= |s| && r == s[..|r|]
    decreases |s|
  {
    if s != [] && s[|s| - 1] == '/' then StripTrailingSlashes(s[..|s| - 1]) else s
  }

  /**
   * `os.path.dirname`: everything up to the last `/`, with trailing slashes
   * removed unless the head is made of slashes only.
   */
  function Dirname(p: string): string {
    var head := p[..AfterLastSlash(p)];
    if head != [] && !AllSlashes(head) then StripTrailingSlashes(head) else head
  }

  /** `os.path.join(a, b)` */
  function Join(a: string, b: string): string {
    if StartsWith(b, "/") then b
    else if a == [] || a[|a| - 1] == '/' then a + b
    else a + "/" + b
  }

  lemma {:induction false} AfterLastSlashOfAppend(x: string, n: string)
    requires x == [] || x[|x| - 1] == '/'
    requires '/' !in n
    ensures AfterLastSlash(x + n) == |x|
    decreases |n|
  {
    if n != [] {
      var y := x + n;
      assert y[|y| - 1] == n[|n| - 1];
      assert y[..|y| - 1] == x + n[..|n| - 1];
      AfterLastSlashOfAppend(x, n[..|n| - 1]);
    } else {
      assert x + n == x;
    }
  }

  /** The basename of a directory joined with a plain name is that name. */
  lemma BasenameOfJoin(dir: string, name: string)
    requires '/' !in name
    ensures Basename(Join(dir, name)) == name
  {
    if name != [] {
      assert name[0] in name;
    }
    var x := if dir == [] || dir[|dir| - 1] == '/' then dir else dir + "/";
    assert Join(dir, name) == x + name;
    AfterLastSlashOfAppend(x, name);
    assert (x + name)[|x|..] == name;
  }
}

=== FILE: prusa_cmd_tools.dfy ===
/**
 * Parsers for PrusaSlicer's console output: the line that reports where the
 * G-code was exported, and the `--info` report on a model (the
 * `manifold = yes/no` rewrite, the table-name rewrite, the split into one
 * TOML chunk per table, and the mapping of each table to a record).
 *
 * Regular expressions are matched as Python's `re` does without flags: `^`
 * is the start of the text, `.` is any character but `\n`, `*` is greedy.
 * Word characters for `\b` are the ASCII letters, digits and `_`.
 */
module PrusaCmdTools {
  import opened Wrappers
  import opened Text
  import Paths

  /*
   * ---------------------------------------------------------------------
   * Export line
   * ---------------------------------------------------------------------
   */

  const EXPORT_PREFIX: string := "Slicing result exported to "

  predicate IsWordChar(c: char) {
    ('a' <= c <= 'z') || ('A' <= c <= 'Z') || ('0' <= c <= '9') || c == '_'
  }

  /** `\b` at position `q` of `s`: a word character on exactly one side. */
  predicate AtBoundary(s: string, q: nat)
    requires q <= |s|
  {
    (q > 0 && IsWordChar(s[q - 1])) != (q < |s| && IsWordChar(s[q]))
  }

  /** No `\b` at any position from `lo` to `hi`, both included. */
  predicate NoBoundary(s: string, lo: nat, hi: nat)
    requires hi <= |s|
  {
    forall q :: lo <= q <= hi ==> !AtBoundary(s, q)
  }

  /** How many characters `.*` can take from position `p`: up to the next `\n` or the end. */
  function RunLength(s: string, p: nat): (n: nat)
    requires p <= |s|
    ensures p + n <= |s|
    ensures forall i :: p <= i < p + n ==> s[i] != '\n'
    ensures p + n < |s| ==> s[p + n] == '\n'
    decreases |s| - p
  {
    if p == |s| || s[p] == '\n' then 0 else 1 + RunLength(s, p + 1)
  }

  /** The greedy `.*` backing off: the largest `j <= k` with `\b` at `p + j`. */
  function LastBoundary(s: string, p: nat, k: nat): (r: Option<nat>)
    requires p + k <= |s|
    ensures r.Some? ==> r.value <= k && AtBoundary(s, p + r.value)
    ensures r.Some? ==> NoBoundary(s, p + r.value + 1, p + k)
    ensures r.None? ==> NoBoundary(s, p, p + k)
    decreases k
  {
    if AtBoundary(s, p + k) then Some(k)
    else if k == 0 then None
    else LastBoundary(s, p, k - 1)
  }

  /**
   * The group of `^Slicing result exported to (.*)\b`: the text must start
   * with the prefix, and the group is the longest run of the rest of that
   * line that ends at a word boundary.
   */
  function ExportCapture(s: string): (r: Option<string>)
    ensures !StartsWith(s, EXPORT_PREFIX) ==> r.None?
    ensures r.Some? ==>
      var p := |EXPORT_PREFIX|;
      StartsWith(s, EXPORT_PREFIX + r.value)
      && '\n' !in r.value
      && AtBoundary(s, p + |r.value|)
      && NoBoundary(s, p + |r.value| + 1, p + RunLength(s, p))
    ensures r.None? && StartsWith(s, EXPORT_PREFIX) ==>
      NoBoundary(s, |EXPORT_PREFIX|, |EXPORT_PREFIX| + RunLength(s, |EXPORT_PREFIX|))
  {
    if !StartsWith(s, EXPORT_PREFIX) then None
    else
      var p := |EXPORT_PREFIX|;
      match LastBoundary(s, p, RunLength(s, p))
        case None => None
        case Some(k) =>
          var c := s[p..p + k];
          assert s[..p + k] == EXPORT_PREFIX + c;
          assert forall i :: 0 <= i < k ==> c[i] == s[p + i];
          Some(c)
  }

  /** The parsed export report (the timing field is left out). */
  datatype ExportGcode = ExportGcode(outputFileName: string, outputFilePath: string, printWarning: bool)

  datatype ExportError =
    | NotFound                 // no export line: the parser raises
    | NotAFile(path: string)   // `ExistsFileType` on a path that is not a file: `ValueError`

  /**
   * `PrusaExportGcodeParser.parse`: the captured path, kept as the output
   * file path (which must be an existing file) and, with every occurrence of
   * the output directory plus separator removed, as the output file name;
   * the warning flag says whether "print warning:" occurs anywhere.
   */
  function ParseExport(result: string, outputDir: string, fs: Paths.FileSystem): (r: Result<ExportGcode, ExportError>)
    ensures !StartsWith(result, EXPORT_PREFIX) ==> r == Err(NotFound)
    ensures r.Ok? <==> ExportCapture(result).Some? && fs.IsFile(ExportCapture(result).value)
    ensures r.Ok? ==> r.value.outputFilePath == ExportCapture(result).value
    ensures r.Ok? ==> (r.value.printWarning <==> Contains(result, "print warning:"))
  {
    match ExportCapture(result)
      case None => Err(NotFound)
      case Some(path) =>
        var name := ReplaceAll(path, Paths.Join(outputDir, ""), "");
        if !fs.IsFile(path) then Err(NotAFile(path))
        else Ok(ExportGcode(name, path, Contains(result, "print warning:")))
  }

  /** A path printed with no newline inside and a word character at the end is captured whole. */
  lemma ExportCapturesPath(path: string, rest: string)
    requires path != [] && '\n' !in path && IsWordChar(path[|path| - 1])
    ensures ExportCapture(EXPORT_PREFIX + path + "\n" + rest) == Some(path)
  {
    var s := EXPORT_PREFIX + path + "\n" + rest;
    var p := |EXPORT_PREFIX|;
    Associative(EXPORT_PREFIX + path, "\n", rest);
    Layout(EXPORT_PREFIX, path, "\n" + rest);
    RunIs(s, p, |path|);
    assert AtBoundary(s, p + |path|) by {
      assert s[p + |path| - 1] == path[|path| - 1];
    }
  }

  /** Where `x` sits in `a + x + z`. */
  lemma Layout(a: string, x: string, z: string)
    ensures StartsWith(a + x + z, a)
    ensures (a + x + z)[|a|..|a| + |x|] == x
    ensures forall i :: 0 <= i < |x| ==> (a + x + z)[|a| + i] == x[i]
    ensures z != [] ==> (a + x + z)[|a| + |x|] == z[0]
  {
    assert (a + x + z)[..|a|] == a;
  }

  /** The run from `p` ends at the first newline. */
  lemma RunIs(s: string, p: nat, n: nat)
    requires p + n < |s| && s[p + n] == '\n'
    requires forall i :: p <= i < p + n ==> s[i] != '\n'
    ensures RunLength(s, p) == n
  {
  }

  /** Joining a plain name to a directory appends it to the directory plus separator. */
  lemma JoinUnderDir(dir: string, name: string)
    requires dir != [] && '/' !in name
    ensures Paths.Join(dir, "") != [] && Paths.Join(dir, "")[|Paths.Join(dir, "")| - 1] == '/'
    ensures Paths.Join(dir, name) == Paths.Join(dir, "") + name
  {
    if name != [] {
      assert name[0] in name;
    }
    assert !StartsWith("", "/");
    if dir[|dir| - 1] == '/' {
      assert Paths.Join(dir, "") == dir + "";
      assert dir + "" == dir;
    } else {
      assert Paths.Join(dir, "") == dir + "/" + "";
      assert dir + "/" + "" == dir + "/";
    }
  }

  /**
   * Stripping the output directory: a file named `name` (no `/` in it) in
   * `dir` is reported under its name alone.
   */
  lemma StripOutputDir(dir: string, name: string)
    requires dir != [] && '/' !in name
    ensures ReplaceAll(Paths.Join(dir, name), Paths.Join(dir, ""), "") == name
  {
    var d := Paths.Join(dir, "");
    JoinUnderDir(dir, name);
    if Contains(d[..|d| - 1], d) {
      ContainsNotShorter(d[..|d| - 1], d);
    }
    assert [] + d[..|d| - 1] == d[..|d| - 1];
    assert [] + d + name == d + name;
    ReplaceFirst([], d, name, []);
    if Contains(name, d) {
      ContainsChar(name, d, |d| - 1);
    }
    ReplaceAbsent(name, d, []);
  }

  /**
   * What the slicer prints for a file `name` exported into `dir` parses
   * back to that name, with the full path kept as the output file path.
   */
  lemma ExportRoundTrip(dir: string, name: string, rest: string, fs: Paths.FileSystem)
    requires dir != [] && '\n' !in dir
    requires name != [] && '/' !in name && '\n' !in name && IsWordChar(name[|name| - 1])
    requires fs.IsFile(Paths.Join(dir, name))
    ensures ParseExport(EXPORT_PREFIX + Paths.Join(dir, name) + "\n" + rest, dir, fs)
            == Ok(ExportGcode(name, Paths.Join(dir, name),
                              Contains(EXPORT_PREFIX + Paths.Join(dir, name) + "\n" + rest, "print warning:")))
  {
    var path := Paths.Join(dir, name);
    var d := Paths.Join(dir, "");
    JoinUnderDir(dir, name);
    assert '\n' !in path;
    assert path[|path| - 1] == name[|name| - 1];
    ExportCapturesPath(path, rest);
    StripOutputDir(dir, name);
  }

  /*
   * ---------------------------------------------------------------------
   * Info report: manifold flags
   * ---------------------------------------------------------------------
   */

  const MANIFOLD_NO: string := "manifold = no"
  const MANIFOLD_YES: string := "manifold = yes"
  const MANIFOLD_FALSE: string := "manifold = false"
  const MANIFOLD_TRUE: string := "manifold = true"

  /** `_replace_manifold`: every "manifold = no" becomes "manifold = false", then every "manifold = yes" becomes "manifold = true". */
  function ReplaceManifold(s: string): (r: string)
    ensures |r| >= |s|
    ensures !Contains(s, MANIFOLD_NO) && !Contains(s, MANIFOLD_YES) ==> r == s
  {
    ReplaceGrows(s, MANIFOLD_NO, MANIFOLD_FALSE);
    ReplaceGrows(ReplaceAll(s, MANIFOLD_NO, MANIFOLD_FALSE), MANIFOLD_YES, MANIFOLD_TRUE);
    ReplaceBothAbsent(s);
    ReplaceAll(ReplaceAll(s, MANIFOLD_NO, MANIFOLD_FALSE), MANIFOLD_YES, MANIFOLD_TRUE)
  }

  lemma ReplaceBothAbsent(s: string)
    ensures !Contains(s, MANIFOLD_NO) && !Contains(s, MANIFOLD_YES) ==>
      ReplaceAll(ReplaceAll(s, MANIFOLD_NO, MANIFOLD_FALSE), MANIFOLD_YES, MANIFOLD_TRUE) == s
  {
    if !Contains(s, MANIFOLD_NO) && !Contains(s, MANIFOLD_YES) {
      ReplaceAbsent(s, MANIFOLD_NO, MANIFOLD_FALSE);
      ReplaceAbsent(s, MANIFOLD_YES, MANIFOLD_TRUE);
    }
  }

  lemma {:induction false} ContainsPrefix(t: string, p: string, q: string)
    requires Contains(t, p + q)
    ensures Contains(t, p)
    decreases |t|
  {
    if StartsWith(t, p + q) {
      assert t[..|p|] == (p + q)[..|p|] == p;
    } else {
      ContainsPrefix(t[1..], p, q);
    }
  }

  /** A report with no "manifold = " in it is left as it is. */
  lemma ManifoldUntouched(s: string)
    requires !Contains(s, "manifold = ")
    ensures ReplaceManifold(s) == s
  {
    if Contains(s, MANIFOLD_NO) {
      assert MANIFOLD_NO == "manifold = " + "no";
      ContainsPrefix(s, "manifold = ", "no");
    }
    ReplaceAbsent(s, MANIFOLD_NO, MANIFOLD_FALSE);
    if Contains(s, MANIFOLD_YES) {
      assert MANIFOLD_YES == "manifold = " + "yes";
      ContainsPrefix(s, "manifold = ", "yes");
    }
    ReplaceAbsent(s, MANIFOLD_YES, MANIFOLD_TRUE);
  }

  /** No occurrence of a pattern starting with `m` starts inside `a` past its first character, when `a` has no other `m`. */
  lemma NoStartInside(a: string, b: string, p: string)
    requires a != [] && p != [] && p[0] == 'm'
    requires forall i :: 1 <= i < |a| ==> a[i] != 'm'
    requires !StartsWith(a + b, p)
    ensures forall i :: 0 <= i < |a| ==> !StartsWith((a + b)[i..], p)
  {
    forall i | 0 <= i < |a|
      ensures !StartsWith((a + b)[i..], p)
    {
      if i == 0 {
        assert (a + b)[0..] == a + b;
      }
    }
  }

  /** A leading "manifold = no" is rewritten to "manifold = false", and the rest is rewritten on its own. */
  lemma ManifoldNo(b: string)
    ensures ReplaceManifold(MANIFOLD_NO + b) == MANIFOLD_FALSE + ReplaceManifold(b)
  {
    var t := MANIFOLD_NO + b;
    assert StartsWith(t, MANIFOLD_NO) && t[|MANIFOLD_NO|..] == b;
    var r1 := ReplaceAll(b, MANIFOLD_NO, MANIFOLD_FALSE);
    assert ReplaceAll(t, MANIFOLD_NO, MANIFOLD_FALSE) == MANIFOLD_FALSE + r1;
    assert (MANIFOLD_FALSE + r1)[11] == 'f' != MANIFOLD_YES[11];
    NoStartInside(MANIFOLD_FALSE, r1, MANIFOLD_YES);
    ReplaceSkip(MANIFOLD_FALSE, r1, MANIFOLD_YES, MANIFOLD_TRUE);
  }

  /** A leading "manifold = yes" is rewritten to "manifold = true", and the rest is rewritten on its own. */
  lemma ManifoldYes(b: string)
    ensures ReplaceManifold(MANIFOLD_YES + b) == MANIFOLD_TRUE + ReplaceManifold(b)
  {
    var t := MANIFOLD_YES + b;
    assert t[11] == 'y' != MANIFOLD_NO[11];
    NoStartInside(MANIFOLD_YES, b, MANIFOLD_NO);
    ReplaceSkip(MANIFOLD_YES, b, MANIFOLD_NO, MANIFOLD_FALSE);
    var r1 := ReplaceAll(b, MANIFOLD_NO, MANIFOLD_FALSE);
    var u := MANIFOLD_YES + r1;
    assert StartsWith(u, MANIFOLD_YES) && u[|MANIFOLD_YES|..] == r1;
  }

  /** Any other first character is kept, and the rest is rewritten on its own. */
  lemma ManifoldOther(c: char, b: string)
    requires !StartsWith([c] + b, MANIFOLD_NO) && !StartsWith([c] + b, MANIFOLD_YES)
    ensures ReplaceManifold([c] + b) == [c] + ReplaceManifold(b)
  {
    var t := [c] + b;
    assert t[1..] == b;
    var r1 := ReplaceAll(b, MANIFOLD_NO, MANIFOLD_FALSE);
    assert ReplaceAll(t, MANIFOLD_NO, MANIFOLD_FALSE) == [c] + r1;
    var u := [c] + r1;
    assert u[1..] == r1;
    if StartsWith(u, MANIFOLD_YES) {
      var w := MANIFOLD_YES[1..];
      assert StartsWith(r1, w) by {
        assert r1[..|w|] == u[1..|MANIFOLD_YES|];
      }
      assert w == "anifold = yes";
      NoFalseInside(b, w);
      assert false;
    }
  }

  /**
   * Rewriting "manifold = no" puts no new text in front of anything that
   * holds no `m`: a prefix without `m` of the rewritten text was already
   * a prefix of the text.
   */
  lemma {:induction false} NoFalseInside(b: string, w: string)
    requires forall i :: 0 <= i < |w| ==> w[i] != 'm'
    requires StartsWith(ReplaceAll(b, MANIFOLD_NO, MANIFOLD_FALSE), w)
    ensures StartsWith(b, w)
    decreases |b|
  {
    var r1 := ReplaceAll(b, MANIFOLD_NO, MANIFOLD_FALSE);
    if w != [] {
      RewrittenNoStartsWithM(b);
      assert !StartsWith(b, MANIFOLD_NO);
      assert b != [];
      var r2 := ReplaceAll(b[1..], MANIFOLD_NO, MANIFOLD_FALSE);
      assert r1 == [b[0]] + r2;
      assert StartsWith(r2, w[1..]) by {
        assert r2[..|w| - 1] == r1[1..|w|];
      }
      NoFalseInside(b[1..], w[1..]);
      assert b[..|w|] == [b[0]] + b[1..][..|w| - 1];
    }
  }

  /** Text that starts with "manifold = no" is rewritten to text starting with `m`. */
  lemma RewrittenNoStartsWithM(b: string)
    ensures StartsWith(b, MANIFOLD_NO) ==>
      var r := ReplaceAll(b, MANIFOLD_NO, MANIFOLD_FALSE); r != [] && r[0] == 'm'
  {
    if StartsWith(b, MANIFOLD_NO) {
      var r := ReplaceAll(b, MANIFOLD_NO, MANIFOLD_FALSE);
      assert r == MANIFOLD_FALSE + ReplaceAll(b[|MANIFOLD_NO|..], MANIFOLD_NO, MANIFOLD_FALSE);
      assert r[0] == MANIFOLD_FALSE[0];
    }
  }

  /*
   * ---------------------------------------------------------------------
   * Info report: table names
   * ---------------------------------------------------------------------
   */

  /**
   * The match of `\[(.*)\]` on one line: from the first `[` to the last `]`
   * after it, greedily. A line has at most one.
   */
  function TableNameOf(line: string): (r: Option<string>)
    ensures '[' !in line ==> r.None?
  {
    match (IndexOf(line, '['), LastIndexOf(line, ']'))
      case (Some(i), Some(j)) => if i < j then Some(line[i + 1..j]) else None
      case _ => None
  }

  /** `re.findall(r'\[(.*)\]', s)`: one name per line that has a match, in line order. */
  function TableNames(lines: seq<string>): (r: seq<string>)
    ensures |r| <= |lines|
    decreases |lines|
  {
    if lines == [] then []
    else
      var last := lines[|lines| - 1];
      TableNames(lines[..|lines| - 1]) + (match TableNameOf(last) case Some(n) => [n] case None => [])
  }

  /** A table name with every space and every dot turned into `_`. */
  function Underscored(name: string): (r: string)
    ensures |r| == |name|
    ensures forall i :: 0 <= i < |name| ==> r[i] == if name[i] == ' ' || name[i] == '.' then '_' else name[i]
  {
    seq(|name|, i requires 0 <= i < |name| => if name[i] == ' ' || name[i] == '.' then '_' else name[i])
  }

  /** The two single-character replaces of the inner loop give `Underscored`. */
  lemma {:induction false} UnderscoredByReplace(name: string)
    ensures ReplaceAll(ReplaceAll(name, " ", "_"), ".", "_") == Underscored(name)
    decreases |name|
  {
    if name != [] {
      UnderscoredByReplace(name[1..]);
      var r1 := ReplaceAll(name, " ", "_");
      ReplaceCharStep(name, ' ', '_');
      Uncons(r1, if name[0] == ' ' then '_' else name[0], ReplaceAll(name[1..], " ", "_"));
      ReplaceCharStep(r1, '.', '_');
      UnderscoredCons(name);
    }
  }

  lemma Uncons<T>(s: seq<T>, x: T, rest: seq<T>)
    requires s == [x] + rest
    ensures s != [] && s[0] == x && s[1..] == rest
  {
  }

  lemma UnderscoredCons(name: string)
    requires name != []
    ensures Underscored(name) == [if name[0] == ' ' || name[0] == '.' then '_' else name[0]] + Underscored(name[1..])
  {
  }

  /** Renaming every found name in turn, across the whole text. */
  function RenameAll(s: string, names: seq<string>): string
    decreases |names|
  {
    if names == [] then s
    else
      var n := names[|names| - 1];
      ReplaceAll(RenameAll(s, names[..|names| - 1]), n, Underscored(n))
  }

  /** `_replace_table_name`: finds the table names, then renames each everywhere in the text. */
  method ReplaceTableNames(cmdResult: string) returns (result: string)
    ensures result == RenameAll(cmdResult, TableNames(Split(cmdResult, '\n')))
    ensures |result| == |cmdResult|
  {
    result := cmdResult;
    var found := TableNames(Split(cmdResult, '\n'));
    var i := 0;
    while i < |found|
      invariant 0 <= i <= |found|
      invariant result == RenameAll(cmdResult, found[..i])
      invariant |result| == |cmdResult|
    {
      assert found[..i + 1][..i] == found[..i];
      var tableName := found[i];
      var renamed := ReplaceAll(ReplaceAll(tableName, " ", "_"), ".", "_");
      UnderscoredByReplace(tableName);
      ReplaceSameLength(result, tableName, renamed);
      result := ReplaceAll(result, tableName, renamed);
      i := i + 1;
    }
    assert found[..i] == found;
  }

  /** A text without `[` has no table names, so it is left as it is. */
  lemma {:induction false} NoBracketNoTables(lines: seq<string>)
    requires forall i :: 0 <= i < |lines| ==> '[' !in lines[i]
    ensures TableNames(lines) == []
    decreases |lines|
  {
    if lines != [] {
      NoBracketNoTables(lines[..|lines| - 1]);
    }
  }

  lemma {:induction false} SplitNoChar(s: string, sep: char, c: char)
    requires c !in s
    ensures forall i :: 0 <= i < |Split(s, sep)| ==> c !in Split(s, sep)[i]
    decreases |s|
  {
    if s != [] {
      SplitNoChar(s[1..], sep, c);
    }
  }

  /** `_replace_table_name` leaves a text without `[` unchanged. */
  lemma NoBracketUnchanged(s: string)
    requires '[' !in s
    ensures RenameAll(s, TableNames(Split(s, '\n'))) == s
  {
    SplitNoChar(s, '\n', '[');
    NoBracketNoTables(Split(s, '\n'));
  }

  /** Names already free of spaces and dots rename to themselves, so they change nothing. */
  lemma {:induction false} RenameClean(s: string, names: seq<string>)
    requires forall i :: 0 <= i < |names| ==> ' ' !in names[i] && '.' !in names[i]
    ensures RenameAll(s, names) == s
    decreases |names|
  {
    if names != [] {
      var n := names[|names| - 1];
      RenameClean(s, names[..|names| - 1]);
      assert Underscored(n) == n;
      ReplaceSelf(s, n);
    }
  }

  /** The single line `[name]` holds the one table name `name`. */
  lemma SingleTableFound(name: string)
    requires '[' !in name && ']' !in name && '\n' !in name
    ensures TableNames(Split("[" + name + "]", '\n')) == [name]
  {
    var line := "[" + name + "]";
    assert '\n' !in line;
    SplitNoNewline(line);
    assert IndexOf(line, '[') == Some(0);
    assert LastIndexOf(line, ']') == Some(|line| - 1);
    assert line[1..|line| - 1] == name;
    var none: seq<string> := [];
    assert [line][..0] == none;
  }

  /** Renaming `name` inside `[name]` touches only the name. */
  lemma SingleTableReplaced(name: string)
    requires name != [] && '[' !in name && ']' !in name
    ensures ReplaceAll("[" + name + "]", name, Underscored(name)) == "[" + Underscored(name) + "]"
  {
    var a := "[" + name[..|name| - 1];
    if Contains(a, name) {
      ContainsSameLength(a, name);
    }
    ReplaceFirst("[", name, "]", Underscored(name));
    if Contains("]", name) {
      ContainsNotShorter("]", name);
      ContainsSameLength("]", name);
    }
    ReplaceAbsent("]", name, Underscored(name));
  }

  /** A report made of the single table header `[name]` becomes `[Underscored(name)]`. */
  lemma SingleTableRenamed(name: string)
    requires name != [] && '[' !in name && ']' !in name && '\n' !in name
    ensures RenameAll("[" + name + "]", TableNames(Split("[" + name + "]", '\n'))) == "[" + Underscored(name) + "]"
  {
    SingleTableFound(name);
    SingleTableReplaced(name);
    var noNames: seq<string> := [];
    assert [name][..0] == noNames;
  }

  /** A text without the separator splits into itself alone. */
  lemma {:induction false} SplitNoNewline(s: string)
    requires '\n' !in s
    ensures Split(s, '\n') == [s]
    decreases |s|
  {
    if s != [] {
      SplitNoNewline(s[1..]);
      assert [s[0]] + s[1..] == s;
    }
  }

  /*
   * ---------------------------------------------------------------------
   * Info report: chunks
   * ---------------------------------------------------------------------
   */

  /** The chunker's state: the chunks yielded so far and the text accumulated since. */
  datatype ChunkState = ChunkState(yielded: seq<string>, acc: string)

  /** The state after the chunker has seen `lines`. */
  function ChunkScan(lines: seq<string>): ChunkState
    decreases |lines|
  {
    if lines == [] then ChunkState([], "")
    else
      var st := ChunkScan(lines[..|lines| - 1]);
      var line := lines[|lines| - 1];
      if StartsWith(line, "[") && st.acc != [] then ChunkState(st.yielded + [st.acc], line + "\n")
      else ChunkState(st.yielded, st.acc + line + "\n")
  }

  /** The chunks of `_generate_info_table` for the given lines: the yielded ones, then the rest. */
  function InfoChunksOf(lines: seq<string>): seq<string> {
    var st := ChunkScan(lines);
    st.yielded + [st.acc]
  }

  /**
   * `_generate_info_table`: each line, with its `\n`, joins the current
   * chunk; a line starting with `[` first closes a non-empty chunk.
   */
  method InfoChunks(cmdResult: string) returns (chunks: seq<string>)
    ensures chunks == InfoChunksOf(Split(cmdResult, '\n'))
  {
    var lines := Split(cmdResult, '\n');
    var accumulate: string := "";
    chunks := [];
    var i := 0;
    while i < |lines|
      invariant 0 <= i <= |lines|
      invariant ChunkScan(lines[..i]) == ChunkState(chunks, accumulate)
    {
      assert lines[..i + 1][..i] == lines[..i];
      var line := lines[i];
      if StartsWith(line, "[") && accumulate != [] {
        chunks := chunks + [accumulate];
        accumulate := "";
      }
      accumulate := accumulate + line + "\n";
      i := i + 1;
    }
    assert lines[..i] == lines;
    chunks := chunks + [accumulate];
  }

  /** Every line followed by `\n`, in order. */
  function Terminated(lines: seq<string>): string
    decreases |lines|
  {
    if lines == [] then [] else Terminated(lines[..|lines| - 1]) + lines[|lines| - 1] + "\n"
  }

  /** Concatenating the chunks gives every line back, each followed by `\n`. */
  lemma {:induction false} ChunksConcat(lines: seq<string>)
    ensures Concat(InfoChunksOf(lines)) == Terminated(lines)
    decreases |lines|
  {
    if lines == [] {
      assert InfoChunksOf(lines) == [""];
      ConcatOne("");
    } else {
      var init, line := lines[..|lines| - 1], lines[|lines| - 1];
      var st := ChunkScan(init);
      ChunksConcat(init);
      if StartsWith(line, "[") && st.acc != [] {
        ChunksYield(lines);
        ConcatSnoc(InfoChunksOf(init), line + "\n");
      } else {
        ChunksGrow(lines);
        ConcatGrow(st.yielded, st.acc, line + "\n");
      }
      TerminatedSnoc(lines);
    }
  }

  lemma ConcatOne<T>(x: seq<T>)
    ensures Concat([x]) == x
  {
    assert [x][..0] == [];
  }

  lemma ConcatSnoc<T>(xs: seq<seq<T>>, x: seq<T>)
    ensures Concat(xs + [x]) == Concat(xs) + x
  {
    assert (xs + [x])[..|xs|] == xs;
  }

  /** Text added to the last piece is added to the end of the concatenation. */
  lemma ConcatGrow<T>(done: seq<seq<T>>, last: seq<T>, extra: seq<T>)
    ensures Concat(done + [last + extra]) == Concat(done + [last]) + extra
  {
    ConcatSnoc(done, last + extra);
    ConcatSnoc(done, last);
  }

  lemma TerminatedSnoc(lines: seq<string>)
    requires lines != []
    ensures Terminated(lines) == Terminated(lines[..|lines| - 1]) + (lines[|lines| - 1] + "\n")
  {
    Associative(Terminated(lines[..|lines| - 1]), lines[|lines| - 1], "\n");
  }

  /** Lines terminated one by one are the text joined with `\n`, plus a final `\n`. */
  lemma {:induction false} TerminatedJoin(lines: seq<string>)
    requires lines != []
    ensures Terminated(lines) == Join(lines, "\n") + "\n"
    decreases |lines|
  {
    var tail := lines[1..];
    assert [lines[0]] + tail == lines;
    TerminatedCons(lines[0], tail);
    if |lines| > 1 {
      TerminatedJoin(tail);
    }
  }

  lemma {:induction false} TerminatedCons(first: string, rest: seq<string>)
    ensures Terminated([first] + rest) == first + "\n" + Terminated(rest)
    decreases |rest|
  {
    if rest == [] {
      assert [first] + rest == [first];
      assert [first][..0] == [];
    } else {
      var init := rest[..|rest| - 1];
      TerminatedCons(first, init);
      assert ([first] + rest)[..|rest|] == [first] + init;
    }
  }

  /** The chunks of a report, concatenated, are the report followed by `\n`. */
  lemma ChunksCoverText(s: string)
    ensures Concat(InfoChunksOf(Split(s, '\n'))) == s + "\n"
  {
    ChunksConcat(Split(s, '\n'));
    TerminatedJoin(Split(s, '\n'));
    JoinSplit(s, '\n');
  }

  /** Every chunk after the first starts with `[`, and every chunk ends with `\n`. */
  predicate Shaped(chunks: seq<string>) {
    && (forall i :: 1 <= i < |chunks| ==> StartsWith(chunks[i], "["))
    && (forall i :: 0 <= i < |chunks| ==> EndsWith(chunks[i], "\n"))
  }

  /** The chunks of any non-empty list of lines are shaped. */
  lemma {:induction false} ChunksShape(lines: seq<string>)
    requires lines != []
    ensures Shaped(InfoChunksOf(lines))
    decreases |lines|
  {
    var init := lines[..|lines| - 1];
    if init == [] {
      var last := lines[0] + "\n";
      assert EndsWith(last, "\n") by {
        assert last[|last| - 1..] == "\n";
      }
      assert InfoChunksOf(lines) == [last] by {
        assert ChunkScan(init) == ChunkState([], "");
        assert "" + lines[0] + "\n" == last;
      }
    } else {
      ChunksShape(init);
      ChunksShapeStep(lines);
    }
  }

  /** One more line keeps the chunks shaped. */
  lemma ChunksShapeStep(lines: seq<string>)
    requires |lines| > 1 && Shaped(InfoChunksOf(lines[..|lines| - 1]))
    ensures Shaped(InfoChunksOf(lines))
  {
    var init, line := lines[..|lines| - 1], lines[|lines| - 1];
    var st := ChunkScan(init);
    Terminates(line);
    if StartsWith(line, "[") && st.acc != [] {
      StillStarts(line);
      ChunksYield(lines);
      ShapedPush(InfoChunksOf(init), line + "\n");
    } else {
      ChunksGrow(lines);
      ShapedGrow(st.yielded, st.acc, line + "\n");
    }
  }

  lemma Terminates(line: string)
    ensures EndsWith(line + "\n", "\n")
  {
    var last := line + "\n";
    assert last[|last| - 1..] == "\n";
  }

  lemma StillStarts(line: string)
    requires StartsWith(line, "[")
    ensures StartsWith(line + "\n", "[")
  {
    assert (line + "\n")[..1] == line[..1];
  }

  /** A line starting with `[` closes the non-empty chunk so far and opens a new one. */
  lemma ChunksYield(lines: seq<string>)
    requires lines != []
    requires var st := ChunkScan(lines[..|lines| - 1]);
      StartsWith(lines[|lines| - 1], "[") && st.acc != []
    ensures InfoChunksOf(lines) == InfoChunksOf(lines[..|lines| - 1]) + [lines[|lines| - 1] + "\n"]
  {
  }

  /** Any other line joins the current chunk. */
  lemma ChunksGrow(lines: seq<string>)
    requires lines != []
    requires var st := ChunkScan(lines[..|lines| - 1]);
      !(StartsWith(lines[|lines| - 1], "[") && st.acc != [])
    ensures var st := ChunkScan(lines[..|lines| - 1]);
      && InfoChunksOf(lines[..|lines| - 1]) == st.yielded + [st.acc]
      && InfoChunksOf(lines) == st.yielded + [st.acc + (lines[|lines| - 1] + "\n")]
  {
    var st := ChunkScan(lines[..|lines| - 1]);
    var line := lines[|lines| - 1];
    assert st.acc + line + "\n" == st.acc + (line + "\n");
  }

  /** A new chunk that starts with `[` and ends with `\n` keeps the chunks shaped. */
  lemma ShapedPush(chunks: seq<string>, c: string)
    requires Shaped(chunks) && StartsWith(c, "[") && EndsWith(c, "\n")
    ensures Shaped(chunks + [c])
  {
  }

  /** Text ending with `\n` added to the last chunk keeps the chunks shaped. */
  lemma ShapedGrow(done: seq<string>, acc: string, extra: string)
    requires Shaped(done + [acc]) && EndsWith(extra, "\n")
    ensures Shaped(done + [acc + extra])
  {
    var grown := acc + extra;
    assert EndsWith(grown, "\n") by {
      assert grown[|grown| - 1..] == extra[|extra| - 1..];
    }
    if done != [] {
      assert (done + [acc])[|done|] == acc;
      assert StartsWith(grown, "[") by {
        assert grown[..1] == acc[..1];
      }
    }
    assert forall i :: 0 <= i < |done| ==> (done + [grown])[i] == (done + [acc])[i];
  }

  /** The lines after the first that start with `[`. */
  function BracketLines(lines: seq<string>): nat
    decreases |lines|
  {
    if |lines| <= 1 then 0
    else BracketLines(lines[..|lines| - 1]) + (if StartsWith(lines[|lines| - 1], "[") then 1 else 0)
  }

  /** One chunk, plus one more for every line after the first that starts with `[`. */
  lemma {:induction false} ChunksCount(lines: seq<string>)
    ensures |InfoChunksOf(lines)| == 1 + BracketLines(lines)
    ensures lines != [] ==> ChunkScan(lines).acc != []
    decreases |lines|
  {
    if lines != [] {
      ChunksCount(lines[..|lines| - 1]);
    }
  }

  /*
   * ---------------------------------------------------------------------
   * Info report: records
   * ---------------------------------------------------------------------
   */

  /** The fields read from each table, in the order of the record. */
  const INFO_KEYS: seq<string> := [
    "size_x", "size_y", "size_z", "min_x", "min_y", "min_z", "max_x", "max_y", "max_z",
    "number_of_facets", "manifold", "open_edges", "facets_reversed", "backwards_edges",
    "number_of_parts", "volume"]

  /** A top-level TOML entry: a table of fields, or any other value. */
  datatype TomlEntry<V> = Table(fields: map<string, V>) | Scalar(value: V)

  /** One model's record: the table key and the values of `INFO_KEYS`, in order. */
  datatype InfoRecord<V> = InfoRecord(fileName: string, fields: seq<V>)

  datatype InfoError =
    | BadToml                 // `tomllib.TOMLDecodeError`
    | NotATable(key: string)  // subscripting a non-table value
    | MissingKey(key: string) // `KeyError`

  /** The values of `keys` in `fields`, in order; the first missing key is the error. */
  function FieldValues<V>(fields: map<string, V>, keys: seq<string>): (r: Result<seq<V>, InfoError>)
    ensures r.Ok? <==> forall i :: 0 <= i < |keys| ==> keys[i] in fields
    ensures r.Ok? ==> |r.value| == |keys| && forall i :: 0 <= i < |keys| ==> r.value[i] == fields[keys[i]]
    decreases |keys|
  {
    if keys == [] then Ok([])
    else if keys[0] !in fields then Err(MissingKey(keys[0]))
    else
      var rest :- FieldValues(fields, keys[1..]);
      Ok([fields[keys[0]]] + rest)
  }

  /** The records of one parsed chunk, one per top-level entry, in document order. */
  function ChunkRecords<V>(entries: seq<(string, TomlEntry<V>)>): (r: Result<seq<InfoRecord<V>>, InfoError>)
    ensures r.Ok? ==> |r.value| == |entries|
    ensures r.Ok? ==> forall i :: 0 <= i < |entries| ==> r.value[i].fileName == entries[i].0
    decreases |entries|
  {
    if entries == [] then Ok([])
    else
      var head :- EntryRecord(entries[0].0, entries[0].1);
      var rest :- ChunkRecords(entries[1..]);
      Ok([head] + rest)
  }

  /** The record of one top-level entry: `table[key]` must be a table holding every key of `INFO_KEYS`. */
  function EntryRecord<V>(key: string, entry: TomlEntry<V>): (r: Result<InfoRecord<V>, InfoError>)
    ensures r.Ok? ==> r.value.fileName == key
  {
    match entry
      case Scalar(_) => Err(NotATable(key))
      case Table(fields) =>
        var values :- FieldValues(fields, INFO_KEYS);
        Ok(InfoRecord(key, values))
  }

  /** The records of all chunks, chunk after chunk; `toml` is `tomllib.loads`. */
  function InfoRecords<V>(chunks: seq<string>, toml: string -> Option<seq<(string, TomlEntry<V>)>>)
    : Result<seq<InfoRecord<V>>, InfoError>
    decreases |chunks|
  {
    if chunks == [] then Ok([])
    else
      var prev :- InfoRecords(chunks[..|chunks| - 1], toml);
      match toml(chunks[|chunks| - 1])
        case None => Err(BadToml)
        case Some(entries) =>
          var recs :- ChunkRecords(entries);
          Ok(prev + recs)
  }

  /** The table keys of one parsed chunk, in document order. */
  function EntryKeys<V>(entries: seq<(string, TomlEntry<V>)>): (r: seq<string>)
    ensures |r| == |entries| && forall i :: 0 <= i < |entries| ==> r[i] == entries[i].0
    decreases |entries|
  {
    if entries == [] then [] else [entries[0].0] + EntryKeys(entries[1..])
  }

  /** The table keys of all chunks, in chunk order then document order. */
  function AllKeys<V>(chunks: seq<string>, toml: string -> Option<seq<(string, TomlEntry<V>)>>): seq<string>
    decreases |chunks|
  {
    if chunks == [] then []
    else
      var prev := AllKeys(chunks[..|chunks| - 1], toml);
      match toml(chunks[|chunks| - 1])
        case None => prev
        case Some(entries) => prev + EntryKeys(entries)
  }

  /** Each record carries the key at the same position. */
  predicate Named<V>(records: seq<InfoRecord<V>>, keys: seq<string>) {
    |records| == |keys| && forall i :: 0 <= i < |keys| ==> records[i].fileName == keys[i]
  }

  /** One record per table, in chunk order, each named by its table key. */
  lemma {:induction false} RecordsFollowKeys<V>(chunks: seq<string>, toml: string -> Option<seq<(string, TomlEntry<V>)>>)
    requires InfoRecords(chunks, toml).Ok?
    ensures Named(InfoRecords(chunks, toml).value, AllKeys(chunks, toml))
    decreases |chunks|
  {
    if chunks != [] {
      var init := chunks[..|chunks| - 1];
      var doc := toml(chunks[|chunks| - 1]);
      RecordsFollowKeys(init, toml);
      if doc.Some? {
        var recs := ChunkRecords(doc.value);
        assert InfoRecords(chunks, toml).value == InfoRecords(init, toml).value + recs.value;
        assert AllKeys(chunks, toml) == AllKeys(init, toml) + EntryKeys(doc.value);
        assert Named(recs.value, EntryKeys(doc.value));
        NamedConcat(InfoRecords(init, toml).value, recs.value, AllKeys(init, toml), EntryKeys(doc.value));
      }
    }
  }

  lemma NamedConcat<V>(a: seq<InfoRecord<V>>, b: seq<InfoRecord<V>>, ka: seq<string>, kb: seq<string>)
    requires Named(a, ka) && Named(b, kb)
    ensures Named(a + b, ka + kb)
  {
  }

  lemma {:induction false} InfoRecordsErr<V>(chunks: seq<string>, i: nat, toml: string -> Option<seq<(string, TomlEntry<V>)>>)
    requires i <= |chunks|
    requires InfoRecords(chunks[..i], toml).Err?
    ensures InfoRecords(chunks, toml) == InfoRecords(chunks[..i], toml)
    decreases |chunks|
  {
    if i < |chunks| {
      assert chunks[..|chunks| - 1][..i] == chunks[..i];
      InfoRecordsErr(chunks[..|chunks| - 1], i, toml);
    } else {
      assert chunks[..i] == chunks;
    }
  }

  /**
   * `PrusaGetInfoAboutModelParser.parse`: rewrite the manifold flags, then
   * the table names, cut the text into chunks and map every table of every
   * chunk to a record.
   */
  method ParseInfo<V>(cmdResult: string, toml: string -> Option<seq<(string, TomlEntry<V>)>>)
    returns (r: Result<seq<InfoRecord<V>>, InfoError>)
    ensures r == InfoRecords(InfoChunksOf(Split(RenameAll(ReplaceManifold(cmdResult),
                                                           TableNames(Split(ReplaceManifold(cmdResult), '\n'))), '\n')), toml)
  {
    var text := ReplaceManifold(cmdResult);
    text := ReplaceTableNames(text);
    var chunks := InfoChunks(text);
    var result: seq<InfoRecord<V>> := [];
    for i := 0 to |chunks|
      invariant InfoRecords(chunks[..i], toml) == Ok(result)
    {
      InfoRecordsNext(chunks, i, toml);
      var doc := toml(chunks[i]);
      if doc.None? {
        InfoRecordsErr(chunks, i + 1, toml);
        return Err(BadToml);
      }
      var recs := ChunkRecords(doc.value);
      if recs.Err? {
        InfoRecordsErr(chunks, i + 1, toml);
        return Err(recs.error);
      }
      result := result + recs.value;
    }
    assert chunks[..|chunks|] == chunks;
    return Ok(result);
  }

  /** One more chunk for the record loop. */
  lemma InfoRecordsNext<V>(chunks: seq<string>, i: nat, toml: string -> Option<seq<(string, TomlEntry<V>)>>)
    requires i < |chunks| && InfoRecords(chunks[..i], toml).Ok?
    ensures InfoRecords(chunks[..i + 1], toml)
            == match toml(chunks[i])
               case None => Err(BadToml)
               case Some(entries) =>
                 (match ChunkRecords(entries)
                  case Err(e) => Err(e)
                  case Ok(recs) => Ok(InfoRecords(chunks[..i], toml).value + recs))
  {
    assert chunks[..i + 1][..i] == chunks[..i];
  }
}

=== FILE: prusa_options.dfy ===
/**
 * PrusaSlicer's option holders and the serialiser that turns their
 * attributes into command-line tokens: a `--kebab-name` for every option,
 * followed by its argument unless the option is a flag.
 */
module PrusaOptions {
  import opened Wrappers
  import opened Text
  import opened OptionTypes
  import opened SlicerOptions

  /** `PrusaSlicerPriorityOptions`: `prusa-slicer [ ACTIONS ] [ TRANSFORM ] [ OPTIONS ] [ file.stl ... ]`. */
  datatype PriorityLevel = Actions | Transform | OtherOptions | Options | Other {
    /** The enum member's value. */
    function Rank(): nat {
      match this
      case Actions => 0
      case Transform => 1
      case OtherOptions => 2
      case Options => 3
      case Other => 4
    }

    /** The enum member's name. */
    function MemberName(): string {
      match this
      case Actions => "ACTIONS"
      case Transform => "TRANSFORM"
      case OtherOptions => "OTHER_OPTIONS"
      case Options => "OPTIONS"
      case Other => "OTHER"
    }

    /** `__str__`: the member's name in lower case. */
    function Str(): string {
      Lower(MemberName())
    }
  }

  /** The levels are ranked in declaration order, each with its own value and lower-case name. */
  lemma PriorityOrder(p: PriorityLevel, q: PriorityLevel)
    ensures Actions.Rank() < Transform.Rank() < OtherOptions.Rank() < Options.Rank() < Other.Rank()
    ensures p.Rank() == q.Rank() ==> p == q
    ensures Actions.Str() == "actions" && Transform.Str() == "transform"
    ensures OtherOptions.Str() == "other_options" && Options.Str() == "options" && Other.Str() == "other"
  {
    assert Lower("ACTIONS") == "actions";
    assert Lower("TRANSFORM") == "transform";
    assert Lower("OTHER_OPTIONS") == "other_options";
    assert Lower("OPTIONS") == "options";
    assert Lower("OTHER") == "other";
  }

  /** The Prusa option holder classes. */
  datatype HolderClass =
    | CommandsBase        // PrusaCommandsOptionsBase
    | SelfClearingBase    // PrusaSelfClearingCommandsOptionsBase
    | ActionsBase         // PrusaActionsOptionsBase
    | TransformBase       // PrusaTransformOptionsBase
    | OtherOptionsBase    // PrusaOtherOptionsBase
    | SlicedBase          // PrusaSlicedOptionsBase

  /** `_PRIORITY` of each class. */
  function ClassPriority(c: HolderClass): Option<PriorityLevel> {
    match c
    case CommandsBase => None
    case SelfClearingBase => None
    case ActionsBase => Some(Actions)
    case TransformBase => Some(Transform)
    case OtherOptionsBase => Some(OtherOptions)
    case SlicedBase => Some(Options)
  }

  /** Whether the class derives from the self-clearing base. */
  predicate SelfClearing(c: HolderClass) {
    c == SelfClearingBase || c == ActionsBase || c == TransformBase
  }

  /**
   * Only the two base classes have no priority; actions and transforms clear
   * themselves, the rest do not; every holder class comes before the input
   * files (`FileOptions`, rank 4).
   */
  lemma HolderPriorities(c: HolderClass)
    ensures PriorityOf(ClassPriority(c)).Err? <==> c == CommandsBase || c == SelfClearingBase
    ensures SelfClearing(c) && PriorityOf(ClassPriority(c)).Ok? ==>
      PriorityOf(ClassPriority(c)).value.Rank() <= 1
    ensures !SelfClearing(c) && PriorityOf(ClassPriority(c)).Ok? ==>
      PriorityOf(ClassPriority(c)).value.Rank() in {2, 3}
    ensures PriorityOf(ClassPriority(c)).Ok? ==> PriorityOf(ClassPriority(c)).value.Rank() < Other.Rank()
  {
  }

  /** `_replace_option_name`: `--` and the key with every `_` turned into `-`. */
  function OptionName(key: string): (name: string)
    ensures |name| == |key| + 2
    ensures StartsWith(name, "--")
    ensures '_' !in name
    ensures forall i :: 0 <= i < |key| ==> name[i + 2] == if key[i] == '_' then '-' else key[i]
  {
    ReplaceCharIsMap(key, '_', '-');
    "--" + ReplaceAll(key, "_", "-")
  }

  /** Whether a value's type is among the serialiser's keys (`None` is not). */
  predicate Registered(s: Setting) {
    s.Text? || (s.Typed? && !s.o.ExistsPath?)
  }

  /** `type(value).__name__` */
  function TypeName(s: Setting): string {
    match s
    case Unset => "NoneType"
    case Text(_) => "str"
    case Typed(o) => ClassName(o)
    case Foreign(t) => t
  }

  /** `UnknownType` is the `TypeError` of `_serialize_option`, `InvalidType` the `ValueError` of `_get_serialized_options`. */
  datatype SerializeError = UnknownType(typeName: string) | InvalidType(key: string, typeName: string)

  function Quote(t: string): string {
    "\"" + t + "\""
  }

  /** The text between a pair of surrounding double quotes. */
  function Unquote(t: string): Option<string> {
    if |t| >= 2 && t[0] == '"' && t[|t| - 1] == '"' then Some(t[1..|t| - 1]) else None
  }

  /** The component texts of a pair or triple. */
  function Components(o: OptionValue): seq<string> {
    match o
    case XY(x, y) => [x.text, y.text]
    case UnsignedXY(x, y) => [x.text, y.text]
    case XYZ(x, y, z) => [x.text, y.text, z.text]
    case UnsignedXYZ(x, y, z) => [x.text, y.text, z.text]
    case _ => []
  }

  predicate IsCoordinates(o: OptionValue) {
    o.XY? || o.UnsignedXY? || o.XYZ? || o.UnsignedXYZ?
  }

  /**
   * `_serialize_option`: the first entry of the dispatch table whose type
   * the value is an instance of gives the tokens; no entry is a `TypeError`.
   */
  function SerializeOption(key: string, s: Setting): (r: Result<seq<string>, SerializeError>)
    ensures r.Ok? <==> Registered(s)
    ensures r.Ok? ==> 1 <= |r.value| <= 2 && r.value[0] == OptionName(key)
    ensures r.Ok? ==> (|r.value| == 1 <==> s == Typed(Flag))
    ensures r.Err? ==> r.error == UnknownType(TypeName(s))
  {
    var name := OptionName(key);
    match s
    case Unset => Err(UnknownType(TypeName(s)))
    case Foreign(_) => Err(UnknownType(TypeName(s)))
    case Text(t) => Ok([name, Quote(t)])
    case Typed(o) =>
      if o.Flag? then Ok([name])
      else if IsCoordinates(o) then Ok([name, Join(Components(o), ",")])
      else if o.ExistsPath? then Err(UnknownType(TypeName(s)))
      else if o.ExistsDirName? || o.ExistsDir? || o.ExistsFile? || o.FileOption? then Ok([name, Quote(StrOf(o))])
      else Ok([name, StrOf(o)])
  }

  /** The components of a pair or triple are comma-joined, in order, and split back apart. */
  lemma CoordinatesRoundTrip(key: string, o: OptionValue)
    requires IsCoordinates(o)
    requires forall i :: 0 <= i < |Components(o)| ==> ',' !in Components(o)[i]
    ensures |SerializeOption(key, Typed(o)).value| == 2
    ensures Split(SerializeOption(key, Typed(o)).value[1], ',') == Components(o)
  {
    SplitJoin(Components(o), ',');
  }

  /** An integer option's argument reads back as the integer. */
  lemma IntegerArgument(key: string, n: int)
    ensures ParseInt(SerializeOption(key, Typed(N(n))).value[1]) == Some(n)
    ensures ParseInt(SerializeOption(key, Typed(UnsignedN(n))).value[1]) == Some(n)
  {
    assert SerializeOption(key, Typed(N(n))).value[1] == StrOf(N(n));
    assert SerializeOption(key, Typed(UnsignedN(n))).value[1] == StrOf(UnsignedN(n));
    IntegerStrRoundTrip(n);
  }

  /** Path options and strings are passed quoted; unquoting gives the path back. */
  lemma QuotedArgument(key: string, p: string)
    ensures Unquote(SerializeOption(key, Typed(ExistsFile(p))).value[1]) == Some(p)
    ensures Unquote(SerializeOption(key, Typed(ExistsDir(p))).value[1]) == Some(p)
    ensures Unquote(SerializeOption(key, Typed(ExistsDirName(p))).value[1]) == Some(p)
    ensures Unquote(SerializeOption(key, Text(p)).value[1]) == Some(p)
  {
    assert Quote(p)[1..|Quote(p)| - 1] == p;
  }

  /** Whether an entry stops serialisation: `None` unless it is skipped, or an unregistered type. */
  predicate Bad(s: Setting, skipNone: bool) {
    !Registered(s) && !(skipNone && s.Unset?)
  }

  /** The exception an entry that stops serialisation raises. */
  function EntryError(key: string, s: Setting): SerializeError {
    if s.Unset? then UnknownType(TypeName(s)) else InvalidType(key, TypeName(s))
  }

  /** The tokens one entry contributes: none for a skipped `None`. */
  function Tokens(key: string, s: Setting): seq<string> {
    if Registered(s) then SerializeOption(key, s).value else []
  }

  /**
   * `_get_serialized_options` over the options in dictionary order: a value
   * of an unregistered type raises `ValueError`; `None` passes that check
   * and then either raises `TypeError` in `_serialize_option` (as written)
   * or, with `skipNone`, contributes no tokens.
   */
  function Serialized(entries: Attrs, skipNone: bool): Result<seq<string>, SerializeError>
    decreases |entries|
  {
    if entries == [] then Ok([])
    else
      var key, s := entries[0].0, entries[0].1;
      if Bad(s, skipNone) then Err(EntryError(key, s))
      else Prepend(Tokens(key, s), Serialized(entries[1..], skipNone))
  }

  /** The serialiser as written: a `None` option raises `TypeError`. */
  function SerializedOptionsAsWritten(entries: Attrs): Result<seq<string>, SerializeError> {
    Serialized(entries, false)
  }

  /** The serialiser as intended: a `None` option is left off the command line. */
  function SerializedOptions(entries: Attrs): Result<seq<string>, SerializeError> {
    Serialized(entries, true)
  }

  /** Serialisation succeeds exactly when no entry is bad. */
  lemma {:induction false} SerializedOkIff(entries: Attrs, skipNone: bool)
    ensures Serialized(entries, skipNone).Ok? <==> forall i :: 0 <= i < |entries| ==> !Bad(entries[i].1, skipNone)
    decreases |entries|
  {
    if entries != [] {
      SerializedOkIff(entries[1..], skipNone);
      assert forall i :: 1 <= i < |entries| ==> entries[i] == entries[1..][i - 1];
    }
  }

  function TokenLists(entries: Attrs): (ts: seq<seq<string>>)
    ensures |ts| == |entries|
  {
    seq(|entries|, i requires 0 <= i < |entries| => Tokens(entries[i].0, entries[i].1))
  }

  /** The result is every entry's tokens, concatenated in dictionary order. */
  lemma {:induction false} SerializedConcat(entries: Attrs, skipNone: bool)
    requires Serialized(entries, skipNone).Ok?
    ensures Serialized(entries, skipNone).value == Concat(TokenLists(entries))
    decreases |entries|
  {
    if entries == [] {
      assert TokenLists(entries) == [];
    } else {
      SerializedConcat(entries[1..], skipNone);
      assert TokenLists(entries) == [Tokens(entries[0].0, entries[0].1)] + TokenLists(entries[1..]);
      ConcatCons(Tokens(entries[0].0, entries[0].1), TokenLists(entries[1..]));
    }
  }

  /** The first bad entry decides the exception. */
  lemma {:induction false} SerializedFirstError(entries: Attrs, skipNone: bool, i: nat)
    requires i < |entries| && Bad(entries[i].1, skipNone)
    requires forall j :: 0 <= j < i ==> !Bad(entries[j].1, skipNone)
    ensures Serialized(entries, skipNone) == Err(EntryError(entries[i].0, entries[i].1))
    decreases i
  {
    if i > 0 {
      assert forall j :: 0 <= j < i - 1 ==> entries[1..][j] == entries[j + 1];
      SerializedFirstError(entries[1..], skipNone, i - 1);
    }
  }

  /**
   * As written, a self-clearing holder with at least one option cannot be
   * read a second time: every option is `None` and the first raises `TypeError`.
   */
  lemma AsWrittenRereadFails(a: Attrs)
    requires Public(a) != []
    ensures SerializedOptionsAsWritten(Public(Cleared(a))) == Err(UnknownType("NoneType"))
  {
    ClearedOptionsUnset(a);
    SerializedFirstError(Public(Cleared(a)), false, 0);
  }

  /** As intended, a cleared holder serialises to nothing. */
  lemma ClearedSerializesEmpty(a: Attrs)
    ensures SerializedOptions(Public(Cleared(a))) == Ok([])
  {
    var e := Public(Cleared(a));
    ClearedOptionsUnset(a);
    SerializedOkIff(e, true);
    SerializedConcat(e, true);
    assert forall i :: 0 <= i < |e| ==> TokenLists(e)[i] == [];
    ConcatEmpties(TokenLists(e));
  }

  lemma {:induction false} ConcatEmpties(xss: seq<seq<string>>)
    requires forall i :: 0 <= i < |xss| ==> xss[i] == []
    ensures Concat(xss) == []
    decreases |xss|
  {
    if xss != [] {
      ConcatEmpties(xss[..|xss| - 1]);
    }
  }

  /**
   * `_get_serialized_options`: extends the token list entry by entry,
   * stopping at the first bad one; `skipNone` chooses between the code as
   * written (false) and the corrected serialiser (true).
   */
  method GetSerializedOptions(entries: Attrs, skipNone: bool) returns (r: Result<seq<string>, SerializeError>)
    ensures r == Serialized(entries, skipNone)
  {
    var attrs: seq<string> := [];
    var i := 0;
    assert entries[0..] == entries;
    PrependNothing(Serialized(entries, skipNone));
    while i < |entries|
      invariant 0 <= i <= |entries|
      invariant Serialized(entries, skipNone) == Prepend(attrs, Serialized(entries[i..], skipNone))
    {
      var rest := entries[i..];
      assert rest[1..] == entries[i + 1..];
      var (key, value) := entries[i];
      if Bad(value, skipNone) {
        return Err(EntryError(key, value));
      }
      var tokens := Tokens(key, value);
      if Registered(value) {
        var serialized := SerializeOption(key, value);
        tokens := serialized.value;
      }
      assert Serialized(rest, skipNone) == Prepend(tokens, Serialized(entries[i + 1..], skipNone));
      PrependTwice(attrs, tokens, Serialized(entries[i + 1..], skipNone));
      attrs := attrs + tokens;
      i := i + 1;
    }
    assert entries[i..] == [];
    assert attrs + [] == attrs;
    r := Ok(attrs);
  }

  /** A Prusa option holder: its attribute dictionary and its class. */
  class OptionsHolder {
    var attrs: Attrs
    const cls: HolderClass

    constructor(cls: HolderClass, attrs: Attrs)
      ensures this.cls == cls && this.attrs == attrs
    {
      this.cls := cls;
      this.attrs := attrs;
    }

    /** `priority` */
    function Priority(): (r: Result<PriorityLevel, string>)
      ensures r.Ok? <==> ClassPriority(cls).Some?
    {
      PriorityOf(ClassPriority(cls))
    }

    /** `setattr(holder, key, v)` */
    method SetOption(key: string, v: Setting)
      modifies this
      ensures attrs == SetAttr(old(attrs), key, v)
    {
      attrs := SetAttr(attrs, key, v);
    }

    /** `_clear_attr`: sets every option attribute to `None`. */
    method ClearAttr()
      modifies this
      ensures attrs == Cleared(old(attrs))
    {
      var i := 0;
      while i < |attrs|
        invariant 0 <= i <= |attrs| == |old(attrs)|
        invariant forall j :: 0 <= j < i ==> attrs[j] == ClearEntry(old(attrs)[j])
        invariant forall j :: i <= j < |attrs| ==> attrs[j] == old(attrs)[j]
      {
        var key := attrs[i].0;
        if !IsPrivate(key) {
          attrs := attrs[i := (key, Unset)];
        }
        i := i + 1;
      }
    }

    /**
     * `all_options`: the serialised options, computed before a
     * self-clearing holder clears itself; a raised exception leaves the
     * holder as it was. With `skipNone` false this is the code as written,
     * where a `None` option raises; with `skipNone` true, the corrected
     * serialiser that leaves it out.
     */
    method AllOptions(skipNone: bool) returns (r: Result<seq<string>, SerializeError>)
      modifies this
      ensures r == Serialized(Public(old(attrs)), skipNone)
      ensures attrs == if SelfClearing(cls) && r.Ok? then Cleared(old(attrs)) else old(attrs)
    {
      var options := GetDctOptions(attrs);
      r := GetSerializedOptions(options, skipNone);
      if SelfClearing(cls) && r.Ok? {
        ClearAttr();
      }
    }
  }

  /** `PrusaFileOptions`: the input files, last on the command line. */
  class FileOptions {
    var files: seq<string>

    constructor()
      ensures files == []
    {
      files := [];
    }

    function Priority(): (p: PriorityLevel)
      ensures p.Rank() == 4
    {
      Other
    }

    /** `add_files`: appends the files in argument order. */
    method AddFiles(more: seq<string>)
      modifies this
      ensures files == old(files) + more
    {
      files := files + more;
    }

    /** `all_options`: a copy of the file list; unlike the other self-clearing holders it does not clear. */
    method AllOptions() returns (r: seq<string>)
      ensures r == files
    {
      r := files;
    }

    /** `_clear_attr`: empties the file list. */
    method ClearAttr()
      modifies this
      ensures files == []
    {
      files := [];
    }
  }
}

=== FILE: prusa_transform.dfy ===
/**
 * `PrusaTransform`: one setter per transform option, each building a typed
 * option value and storing it as one attribute of the transform options
 * holder it was given.
 */
module PrusaTransform {
  import opened Wrappers
  import opened OptionTypes
  import opened SlicerOptions
  import opened PrusaOptions
  import Paths

  /** The numeric checks do not consult the file system. */
  const NO_FILES := Paths.FileSystem({}, {})

  class Transform {
    const config: OptionsHolder

    constructor(config: OptionsHolder)
      ensures this.config == config
    {
      this.config := config;
    }

    /** Builds the option value, then stores it under `key`; a rejected value raises before anything is stored. */
    method Store(key: string, v: OptionValue, fs: Paths.FileSystem) returns (r: Result<(), ConstructError>)
      modifies config
      ensures r.Ok? <==> CheckValid(v, fs)
      ensures config.attrs == if r.Ok? then SetAttr(old(config.attrs), key, Typed(v)) else old(config.attrs)
    {
      var built := Construct(v, fs);
      if built.Err? {
        return Err(built.error);
      }
      config.SetOption(key, Typed(built.value));
      r := Ok(());
    }

    /** `set_align_xy`: stores a `XY` under `align_xy`; this type accepts every value. */
    method SetAlignXY(x: Decimal, y: Decimal)
      modifies config
      ensures config.attrs == SetAttr(old(config.attrs), "align_xy", Typed(XY(x, y)))
    {
      var _ := Store("align_xy", XY(x, y), NO_FILES);
    }

    /** `set_center`: stores a `XY` under `center`; this type accepts every value. */
    method SetCenter(x: Decimal, y: Decimal)
      modifies config
      ensures config.attrs == SetAttr(old(config.attrs), "center", Typed(XY(x, y)))
    {
      var _ := Store("center", XY(x, y), NO_FILES);
    }

    /** `set_cut`: stores a `X` under `cut`; this type accepts every value. */
    method SetCut(z: Decimal)
      modifies config
      ensures config.attrs == SetAttr(old(config.attrs), "cut", Typed(X(z)))
    {
      var _ := Store("cut", X(z), NO_FILES);
    }

    /** `set_delete_after_load`: stores an `ExistsDir` under `delete_after_load`, or raises when the path is not a directory. */
    method SetDeleteAfterLoad(path: string, fs: Paths.FileSystem) returns (r: Result<(), ConstructError>)
      modifies config
      ensures r.Ok? <==> fs.IsDir(path)
      ensures config.attrs == if r.Ok? then SetAttr(old(config.attrs), "delete_after_load", Typed(ExistsDir(path))) else old(config.attrs)
    {
      r := Store("delete_after_load", ExistsDir(path), fs);
    }

    /** `set_dont_arrange`: stores a `Flag` under `dont_arrange`; this type accepts every value. */
    method SetDontArrange()
      modifies config
      ensures config.attrs == SetAttr(old(config.attrs), "dont_arrange", Typed(Flag))
    {
      var _ := Store("dont_arrange", Flag, NO_FILES);
    }

    /** `set_duplicate`: stores a `UnsignedN` under `duplicate`, or raises on a negative component and stores nothing. */
    method SetDuplicate(n: int) returns (r: Result<(), ConstructError>)
      modifies config
      ensures r.Ok? <==> n >= 0
      ensures config.attrs == if r.Ok? then SetAttr(old(config.attrs), "duplicate", Typed(UnsignedN(n))) else old(config.attrs)
    {
      r := Store("duplicate", UnsignedN(n), NO_FILES);
    }

    /** `set_duplicate_grid`: stores a `UnsignedXY` under `duplicate_grid`, or raises on a negative component and stores nothing. */
    method SetDuplicateGrid(x: Decimal, y: Decimal) returns (r: Result<(), ConstructError>)
      modifies config
      ensures r.Ok? <==> x.value >= 0.0 && y.value >= 0.0
      ensures config.attrs == if r.Ok? then SetAttr(old(config.attrs), "duplicate_grid", Typed(UnsignedXY(x, y))) else old(config.attrs)
    {
      r := Store("duplicate_grid", UnsignedXY(x, y), NO_FILES);
    }

    /** `set_ensure_on_bed`: stores a `Flag` under `ensure_on_bed`; this type accepts every value. */
    method SetEnsureOnBed()
      modifies config
      ensures config.attrs == SetAttr(old(config.attrs), "ensure_on_bed", Typed(Flag))
    {
      var _ := Store("ensure_on_bed", Flag, NO_FILES);
    }

    /** `set_merge`: stores a `Flag` under `merge`; this type accepts every value. */
    method SetMerge()
      modifies config
      ensures config.attrs == SetAttr(old(config.attrs), "merge", Typed(Flag))
    {
      var _ := Store("merge", Flag, NO_FILES);
    }

    /** `set_repair`: stores a `Flag` under `repair`; this type accepts every value. */
    method SetRepair()
      modifies config
      ensures config.attrs == SetAttr(old(config.attrs), "repair", Typed(Flag))
    {
      var _ := Store("repair", Flag, NO_FILES);
    }

    /** `set_rotate`: stores a `X` under `rotate`; this type accepts every value. */
    method SetRotate(angle: Decimal)
      modifies config
      ensures config.attrs == SetAttr(old(config.attrs), "rotate", Typed(X(angle)))
    {
      var _ := Store("rotate", X(angle), NO_FILES);
    }

    /** `set_rotate_x`: stores a `X` under `rotate_x`; this type accepts every value. */
    method SetRotateX(angle: Decimal)
      modifies config
      ensures config.attrs == SetAttr(old(config.attrs), "rotate_x", Typed(X(angle)))
    {
      var _ := Store("rotate_x", X(angle), NO_FILES);
    }

    /** `set_rotate_y`: stores a `X` under `rotate_y`; this type accepts every value. */
    method SetRotateY(angle: Decimal)
      modifies config
      ensures config.attrs == SetAttr(old(config.attrs), "rotate_y", Typed(X(angle)))
    {
      var _ := Store("rotate_y", X(angle), NO_FILES);
    }

    /** `set_scale`: stores a `UnsignedX` under `scale`, or raises on a negative component and stores nothing. */
    method SetScale(scale: Decimal) returns (r: Result<(), ConstructError>)
      modifies config
      ensures r.Ok? <==> scale.value >= 0.0
      ensures config.attrs == if r.Ok? then SetAttr(old(config.attrs), "scale", Typed(UnsignedX(scale))) else old(config.attrs)
    {
      r := Store("scale", UnsignedX(scale), NO_FILES);
    }

    /** `set_scale_to_fit`: stores a `UnsignedXYZ` under `scale_to_fit`, or raises on a negative component and stores nothing. */
    method SetScaleToFit(x: Decimal, y: Decimal, z: Decimal) returns (r: Result<(), ConstructError>)
      modifies config
      ensures r.Ok? <==> x.value >= 0.0 && y.value >= 0.0 && z.value >= 0.0
      ensures config.attrs == if r.Ok? then SetAttr(old(config.attrs), "scale_to_fit", Typed(UnsignedXYZ(x, y, z))) else old(config.attrs)
    {
      r := Store("scale_to_fit", UnsignedXYZ(x, y, z), NO_FILES);
    }

    /** `set_split`: stores a `Flag` under `split`; this type accepts every value. */
    method SetSplit()
      modifies config
      ensures config.attrs == SetAttr(old(config.attrs), "split", Typed(Flag))
    {
      var _ := Store("split", Flag, NO_FILES);
    }
  }
}

=== FILE: slicer.dfy ===
/**
 * `AutoSlicer.__runSlicer`: the G-code file name and the PrusaSlicer
 * command line, with brim and support arguments chosen by the
 * unprintability score of the tweaked model.
 */
module AutoSlicer {
  import opened Wrappers
  import opened Text
  import Paths
  import OptionTypes
  import StringTools

  /** `treshold_supports` */
  const TRESHOLD_SUPPORTS: real := 1.0
  /** `treshold_brim` */
  const TRESHOLD_BRIM: real := 2.0

  const BRIM_ARGS: seq<string> := ["--brim-width", "5", "--skirt-distance", "6"]
  const SUPPORT_ARG: string := "--support-material"

  /** `name.rsplit(".", 1)` unpacked into two: the text before the last dot; without a dot it is a `ValueError`. */
  function Stem(name: string): (r: Option<string>)
    ensures r.Some? <==> '.' in name
    ensures r.Some? ==> |r.value| < |name| && name[|r.value|] == '.' && r.value == name[..|r.value|]
    ensures r.Some? ==> '.' !in name[|r.value| + 1..]
  {
    match LastIndexOf(name, '.')
    case None => None
    case Some(i) => Some(name[..i])
  }

  /**
   * The G-code path: the cleaned stem of the input's base name, `_U`, the
   * unprintability text and the literal `_{print_time}.gcode`, inside the
   * output directory.
   */
  function OutputFile(inputFile: string, outputPath: string, unprintability: OptionTypes.Decimal,
                      table: seq<(string, string)>, deletions: seq<string>): Option<string>
  {
    match Stem(Paths.Basename(inputFile))
    case None => None
    case Some(stem) =>
      var cleaned := StringTools.Deleted(StringTools.Replaced(stem, table), deletions);
      Some(Paths.Join(outputPath, cleaned + "_U" + unprintability.text + "_{print_time}" + ".gcode"))
  }

  /**
   * `__runSlicer` up to the process call: builds the command step by step.
   * `input` is the file to slice; `inputFile` is the file the user gave,
   * which names the output.
   */
  method RunSlicer(slicer: string, config: string, input: string, inputFile: string, outputPath: string,
                   unprintability: OptionTypes.Decimal, table: seq<(string, string)>, deletions: seq<string>)
    returns (r: Option<seq<string>>)
    ensures r.Some? <==> '.' in Paths.Basename(inputFile)
    ensures r.Some? ==> var cmd := r.value;
      && |cmd| == 7 + (if unprintability.value > TRESHOLD_BRIM then 4 else 0)
                    + (if unprintability.value > TRESHOLD_SUPPORTS then 1 else 0)
      && cmd[..3] == [slicer, "--load", config]
      && cmd[|cmd| - 4..] == ["-g", "-o", OutputFile(inputFile, outputPath, unprintability, table, deletions).value, input]
      && (unprintability.value > TRESHOLD_BRIM ==> cmd[3..7] == BRIM_ARGS && cmd[7] == SUPPORT_ARG)
      && (TRESHOLD_SUPPORTS < unprintability.value <= TRESHOLD_BRIM ==> cmd[3] == SUPPORT_ARG)
  {
    var stem := Stem(Paths.Basename(inputFile));
    if stem.None? {
      return None;
    }
    var filename := StringTools.CleanName(stem.value, table, deletions);
    var outputFile := Paths.Join(outputPath, filename + "_U" + unprintability.text + "_{print_time}" + ".gcode");
    var cmd := [slicer, "--load", config];
    if unprintability.value > TRESHOLD_BRIM {
      cmd := cmd + BRIM_ARGS;
    }
    if unprintability.value > TRESHOLD_SUPPORTS {
      cmd := cmd + [SUPPORT_ARG];
    }
    cmd := cmd + ["-g", "-o", outputFile, input];
    r := Some(cmd);
  }

  /** Brim arguments are only ever added together with the support flag. */
  lemma BrimImpliesSupport(u: real)
    ensures u > TRESHOLD_BRIM ==> u > TRESHOLD_SUPPORTS
  {
  }

  /**
   * The output keeps the cleaned stem in its base name, provided neither the
   * replacements nor the score bring in a `/`.
   */
  lemma OutputFileName(inputFile: string, outputPath: string, unprintability: OptionTypes.Decimal,
                       table: seq<(string, string)>, deletions: seq<string>)
    requires '.' in Paths.Basename(inputFile)
    requires forall i :: 0 <= i < |table| ==> '/' !in table[i].1
    requires '/' !in unprintability.text
    ensures var stem := Stem(Paths.Basename(inputFile)).value;
      Paths.Basename(OutputFile(inputFile, outputPath, unprintability, table, deletions).value)
      == StringTools.Deleted(StringTools.Replaced(stem, table), deletions) + "_U" + unprintability.text + "_{print_time}.gcode"
  {
    var stem := Stem(Paths.Basename(inputFile)).value;
    assert '/' !in stem by {
      assert forall i :: 0 <= i < |stem| ==> stem[i] == Paths.Basename(inputFile)[i];
    }
    var cleaned := StringTools.Deleted(StringTools.Replaced(stem, table), deletions);
    assert '/' !in cleaned by {
      ReplacedKeepsOut(stem, table);
      DeletedKeepsOut(StringTools.Replaced(stem, table), deletions);
    }
    var name := cleaned + "_U" + unprintability.text + "_{print_time}.gcode";
    assert '/' !in name by {
      assert '/' !in "_U" && '/' !in "_{print_time}.gcode";
    }
    assert OutputFile(inputFile, outputPath, unprintability, table, deletions).value == Paths.Join(outputPath, name) by {
      assert cleaned + "_U" + unprintability.text + "_{print_time}" + ".gcode" == name;
    }
    Paths.BasenameOfJoin(outputPath, name);
  }

  lemma {:induction false} ReplacedKeepsOut(name: string, table: seq<(string, string)>)
    requires '/' !in name
    requires forall i :: 0 <= i < |table| ==> '/' !in table[i].1
    ensures '/' !in StringTools.Replaced(name, table)
    decreases |table|
  {
    if table != [] {
      ReplacedKeepsOut(name, table[..|table| - 1]);
      ReplaceKeepsOut(StringTools.Replaced(name, table[..|table| - 1]), table[|table| - 1].0, table[|table| - 1].1, '/');
    }
  }

  lemma {:induction false} DeletedKeepsOut(name: string, deletions: seq<string>)
    requires '/' !in name
    ensures '/' !in StringTools.Deleted(name, deletions)
    decreases |deletions|
  {
    if deletions != [] {
      DeletedKeepsOut(name, deletions[..|deletions| - 1]);
      ReplaceKeepsOut(StringTools.Deleted(name, deletions[..|deletions| - 1]), deletions[|deletions| - 1], [], '/');
    }
  }
}

=== FILE: slicer_options.dfy ===
/**
 * The attribute dictionary of a slicer option holder: which attributes are
 * options (those whose names do not start with `_`), `setattr`, the
 * priority check, and the clearing that self-clearing holders do.
 */
module SlicerOptions {
  import opened Wrappers
  import opened Text
  import opened OptionTypes

  /** An instance's `__dict__`: attribute names and values, in insertion order. */
  type Attrs = seq<(string, Setting)>

  predicate IsPrivate(key: string) {
    StartsWith(key, "_")
  }

  function Keys(a: Attrs): (ks: seq<string>)
    ensures |ks| == |a|
  {
    seq(|a|, i requires 0 <= i < |a| => a[i].0)
  }

  predicate Distinct(ks: seq<string>) {
    forall i, j :: 0 <= i < j < |ks| ==> ks[i] != ks[j]
  }

  /** A `__dict__` never holds a name twice. */
  predicate DistinctKeys(a: Attrs) {
    Distinct(Keys(a))
  }

  /** `obj.key`, or `None` when there is no such attribute. */
  function Lookup(a: Attrs, key: string): Option<Setting>
    decreases |a|
  {
    if a == [] then None
    else if a[0].0 == key then Some(a[0].1)
    else Lookup(a[1..], key)
  }

  /** `setattr(obj, key, v)`: an existing attribute is overwritten where it stands, a new one goes last. */
  function SetAttr(a: Attrs, key: string, v: Setting): Attrs
    decreases |a|
  {
    if a == [] then [(key, v)]
    else if a[0].0 == key then [(key, v)] + a[1..]
    else [a[0]] + SetAttr(a[1..], key, v)
  }

  /** After `setattr`, the attribute holds the new value and no other attribute changed. */
  lemma {:induction false} SetAttrOnly(a: Attrs, key: string, v: Setting, other: string)
    ensures Lookup(SetAttr(a, key, v), key) == Some(v)
    ensures other != key ==> Lookup(SetAttr(a, key, v), other) == Lookup(a, other)
    decreases |a|
  {
    if a != [] && a[0].0 != key {
      SetAttrOnly(a[1..], key, v, other);
    }
  }

  /** Setting the same attribute twice leaves only the latest value. */
  lemma {:induction false} SetAttrTwice(a: Attrs, key: string, v1: Setting, v2: Setting)
    ensures SetAttr(SetAttr(a, key, v1), key, v2) == SetAttr(a, key, v2)
    decreases |a|
  {
    if a != [] && a[0].0 != key {
      SetAttrTwice(a[1..], key, v1, v2);
    }
  }

  /** `setattr` adds a name only when it was missing, and then at the end. */
  lemma {:induction false} SetAttrKeys(a: Attrs, key: string, v: Setting)
    ensures Keys(SetAttr(a, key, v)) == if key in Keys(a) then Keys(a) else Keys(a) + [key]
    decreases |a|
  {
    if a != [] {
      KeysCons(a);
      if a[0].0 != key {
        SetAttrKeys(a[1..], key, v);
        KeysCons(SetAttr(a, key, v));
        assert key in Keys(a) <==> key in Keys(a[1..]);
        if key !in Keys(a) {
          Associative([a[0].0], Keys(a[1..]), [key]);
        }
      } else {
        KeysCons(SetAttr(a, key, v));
      }
    }
  }

  /** `setattr` keeps the names of a `__dict__` distinct. */
  lemma SetAttrDistinct(a: Attrs, key: string, v: Setting)
    requires DistinctKeys(a)
    ensures DistinctKeys(SetAttr(a, key, v))
  {
    SetAttrKeys(a, key, v);
    if key !in Keys(a) {
      DistinctSnoc(Keys(a), key);
    }
  }

  lemma KeysCons(a: Attrs)
    requires a != []
    ensures Keys(a) == [a[0].0] + Keys(a[1..])
  {
  }

  lemma DistinctSnoc(ks: seq<string>, k: string)
    requires Distinct(ks) && k !in ks
    ensures Distinct(ks + [k])
  {
  }

  /** `_get_dct_options`, as a reference definition: the attributes whose names do not start with `_`. */
  function Public(a: Attrs): (r: Attrs)
    ensures |r| <= |a|
    ensures forall i :: 0 <= i < |r| ==> !IsPrivate(r[i].0)
    decreases |a|
  {
    if a == [] then []
    else if IsPrivate(a[0].0) then Public(a[1..])
    else [a[0]] + Public(a[1..])
  }

  /** The options are exactly the public attributes, with their values unchanged. */
  lemma {:induction false} PublicLookup(a: Attrs, key: string)
    ensures Lookup(Public(a), key) == if IsPrivate(key) then None else Lookup(a, key)
    decreases |a|
  {
    if a != [] {
      PublicLookup(a[1..], key);
    }
  }

  /** `_get_dct_options`: copies each public attribute, in order, into a fresh dictionary. */
  method GetDctOptions(a: Attrs) returns (result: Attrs)
    ensures result == Public(a)
  {
    result := [];
    var i := 0;
    while i < |a|
      invariant 0 <= i <= |a|
      invariant Public(a) == result + Public(a[i..])
    {
      assert a[i..][1..] == a[i + 1..];
      var (key, value) := a[i];
      if !IsPrivate(key) {
        result := result + [(key, value)];
      }
      i := i + 1;
    }
  }

  /** `priority`: `ValueError` when the class sets no priority. */
  function PriorityOf<P>(p: Option<P>): (r: Result<P, string>)
    ensures r.Ok? <==> p.Some?
    ensures r.Ok? ==> r.value == p.value
  {
    match p
    case None => Err("Priority not set.")
    case Some(v) => Ok(v)
  }

  function ClearEntry(e: (string, Setting)): (string, Setting) {
    if IsPrivate(e.0) then e else (e.0, Unset)
  }

  /** The attributes after `_clear_attr`: every public one set to `None`. */
  function Cleared(a: Attrs): (r: Attrs)
    ensures |r| == |a|
  {
    seq(|a|, i requires 0 <= i < |a| => ClearEntry(a[i]))
  }

  /** Clearing keeps every name, in place. */
  lemma ClearedKeepsKeys(a: Attrs)
    ensures Keys(Cleared(a)) == Keys(a)
  {
  }

  /** Clearing leaves private attributes as they were and sets each public one to `None`. */
  lemma {:induction false} ClearedLookup(a: Attrs, key: string)
    ensures Lookup(Cleared(a), key) ==
      if IsPrivate(key) || Lookup(a, key).None? then Lookup(a, key) else Some(Unset)
    decreases |a|
  {
    if a != [] {
      assert Cleared(a)[1..] == Cleared(a[1..]);
      ClearedLookup(a[1..], key);
    }
  }

  /** After clearing, no option holds a value. */
  lemma {:induction false} ClearedOptionsUnset(a: Attrs)
    ensures forall i :: 0 <= i < |Public(Cleared(a))| ==> Public(Cleared(a))[i].1 == Unset
    ensures |Public(Cleared(a))| == |Public(a)|
    decreases |a|
  {
    if a != [] {
      assert Cleared(a)[1..] == Cleared(a[1..]);
      ClearedOptionsUnset(a[1..]);
    }
  }

  /** A second clear changes nothing. */
  lemma ClearedIdempotent(a: Attrs)
    ensures Cleared(Cleared(a)) == Cleared(a)
  {
  }
}

=== FILE: string_tools.dfy ===
/**
 * `clean_name`: each replacement of the replacement table applied to the
 * whole name in table order, then each string of the deletion list removed
 * in list order; every step is one `str.replace` pass.
 */
module StringTools {
  import opened Text

  /** The name after the first `|table|` replacements, applied in order. */
  function Replaced(name: string, table: seq<(string, string)>): string
    decreases |table|
  {
    if table == [] then name
    else
      var (key, value) := table[|table| - 1];
      ReplaceAll(Replaced(name, table[..|table| - 1]), key, value)
  }

  /** The name after removing each string of `deletions`, in order. */
  function Deleted(name: string, deletions: seq<string>): (r: string)
    ensures |r| <= |name|
    decreases |deletions|
  {
    if deletions == [] then name
    else
      var rest := Deleted(name, deletions[..|deletions| - 1]);
      ReplaceNotLonger(rest, deletions[|deletions| - 1], []);
      ReplaceAll(rest, deletions[|deletions| - 1], [])
  }

  /** `clean_name`: both loops, rebinding `name` at each step. */
  method CleanName(name: string, table: seq<(string, string)>, deletions: seq<string>) returns (r: string)
    ensures r == Deleted(Replaced(name, table), deletions)
    ensures |r| <= |Replaced(name, table)|
  {
    r := name;
    var i := 0;
    while i < |table|
      invariant 0 <= i <= |table|
      invariant r == Replaced(name, table[..i])
    {
      assert table[..i + 1][..i] == table[..i];
      var (key, value) := table[i];
      r := ReplaceAll(r, key, value);
      i := i + 1;
    }
    assert table[..i] == table;
    ghost var replaced := r;
    var j := 0;
    while j < |deletions|
      invariant 0 <= j <= |deletions|
      invariant r == Deleted(replaced, deletions[..j])
    {
      assert deletions[..j + 1][..j] == deletions[..j];
      r := ReplaceAll(r, deletions[j], "");
      j := j + 1;
    }
    assert deletions[..j] == deletions;
  }

  /** Replacements whose keys do not occur leave the name as it is. */
  lemma {:induction false} ReplacedAbsent(name: string, table: seq<(string, string)>)
    requires forall i :: 0 <= i < |table| ==> !Contains(name, table[i].0)
    ensures Replaced(name, table) == name
    decreases |table|
  {
    if table != [] {
      ReplacedAbsent(name, table[..|table| - 1]);
      ReplaceAbsent(name, table[|table| - 1].0, table[|table| - 1].1);
    }
  }

  /** Deletions that do not occur leave the name as it is. */
  lemma {:induction false} DeletedAbsent(name: string, deletions: seq<string>)
    requires forall i :: 0 <= i < |deletions| ==> !Contains(name, deletions[i])
    ensures Deleted(name, deletions) == name
    decreases |deletions|
  {
    if deletions != [] {
      DeletedAbsent(name, deletions[..|deletions| - 1]);
      ReplaceAbsent(name, deletions[|deletions| - 1], []);
    }
  }

  /** A name holding no replacement key and no deletion string comes back unchanged. */
  lemma CleanNameUnchanged(name: string, table: seq<(string, string)>, deletions: seq<string>)
    requires forall i :: 0 <= i < |table| ==> !Contains(name, table[i].0)
    requires forall i :: 0 <= i < |deletions| ==> !Contains(name, deletions[i])
    ensures Deleted(Replaced(name, table), deletions) == name
  {
    ReplacedAbsent(name, table);
    DeletedAbsent(name, deletions);
  }

  /** Replacements that keep lengths keep the name's length. */
  lemma {:induction false} ReplacedSameLength(name: string, table: seq<(string, string)>)
    requires forall i :: 0 <= i < |table| ==> |table[i].0| == |table[i].1|
    ensures |Replaced(name, table)| == |name|
    decreases |table|
  {
    if table != [] {
      ReplacedSameLength(name, table[..|table| - 1]);
      ReplaceSameLength(Replaced(name, table[..|table| - 1]), table[|table| - 1].0, table[|table| - 1].1);
    }
  }

  /**
   * Each deletion is a single pass, not repeated until nothing changes:
   * removing `p` from `p[0] + p + p[1..]` (such as "ab" from "aabb")
   * leaves `p`, which contains `p` again.
   */
  lemma DeletionSinglePass(p: string)
    requires |p| >= 2 && p[0] != p[1]
    ensures Deleted(p[..1] + p + p[1..], [p]) == p
    ensures Contains(Deleted(p[..1] + p + p[1..], [p]), p)
  {
    var t := p[..1] + p + p[1..];
    assert [p][..0] == [];
    assert Deleted(t, [p]) == ReplaceAll(t, p, []);
    OnePassLeavesPattern(p, t);
    assert StartsWith(p, p);
  }

  lemma OnePassLeavesPattern(p: string, t: string)
    requires |p| >= 2 && p[0] != p[1] && t == p[..1] + p + p[1..]
    ensures ReplaceAll(t, p, []) == p
  {
    assert !StartsWith(t, p) by {
      assert t[1] == p[0] != p[1];
    }
    var u := t[1..];
    assert u == p + p[1..];
    assert StartsWith(u, p) && u[|p|..] == p[1..];
    if Contains(p[1..], p) {
      ContainsNotShorter(p[1..], p);
    }
    ReplaceAbsent(p[1..], p, []);
    assert ReplaceAll(u, p, []) == p[1..];
    assert [p[0]] + p[1..] == p;
  }
}

=== FILE: text.dfy ===
/**
 * Python string primitives the repository relies on, stated as CPython
 * behaves on `str` over ASCII text: `startswith`, `in`, `replace`,
 * `split(sep)`, `split()`, `strip()`, `str(int)` and `int(str)` (digits
 * outside ASCII, which `int` also accepts, are not modelled).
 */
module Text {
  import opened Wrappers

  /** Python `t.startswith(p)`. */
  predicate StartsWith(t: string, p: string) {
    |p| <= |t| && t[..|p|] == p
  }

  /** Python `t.endswith(p)`. */
  predicate EndsWith(t: string, p: string) {
    |p| <= |t| && t[|t| - |p|..] == p
  }

  /** Python `p in t` for strings. */
  predicate Contains(t: string, p: string)
    decreases |t|
  {
    StartsWith(t, p) || (t != [] && Contains(t[1..], p))
  }

  /** Python `t.replace("", r)`: `r` before every character and at the end. */
  function InsertAround(t: string, r: string): string
    decreases |t|
  {
    if t == [] then r else r + [t[0]] + InsertAround(t[1..], r)
  }

  /**
   * Python `t.replace(p, r)`: scans left to right and replaces every
   * leftmost, non-overlapping occurrence of `p` in one pass.
   */
  function ReplaceAll(t: string, p: string, r: string): string
    decreases |t|
  {
    if p == [] then InsertAround(t, r)
    else if StartsWith(t, p) then r + ReplaceAll(t[|p|..], p, r)
    else if t == [] then []
    else [t[0]] + ReplaceAll(t[1..], p, r)
  }

  /** Replacing by something at least as long never shortens the text. */
  lemma {:induction false} ReplaceGrows(t: string, p: string, r: string)
    requires p != [] && |r| >= |p|
    ensures |ReplaceAll(t, p, r)| >= |t|
    decreases |t|
  {
    if StartsWith(t, p) {
      ReplaceGrows(t[|p|..], p, r);
    } else if t != [] {
      ReplaceGrows(t[1..], p, r);
    }
  }

  lemma {:induction false} InsertNothing(t: string)
    ensures InsertAround(t, []) == t
    decreases |t|
  {
    if t != [] {
      InsertNothing(t[1..]);
      assert [t[0]] + t[1..] == t;
    }
  }

  /** A text without an occurrence of the pattern is returned unchanged. */
  lemma {:induction false} ReplaceAbsent(t: string, p: string, r: string)
    requires !Contains(t, p)
    ensures ReplaceAll(t, p, r) == t
    decreases |t|
  {
    assert StartsWith(t, []);
    if t != [] {
      ReplaceAbsent(t[1..], p, r);
      assert [t[0]] + t[1..] == t;
    }
  }

  /** Replacing a pattern by one of the same length keeps the length. */
  lemma {:induction false} ReplaceSameLength(t: string, p: string, r: string)
    requires |p| == |r|
    ensures |ReplaceAll(t, p, r)| == |t|
    decreases |t|
  {
    if p == [] {
      InsertNothing(t);
    } else if StartsWith(t, p) {
      ReplaceSameLength(t[|p|..], p, r);
    } else if t != [] {
      ReplaceSameLength(t[1..], p, r);
    }
  }

  /** Replacing a pattern by a shorter (or equally long) text never lengthens. */
  lemma {:induction false} ReplaceNotLonger(t: string, p: string, r: string)
    requires |r| <= |p|
    ensures |ReplaceAll(t, p, r)| <= |t|
    decreases |t|
  {
    if p == [] {
      InsertNothing(t);
    } else if StartsWith(t, p) {
      ReplaceNotLonger(t[|p|..], p, r);
    } else if t != [] {
      ReplaceNotLonger(t[1..], p, r);
    }
  }

  /** Replacing a pattern by itself changes nothing. */
  lemma {:induction false} ReplaceSelf(t: string, p: string)
    ensures ReplaceAll(t, p, p) == t
    decreases |t|
  {
    if p == [] {
      InsertNothing(t);
    } else if StartsWith(t, p) {
      ReplaceSelf(t[|p|..], p);
      assert t[..|p|] + t[|p|..] == t;
    } else if t != [] {
      ReplaceSelf(t[1..], p);
      assert [t[0]] + t[1..] == t;
    }
  }

  lemma {:induction false} ContainsTail(x: string, p: string)
    requires x != [] && Contains(x[1..], p)
    ensures Contains(x, p)
  {
  }

  /**
   * The first occurrence of `p` is replaced and the text before it is kept:
   * when no occurrence of `p` starts inside `a`, the scan of `a + p + b`
   * copies `a`, emits `r` and continues on `b`.
   */
  lemma {:induction false} ReplaceFirst(a: string, p: string, b: string, r: string)
    requires p != []
    requires !Contains(a + p[..|p| - 1], p)
    ensures ReplaceAll(a + p + b, p, r) == a + r + ReplaceAll(b, p, r)
    decreases |a|
  {
    if a == [] {
      var t := a + p + b;
      assert t[..|p|] == p;
      assert t[|p|..] == b;
    } else {
      ReplaceFirstStep(a, p, b, r);
      ReplaceFirst(a[1..], p, b, r);
      Recons(a, r, ReplaceAll(b, p, r));
    }
  }

  /** Replacing one character by another, one position at a time. */
  lemma ReplaceCharStep(t: string, c: char, d: char)
    requires t != []
    ensures ReplaceAll(t, [c], [d]) == [if t[0] == c then d else t[0]] + ReplaceAll(t[1..], [c], [d])
  {
    if t[0] == c {
      assert StartsWith(t, [c]) && t[|[c]|..] == t[1..];
    } else {
      assert t[..1] == [t[0]];
    }
  }

  /** Concatenation regroups freely. */
  lemma Associative<T>(a: seq<T>, b: seq<T>, c: seq<T>)
    ensures a + b + c == a + (b + c)
  {
  }

  /** Putting the first character back in front. */
  lemma Recons(a: string, y: string, z: string)
    requires a != []
    ensures [a[0]] + (a[1..] + y + z) == a + y + z
  {
    assert [a[0]] + a[1..] == a;
  }

  /** Before the first occurrence, the scan copies one character and moves on. */
  lemma ReplaceFirstStep(a: string, p: string, b: string, r: string)
    requires p != [] && a != []
    requires !Contains(a + p[..|p| - 1], p)
    ensures !Contains(a[1..] + p[..|p| - 1], p)
    ensures ReplaceAll(a + p + b, p, r) == [a[0]] + ReplaceAll(a[1..] + p + b, p, r)
  {
    var t := a + p + b;
    var x := a + p[..|p| - 1];
    assert !StartsWith(t, p) by {
      assert t[..|p|] == x[..|p|];
    }
    assert x[1..] == a[1..] + p[..|p| - 1];
    if Contains(x[1..], p) {
      ContainsTail(x, p);
    }
    assert t[1..] == a[1..] + p + b;
  }

  /** Python's `str.isspace()` characters, which `split()` and `strip()` use. */
  predicate IsSpace(c: char) {
    var n := c as int;
    (9 <= n <= 13) || (28 <= n <= 32) || n == 0x85 || n == 0xA0 || n == 0x1680
    || (0x2000 <= n <= 0x200A) || n == 0x2028 || n == 0x2029 || n == 0x202F
    || n == 0x205F || n == 0x3000
  }

  /** Length of the run of non-space characters that starts `s`. */
  function WordLength(s: string): (n: nat)
    ensures n <= |s|
    ensures forall i :: 0 <= i < n ==> !IsSpace(s[i])
    ensures n < |s| ==> IsSpace(s[n])
    decreases |s|
  {
    if s == [] || IsSpace(s[0]) then 0 else 1 + WordLength(s[1..])
  }

  /** Python `s.split()`: the maximal runs of non-space characters, in order. */
  function Words(s: string): (ws: seq<string>)
    ensures forall i :: 0 <= i < |ws| ==> ws[i] != []
    ensures forall i, j :: 0 <= i < |ws| && 0 <= j < |ws[i]| ==> !IsSpace(ws[i][j])
    decreases |s|
  {
    if s == [] then []
    else if IsSpace(s[0]) then Words(s[1..])
    else
      var n := WordLength(s);
      [s[..n]] + Words(s[n..])
  }

  /** Python `s.lstrip()`. */
  function StripLeft(s: string): (r: string)
    ensures |r| <= |s| && r == s[|s| - |r|..]
    ensures r != [] ==> !IsSpace(r[0])
    decreases |s|
  {
    if s != [] && IsSpace(s[0]) then StripLeft(s[1..]) else s
  }

  /** Python `s.rstrip()`. */
  function StripRight(s: string): (r: string)
    ensures |r| <= |s| && r == s[..|r|]
    ensures r != [] ==> !IsSpace(r[|r| - 1])
    decreases |s|
  {
    if s != [] && IsSpace(s[|s| - 1]) then StripRight(s[..|s| - 1]) else s
  }

  /** Python `s.strip()`. */
  function Strip(s: string): string {
    StripRight(StripLeft(s))
  }

  /** Python `s.split(sep)` for a one-character separator. */
  function Split(s: string, sep: char): (parts: seq<string>)
    ensures |parts| >= 1
    ensures forall i :: 0 <= i < |parts| ==> sep !in parts[i]
    decreases |s|
  {
    if s == [] then [[]]
    else
      var rest := Split(s[1..], sep);
      if s[0] == sep then [[]] + rest
      else [[s[0]] + rest[0]] + rest[1..]
  }

  /** Python `sep.join(parts)`. */
  function Join(parts: seq<string>, sep: string): string
    decreases |parts|
  {
    if parts == [] then []
    else if |parts| == 1 then parts[0]
    else parts[0] + sep + Join(parts[1..], sep)
  }

  /** Splitting on a separator and joining with it gives the text back. */
  lemma {:induction false} JoinSplit(s: string, sep: char)
    ensures Join(Split(s, sep), [sep]) == s
    decreases |s|
  {
    if s != [] {
      var rest := Split(s[1..], sep);
      JoinSplit(s[1..], sep);
      if s[0] == sep {
        assert Split(s, sep) == [[]] + rest;
        assert ([[]] + rest)[1..] == rest;
      } else {
        var parts := Split(s, sep);
        assert parts == [[s[0]] + rest[0]] + rest[1..];
        if |rest| == 1 {
          assert Join(rest, [sep]) == rest[0];
        } else {
          assert parts[1..] == rest[1..];
          assert Join(rest, [sep]) == rest[0] + [sep] + Join(rest[1..], [sep]);
        }
      }
    }
  }

  predicate IsDigit(c: char) {
    '0' <= c <= '9'
  }

  predicate AllDigits(s: string) {
    forall i :: 0 <= i < |s| ==> IsDigit(s[i])
  }

  function DigitChar(d: nat): (c: char)
    requires d < 10
    ensures IsDigit(c)
  {
    (48 + d) as char
  }

  /** Value of a string of decimal digits (the empty string has value 0). */
  function DigitsValue(s: string): nat
    requires AllDigits(s)
    decreases |s|
  {
    if s == [] then 0
    else DigitsValue(s[..|s| - 1]) * 10 + (s[|s| - 1] as int - 48)
  }

  /** Python `str(n)` for a non-negative integer. */
  function NatToString(n: nat): (s: string)
    ensures s != [] && AllDigits(s)
    decreases n
  {
    if n < 10 then [DigitChar(n)] else NatToString(n / 10) + [DigitChar(n % 10)]
  }

  /** Python `str(i)` for an integer. */
  function IntToString(i: int): (s: string)
    ensures s != []
  {
    if i < 0 then "-" + NatToString(-i) else NatToString(i)
  }

  /** Reading back the decimal digits of `n` gives `n`. */
  lemma {:induction false} NatToStringRoundTrip(n: nat)
    ensures DigitsValue(NatToString(n)) == n
    decreases n
  {
    var s := NatToString(n);
    if n >= 10 {
      NatToStringRoundTrip(n / 10);
      assert s[..|s| - 1] == NatToString(n / 10);
    }
  }

  /** Distinct numbers are written differently. */
  lemma NatToStringInjective(m: nat, n: nat)
    requires NatToString(m) == NatToString(n)
    ensures m == n
  {
    NatToStringRoundTrip(m);
    NatToStringRoundTrip(n);
  }

  /**
   * Python's digit grouping in a base-10 literal: ASCII digits, with single
   * underscores allowed only between two digits (`1_000`).
   */
  predicate Grouped(d: string) {
    d != [] && IsDigit(d[0]) && GroupedTail(d[1..])
  }

  /** What may follow a digit in a grouped literal: digits, each optionally preceded by one underscore. */
  predicate GroupedTail(d: string)
    decreases |d|
  {
    || d == []
    || (IsDigit(d[0]) && GroupedTail(d[1..]))
    || (|d| >= 2 && d[0] == '_' && IsDigit(d[1]) && GroupedTail(d[2..]))
  }

  /** The digits of a grouped literal, underscores dropped. */
  function Ungrouped(d: string): (r: string)
    ensures |r| <= |d|
    ensures AllDigits(d) ==> r == d
    decreases |d|
  {
    if d == [] then [] else (if d[0] == '_' then [] else [d[0]]) + Ungrouped(d[1..])
  }

  /** Dropping the underscores of a grouped tail leaves only digits. */
  lemma {:induction false} UngroupedDigits(d: string)
    requires GroupedTail(d)
    ensures AllDigits(Ungrouped(d))
    decreases |d|
  {
    if d != [] {
      if IsDigit(d[0]) && GroupedTail(d[1..]) {
        UngroupedDigits(d[1..]);
      } else {
        UngroupedDigits(d[2..]);
        assert Ungrouped(d[1..]) == [d[1]] + Ungrouped(d[2..]) by {
          assert d[1..][1..] == d[2..];
        }
      }
    }
  }

  /**
   * Python `int(s)` for a base-10 string: surrounding whitespace is ignored,
   * one optional sign, then a grouped run of digits; anything else is a
   * `ValueError`, here `None`.
   */
  function ParseInt(s: string): Option<int>
  {
    var t := Strip(s);
    if t != [] && (t[0] == '-' || t[0] == '+') then
      var m := GroupedValue(t[1..]);
      if m.None? then None else if t[0] == '-' then Some(-m.value) else m
    else GroupedValue(t)
  }

  /** The value of an unsigned grouped literal, `None` when `d` is not one. */
  function GroupedValue(d: string): (r: Option<int>)
    ensures r.Some? <==> Grouped(d)
    ensures r.Some? ==> r.value >= 0
  {
    if Grouped(d) then
      UngroupedDigits(d);
      Some(DigitsValue(Ungrouped(d)))
    else None
  }

  lemma StripUnpadded(s: string)
    requires s != [] && !IsSpace(s[0]) && !IsSpace(s[|s| - 1])
    ensures Strip(s) == s
  {
    assert StripLeft(s) == s;
  }

  /** A run of plain digits is a grouped literal of itself. */
  lemma DigitsGrouped(d: string)
    requires d != [] && AllDigits(d)
    ensures Grouped(d) && Ungrouped(d) == d
  {
    DigitsTail(d[1..]);
  }

  lemma {:induction false} DigitsTail(d: string)
    requires AllDigits(d)
    ensures GroupedTail(d)
    decreases |d|
  {
    if d != [] {
      DigitsTail(d[1..]);
    }
  }

  /** Without sign or padding, `int(t)` reads `t` as a grouped literal. */
  lemma ParseUnsignedLiteral(t: string)
    requires t != [] && IsDigit(t[0]) && !IsSpace(t[|t| - 1])
    ensures ParseInt(t) == GroupedValue(t)
  {
    StripUnpadded(t);
  }

  /** An underscore between digits groups them: `int("1_000") == 1000`. */
  lemma ParseGroupedDigits(x: char, d: string)
    requires IsDigit(x) && d != [] && AllDigits(d)
    ensures ParseInt([x, '_'] + d) == Some(DigitsValue([x] + d))
  {
    var t := [x, '_'] + d;
    GroupedPair(x, d);
    assert !IsSpace(t[|t| - 1]) by {
      assert t[|t| - 1] == d[|d| - 1];
    }
    ParseUnsignedLiteral(t);
  }

  lemma GroupedPair(x: char, d: string)
    requires IsDigit(x) && d != [] && AllDigits(d)
    ensures Grouped([x, '_'] + d) && Ungrouped([x, '_'] + d) == [x] + d
  {
    var t := [x, '_'] + d;
    var u := t[1..];
    assert u == ['_'] + d;
    assert GroupedTail(u) by {
      assert u[2..] == d[1..];
      DigitsTail(d[1..]);
    }
    assert Ungrouped(u) == d by {
      assert u[1..] == d;
    }
  }

  /** An underscore not followed by a digit, as in `1__0` or `1_`, makes `int` raise. */
  lemma ParseMisgroupedDigits(t: string)
    requires |t| >= 2 && IsDigit(t[0]) && t[1] == '_' && (|t| == 2 || !IsDigit(t[2]))
    requires !IsSpace(t[|t| - 1])
    ensures ParseInt(t) == None
  {
    assert !GroupedTail(t[1..]) by {
      assert t[1..][0] == '_';
      assert |t[1..]| == 1 || !IsDigit(t[1..][1]);
    }
    ParseUnsignedLiteral(t);
  }

  /** A signed literal reads as its sign applied to the grouped digits after it. */
  lemma ParseSigned(t: string)
    requires Strip(t) == t && t != [] && t[0] == '-' && GroupedValue(t[1..]).Some?
    ensures ParseInt(t) == Some(-GroupedValue(t[1..]).value)
  {
  }

  /** A run of digits reads as its value. */
  lemma ParseUnsigned(t: string)
    requires t != [] && AllDigits(t)
    ensures ParseInt(t) == Some(DigitsValue(t))
  {
    assert IsDigit(t[0]) && IsDigit(t[|t| - 1]);
    StripUnpadded(t);
    DigitsGrouped(t);
  }

  /** A minus sign and a run of digits read as the negated value. */
  lemma ParseNegative(d: string)
    requires d != [] && AllDigits(d)
    ensures ParseInt("-" + d) == Some(-(DigitsValue(d) as int))
  {
    var t := "-" + d;
    assert t[1..] == d;
    ParseMinusDigits(t);
    assert DigitsValue(t[1..]) == DigitsValue(d);
  }

  lemma ParseMinusDigits(t: string)
    requires |t| >= 2 && t[0] == '-' && AllDigits(t[1..])
    ensures ParseInt(t) == Some(-(DigitsValue(t[1..]) as int))
  {
    assert IsDigit(t[1..][|t| - 2]);
    StripUnpadded(t);
    DigitsGrouped(t[1..]);
    ParseSigned(t);
  }

  /** `int(str(i)) == i`. */
  lemma ParseIntRoundTrip(i: int)
    ensures ParseInt(IntToString(i)) == Some(i)
  {
    if i < 0 {
      var d := NatToString(-i);
      assert IntToString(i) == "-" + d;
      assert DigitsValue(d) == -i by {
        NatToStringRoundTrip(-i);
      }
      ParseNegative(d);
    } else {
      var d := NatToString(i);
      assert IntToString(i) == d;
      assert DigitsValue(d) == i by {
        NatToStringRoundTrip(i);
      }
      ParseUnsigned(d);
    }
  }

  /** ASCII lower-casing of one character. */
  function LowerChar(c: char): char {
    if 'A' <= c <= 'Z' then (c as int + 32) as char else c
  }

  /** Lower-casing, as Python's `str.lower()` does on ASCII text. */
  function Lower(s: string): (r: string)
    ensures |r| == |s|
    ensures forall i :: 0 <= i < |s| ==> r[i] == LowerChar(s[i])
  {
    seq(|s|, i requires 0 <= i < |s| => LowerChar(s[i]))
  }

  /** The concatenation of a sequence of sequences, in order. */
  function Concat<T>(xss: seq<seq<T>>): seq<T>
    decreases |xss|
  {
    if xss == [] then [] else Concat(xss[..|xss| - 1]) + xss[|xss| - 1]
  }

  /** How many of `lines` contain `p`. */
  function CountContaining(lines: seq<string>, p: string): (n: nat)
    ensures n <= |lines|
    decreases |lines|
  {
    if lines == [] then 0
    else CountContaining(lines[..|lines| - 1], p) + (if Contains(lines[|lines| - 1], p) then 1 else 0)
  }

  /** A text shorter than the pattern does not contain it. */
  lemma {:induction false} ContainsNotShorter(t: string, p: string)
    requires Contains(t, p)
    ensures |p| <= |t|
    decreases |t|
  {
    if !StartsWith(t, p) {
      ContainsNotShorter(t[1..], p);
    }
  }

  /** A text as long as the pattern contains it only by being it. */
  lemma ContainsSameLength(t: string, p: string)
    requires Contains(t, p) && |t| == |p|
    ensures t == p
  {
    if !StartsWith(t, p) {
      ContainsNotShorter(t[1..], p);
    }
  }

  /** Every character of a contained pattern occurs in the text. */
  lemma {:induction false} ContainsChar(t: string, p: string, i: nat)
    requires Contains(t, p) && i < |p|
    ensures p[i] in t
    decreases |t|
  {
    if StartsWith(t, p) {
      assert t[i] == p[i];
    } else {
      ContainsChar(t[1..], p, i);
      var k :| 0 <= k < |t[1..]| && t[1..][k] == p[i];
      assert t[k + 1] == p[i];
    }
  }

  /**
   * A prefix `a` in which no occurrence of `p` starts is copied unchanged,
   * and the scan carries on at the text that follows it.
   */
  lemma {:induction false} ReplaceSkip(a: string, b: string, p: string, r: string)
    requires p != []
    requires forall i :: 0 <= i < |a| ==> !StartsWith((a + b)[i..], p)
    ensures ReplaceAll(a + b, p, r) == a + ReplaceAll(b, p, r)
    decreases |a|
  {
    if a != [] {
      var t := a + b;
      assert t[0..] == t;
      assert t[1..] == a[1..] + b;
      forall i | 0 <= i < |a[1..]|
        ensures !StartsWith((a[1..] + b)[i..], p)
      {
        assert (a[1..] + b)[i..] == t[i + 1..];
      }
      ReplaceSkip(a[1..], b, p, r);
      Recons(a, [], ReplaceAll(b, p, r));
      assert a + [] == a && a[1..] + [] == a[1..];
    } else {
      assert a + b == b;
    }
  }

  /** Every `a` of `s` turned into `b`, every other character kept. */
  function MapChar(s: string, a: char, b: char): (r: string)
    ensures |r| == |s|
    ensures forall i :: 0 <= i < |s| ==> r[i] == if s[i] == a then b else s[i]
  {
    seq(|s|, i requires 0 <= i < |s| => if s[i] == a then b else s[i])
  }

  /** Replacing one character by one character is a character-wise map. */
  lemma {:induction false} ReplaceCharIsMap(s: string, a: char, b: char)
    ensures ReplaceAll(s, [a], [b]) == MapChar(s, a, b)
    decreases |s|
  {
    if s != [] {
      ReplaceCharIsMap(s[1..], a, b);
      var r := ReplaceAll(s, [a], [b]);
      assert r == [if s[0] == a then b else s[0]] + ReplaceAll(s[1..], [a], [b]);
      assert MapChar(s, a, b) == [MapChar(s, a, b)[0]] + MapChar(s[1..], a, b);
    }
  }

  lemma {:induction false} SplitNoSep(a: string, sep: char)
    requires sep !in a
    ensures Split(a, sep) == [a]
    decreases |a|
  {
    if a != [] {
      assert a[0] != sep;
      SplitNoSep(a[1..], sep);
      assert [a[0]] + a[1..] == a;
    }
  }

  lemma {:induction false} SplitAfter(a: string, b: string, sep: char)
    requires sep !in a
    ensures Split(a + [sep] + b, sep) == [a] + Split(b, sep)
    decreases |a|
  {
    var s := a + [sep] + b;
    if a == [] {
      assert s[1..] == b;
    } else {
      assert s[1..] == a[1..] + [sep] + b;
      SplitAfter(a[1..], b, sep);
      assert [a[0]] + a[1..] == a;
    }
  }

  /** Joining parts free of the separator and splitting again gives the parts back. */
  lemma {:induction false} SplitJoin(parts: seq<string>, sep: char)
    requires |parts| >= 1
    requires forall i :: 0 <= i < |parts| ==> sep !in parts[i]
    ensures Split(Join(parts, [sep]), sep) == parts
    decreases |parts|
  {
    if |parts| == 1 {
      SplitNoSep(parts[0], sep);
    } else {
      SplitJoin(parts[1..], sep);
      SplitAfter(parts[0], Join(parts[1..], [sep]), sep);
    }
  }

  /** `Concat` read from the front. */
  lemma {:induction false} ConcatCons<T>(x: seq<T>, xs: seq<seq<T>>)
    ensures Concat([x] + xs) == x + Concat(xs)
    decreases |xs|
  {
    if xs != [] {
      var ys := [x] + xs;
      assert ys[..|ys| - 1] == [x] + xs[..|xs| - 1];
      ConcatCons(x, xs[..|xs| - 1]);
    } else {
      assert [x] + xs == [x];
      assert [x][..0] == [];
    }
  }

  /** Index of the first occurrence of `c` in `s`, if any. */
  function IndexOf(s: string, c: char): (r: Option<nat>)
    ensures r.Some? ==> r.value < |s| && s[r.value] == c && forall i :: 0 <= i < r.value ==> s[i] != c
    ensures r.None? <==> c !in s
    decreases |s|
  {
    if s == [] then None
    else if s[0] == c then Some(0)
    else match IndexOf(s[1..], c)
      case None => None
      case Some(i) => Some(i + 1)
  }

  /** Index of the last occurrence of `c` in `s`, if any. */
  function LastIndexOf(s: string, c: char): (r: Option<nat>)
    ensures r.Some? ==> r.value < |s| && s[r.value] == c && forall i :: r.value < i < |s| ==> s[i] != c
    ensures r.None? <==> c !in s
    decreases |s|
  {
    if s == [] then None
    else if s[|s| - 1] == c then Some(|s| - 1)
    else LastIndexOf(s[..|s| - 1], c)
  }

  /** A character absent from the text and from the replacement is absent from the result. */
  lemma {:induction false} ReplaceKeepsOut(t: string, p: string, r: string, c: char)
    requires c !in t && c !in r
    ensures c !in ReplaceAll(t, p, r)
    decreases |t|
  {
    if p == [] {
      InsertKeepsOut(t, r, c);
    } else if StartsWith(t, p) {
      assert forall i :: |p| <= i < |t| ==> t[|p|..][i - |p|] == t[i];
      ReplaceKeepsOut(t[|p|..], p, r, c);
    } else if t != [] {
      ReplaceKeepsOut(t[1..], p, r, c);
    }
  }

  lemma {:induction false} InsertKeepsOut(t: string, r: string, c: char)
    requires c !in t && c !in r
    ensures c !in InsertAround(t, r)
    decreases |t|
  {
    if t != [] {
      InsertKeepsOut(t[1..], r, c);
    }
  }
}

=== FILE: wrappers.dfy ===
/** Option and Result, used wherever the Python code returns None or raises. */
module Wrappers {

  datatype Option<+T> = None | Some(value: T)

  datatype Result<+T, +E> = Ok(value: T) | Err(error: E) {
    predicate IsFailure() { Err? }

    function PropagateFailure<U>(): Result<U, E>
      requires Err?
    {
      Err(error)
    }

    function Extract(): T
      requires Ok?
    {
      value
    }
  }

  /** Items produced before a computation that may still fail: kept in front on success, dropped on failure. */
  function Prepend<T, E>(xs: seq<T>, r: Result<seq<T>, E>): (p: Result<seq<T>, E>)
    ensures p.Ok? <==> r.Ok?
    ensures p.Ok? ==> p.value == xs + r.value
    ensures p.Err? ==> p == r
  {
    if r.Ok? then Ok(xs + r.value) else r
  }

  lemma PrependNothing<T, E>(r: Result<seq<T>, E>)
    ensures Prepend([], r) == r
  {
    if r.Ok? {
      assert [] + r.value == r.value;
      assert Ok(r.value) == r;
    }
  }

  lemma PrependTwice<T, E>(a: seq<T>, xs: seq<T>, r: Result<seq<T>, E>)
    ensures Prepend(a, Prepend(xs, r)) == Prepend(a + xs, r)
  {
    if r.Ok? {
      assert a + (xs + r.value) == (a + xs) + r.value;
    }
  }
}
